=== FILE: README.md ===
# Lingo journaling backend and client: a verified model

Lingo is a journaling application for English learners. A FastAPI backend
stores one journal per user per day and records the feedback a language
model gives on the writing. Each feedback item becomes a topic, a per-user
error with a repetition count, a learning point and a history row. The
backend aggregates this error ledger into progress and administrator
statistics, publishes announcements and surveys, and runs a background
"context agent" that condenses a completed journal into a user profile. A
small gateway client talks to the model server: it extracts JSON from
replies and retries with exponential back-off. A Vue/Pinia client caches
journals and notifications and guards its routes. A helper script renders
a directory tree as text.

This project models that core as pure functions over immutable values and
proves properties of it:

- **Database.** Every table is a sequence of rows in insertion order
  (`Models.Db`). SQL `.first()` is the first matching row.
- **Handlers.** Each request handler returns a `Step`: the committed
  database plus either a value or the HTTP error it raised.
- **Collaborators.** The language model, password hashing, token signing,
  `json.loads` and `raw_decode`, and the HTTP transport are
  function-valued parameters.
- **Time.** Wall-clock time and "today" are parameters.
- **Background jobs.** A scheduled background job is a row appended to
  `Db.jobs`.
- **Client stores.** An asynchronous store action is modelled by the state
  it leaves once its request has settled (`Outcome`: returned or raised).

Modules, one per source file:

| module | file | source |
|---|---|---|
| `Wrappers`, `Seqs`, `Sorting`, `Text`, `JsonValues` | wrappers.dfy, seqs.dfy, sorting.dfy, text.dfy, json_values.dfy | shared: Option/Result/Outcome, `.first()`, filtering, counting, stable insertion sort, Python string operations, JSON values and Python truthiness |
| `Models` | models.dfy | backend/app/models.py |
| `Schemas` | schemas.dfy | backend/app/schemas.py |
| `AiRouter` | ai_router.dfy | backend/app/routers/ai.py |
| `JournalsRouter` | journals.dfy | backend/app/routers/journals.py |
| `NotificationsRouter` | notifications.dfy | backend/app/routers/notifications.py |
| `Progress` | progress.dfy | backend/app/routers/progress.py |
| `AdminRouter` | admin.dfy | backend/app/routers/admin.py |
| `AuthRouter` | auth.dfy | backend/app/routers/auth.py |
| `ContextAgent` | context_agent.dfy | backend/app/services/context_agent.py |
| `AiService` | ai_service.dfy | backend/app/services/ai_service.py |
| `ApiClient` | client.dfy | gemini_api_client/gemini_api_client/client.py |
| `JournalStore` | journal_store.dfy | frontend/src/stores/journalStore.js |
| `NotificationStore` | notification_store.dfy | frontend/src/stores/notificationStore.js |
| `RouteGuard` | route_guard.dfy | frontend/src/router/index.js |
| `FileTree` | file_tree.dfy | compiler.py |

Some files come from different revisions of the program, and the model
follows each file as written:

- The routers read columns that models.py does not declare: `is_admin`,
  `student_id`, `realname`, `group`, `writing_phase` and `outline_content`,
  plus the chat-message, notification and profile tables. The model
  includes those columns and tables because the routers use them.
- ai.py calls two functions that ai_service.py does not define:
  `get_ai_feedback_from_text` and `get_ai_chat_response`. They are
  parameters (`analyze`, `chat`).
- `JournalUpdate` declares only `content`, yet the update handler reads
  `outline_content`. The model passes the outline as an optional argument.
- schemas.py opens with a comment standing in for "existing" schemas and
  declares none of the fourteen the routers name: `AdminErrorDistributionItem`,
  `AdminErrorTrendPoint`, `AdminStudentDetail`, `AdminStudentSummary`,
  `JournalPhaseUpdate`, `NotificationCreate`, `NotificationOut`,
  `ProgressSummary`, `SurveyResponseCreate`, `SurveyResultOut`, `TopTopic`,
  `UserNotificationStatusOut`, `UserTopic` and `UserTopicDetails`. Read
  literally, the routers would fail at import. The model supplies a shape for
  each from the handler that builds it (for example `Progress.Summary`,
  `NotificationsRouter.CreateNotification`, `JournalsRouter.UpdateJournalPhase`,
  `AdminRouter.GetStudentDetails`).

## Model

| member | source | states |
|---|---|---|
| Models.MidnightComparison | backend/app/routers/admin.py:75-81 | A timestamp is at or after midnight of a date exactly when its date is on or after that date. This is how `last_occurred_at >= thirty_days_ago` compares a timestamp with a date. |
| Models.ErrorUniquenessIsApplicationLevel | backend/app/models.py:40-49 | Some database meets every declared constraint (unique username, email and topic name, plus the foreign keys) and still holds two error rows for the same (user, topic, phrase). |
| Models.JournalUniquenessIsApplicationLevel | backend/app/models.py:20-28 | Some database meets every declared constraint and still holds two journals for the same (user, date). |
| Models.DeleteError | backend/app/models.py:62-67 | Deleting an error removes exactly that error row and exactly the history rows pointing at it (`ondelete="CASCADE"`). No other table changes. |
| Models.DeleteUser | backend/app/models.py:20-23 | Deleting a user removes exactly that user, their journals and their error rows, and keeps exactly the history rows whose error survives. |
| Models.DeleteUserKeepsLedger | backend/app/models.py:40-67 | The user cascade keeps the error ledger well formed: application uniqueness, fresh keys and resolving references. |
| Models.DeleteErrorKeepsLedger | backend/app/models.py:62-67 | The error cascade keeps the error ledger well formed. |
| Schemas.ParseFeedbackItem | backend/app/schemas.py:68-73 | An item validates exactly when it is an object with string `error_type`, `incorrect_phrase`, `suggestion` and `explanation`. The parsed item carries those four strings. |
| Schemas.FeedbackItemRoundTrip | backend/app/schemas.py:68-73 | Rendering an item back to its JSON shape and validating it gives the same item. |
| Schemas.ParseJournalBody | backend/app/schemas.py:43-49 | A journal create/update body validates exactly when it has a string `content`. |
| Schemas.UserOutHidesPassword | backend/app/schemas.py:17-20 | The user output does not depend on the stored password hash. |
| AiRouter.TopicStepWf | backend/app/routers/ai.py:49-55 | Get-or-create of a topic by name keeps the ledger well formed, returns an existing topic id, and changes only the topic table and the key counter. |
| AiRouter.ErrorStepWf | backend/app/routers/ai.py:57-77 | Counting an occurrence keeps the ledger well formed, returns an existing error id, and changes only the error table and the key counter. |
| AiRouter.PointStepWf | backend/app/routers/ai.py:79-93 | Get-or-create of a learning point keeps the ledger well formed and returns an existing point id. |
| AiRouter.HistoryStepWf | backend/app/routers/ai.py:95-101 | Appending a history row that references an existing error and point keeps the ledger well formed. |
| AiRouter.ProcessItemKeepsLedger | backend/app/routers/ai.py:46-101 | Recording one feedback item keeps topic names, (user, topic, phrase) errors and (topic, explanation) points unique, keys fresh and references resolving. |
| AiRouter.ProcessItemTopic | backend/app/routers/ai.py:50-55 | Afterwards a topic with the item's category exists and is the item's topic. An existing topic of that name is reused with the topic table unchanged; otherwise exactly one topic is appended. |
| AiRouter.ProcessItemCountsOccurrence | backend/app/routers/ai.py:58-73 | The repetition count for (user, topic, phrase) goes up by exactly one and its last occurrence becomes now. A first occurrence appends one 'active' row first seen now. Every other error row is unchanged. |
| AiRouter.ProcessItemPoint | backend/app/routers/ai.py:80-93 | Existing learning points, suggestion text included, are never changed. A missing (topic, explanation) point is appended with the item's suggestion. |
| AiRouter.ProcessItemHistory | backend/app/routers/ai.py:96-101 | Exactly one history row is appended, even when error and point both existed. It links the item's error row to its learning point at time now. |
| AiRouter.ProcessRawEffect | backend/app/routers/ai.py:46-101 | Processing the items in order keeps the ledger well formed. It appends exactly one history row per item validated before the first invalid one, and never alters existing history. |
| AiRouter.ProcessRawOk | backend/app/routers/ai.py:46-47 | Processing completes exactly when every item validates, whatever the ledger holds. |
| AiRouter.SubmitFeedback | backend/app/routers/ai.py:13-103 | Short text gives 422. No journal for (user, date) gives 404 with nothing written. A `None` analysis gives 503 with nothing written. Success happens exactly when all checks pass and every item validates, and it returns the analysis. |
| AiRouter.SubmitFeedbackKeepsLedger | backend/app/routers/ai.py:13-103 | Whatever the outcome, the ledger stays well formed. |
| AiRouter.SubmitTwice | backend/app/routers/ai.py:46-101 | Submitting the same item twice from an empty ledger gives 1 topic, 1 error with count 2 (first seen at the first time, last seen at the second), 1 learning point and 2 history rows. |
| AiRouter.ChatWithAi | backend/app/routers/ai.py:105-157 | An empty message gives 422 and a missing journal gives 404. Every error leaves the database unchanged, including 503 for an empty reply. Success stores old content (or "") + "\n\nUser: " + message + "\n\nLingo: " + reply in that journal only, and returns it. |
| AiRouter.ChatAppendsOnly | backend/app/routers/ai.py:129-153 | A successful chat keeps the previous content as a strict prefix, ends with Lingo's reply, and keeps one journal per user and date. |
| JournalsRouter.CreateJournal | backend/app/routers/journals.py:14-49 | An existing journal for (user, today) gives 400 with nothing written. Otherwise one journal is appended with the given content and an empty outline; nothing else changes. |
| JournalsRouter.GetAllJournals | backend/app/routers/journals.py:51-60 | The result holds exactly the caller's journals, each as often as stored, ordered by date descending. |
| JournalsRouter.GetJournalByDate | backend/app/routers/journals.py:62-82 | The result is found exactly when the caller has a journal for the date, and is such a journal. Otherwise it is 404. |
| JournalsRouter.UpdateJournal | backend/app/routers/journals.py:84-113 | A missing journal gives 404 with nothing written. Otherwise the content is always overwritten, the outline only when one is given, and no other journal changes. |
| JournalsRouter.UpdateJournalPhase | backend/app/routers/journals.py:115-155 | A missing journal gives 404. Otherwise any phase is stored with no ordering check and only the phase changes. A context job (journal id, user id) is scheduled exactly when the new phase is `completed`. |
| JournalsRouter.JournalEndpointsKeepOnePerDay | backend/app/routers/journals.py:27-36 | Create, update and phase update each keep at most one journal per user and date. |
| JournalsRouter.CreateThenGet | backend/app/routers/journals.py:14-82 | After a successful create, reading today's journal returns the created one. |
| JournalsRouter.UpdateThenGet | backend/app/routers/journals.py:84-113 | After a successful update, reading the same date returns the new content. |
| JournalsRouter.AllJournalsStrictlyNewestFirst | backend/app/routers/journals.py:59 | With one journal per date, the list is strictly newest first. |
| NotificationsRouter.AddOptions | backend/app/routers/notifications.py:43-49 | Option k is stored after the existing options as (nextId + k, the question, text k), and the key counter moves on by the number of texts. No other table changes. |
| NotificationsRouter.AddQuestionsStores | backend/app/routers/notifications.py:33-49 | After the existing rows come the survey's questions, in order, each under the notification with its text and type. Each question's options follow under that question's id, question by question, and a missing option list adds none. Keys are handed out in insertion order. |
| NotificationsRouter.CreateNotification | backend/app/routers/notifications.py:14-53 | The new notification keeps the body's title, content and type, is unpublished, created now and appended. For a survey, its questions and options are stored in order under it. An announcement leaves questions and options unchanged. No other table changes. |
| NotificationsRouter.CreateThenResults | backend/app/routers/notifications.py:14-121 | A new survey reads back through the results endpoint as one result per question, in order, with the question's text and no responses. A new announcement has no results (404). |
| NotificationsRouter.GetAllNotifications | backend/app/routers/notifications.py:55-66 | Every notification appears exactly as often as stored, newest first. |
| NotificationsRouter.FindStatus | backend/app/routers/notifications.py:165-168 | A status row is found exactly when the user has one for the notification, and it is such a row. |
| NotificationsRouter.GetActive | backend/app/routers/notifications.py:125-146 | The result holds exactly the published notifications the user has no status row for, newest first. |
| NotificationsRouter.Publish | backend/app/routers/notifications.py:68-87 | An unknown id gives 404 and an already published one gives 400 "Notification is already published", both with nothing changed. Success exactly otherwise, and then only that notification becomes published. |
| NotificationsRouter.PublishIsOneWay | backend/app/routers/notifications.py:77-87 | Publishing never unpublishes any notification, and publishing the same one again is refused with 400. |
| NotificationsRouter.ResultsFor | backend/app/routers/notifications.py:107-121 | There is one result per question, in order, each holding that question's responses. |
| NotificationsRouter.SurveyResults | backend/app/routers/notifications.py:90-121 | 404 exactly when no survey has that id, published or not. Otherwise, for each question of the survey, every response given to it. |
| NotificationsRouter.MarkSeen | backend/app/routers/notifications.py:149-180 | An unknown or unpublished id gives 404, and a published survey gives 400 "This endpoint is only for announcements.", both with nothing changed. Success exactly for a published announcement. A status row with both flags set is appended only when the user has none. |
| NotificationsRouter.MarkSeenIdempotent | backend/app/routers/notifications.py:165-178 | Marking as seen twice has the same effect and response as marking once. |
| NotificationsRouter.AddChoiceRows | backend/app/routers/notifications.py:216-223 | One response row per selected option, in order, for that user and question, each under a fresh key. Existing rows are kept. |
| NotificationsRouter.AddAnswerRow | backend/app/routers/notifications.py:207-223 | An answer with non-empty text adds one text row. Otherwise it adds one row per selected option, or nothing without options. The rows go after the existing ones. |
| NotificationsRouter.AddAnswerRowsStores | backend/app/routers/notifications.py:207-223 | Every answer's rows are stored after the existing ones, answer by answer and in order, owned by the user, under keys handed out in order. |
| NotificationsRouter.SubmitSurvey | backend/app/routers/notifications.py:183-235 | An unknown or unpublished id gives 404. A published announcement gives 400 "This notification is not a survey.". A second submission gives 400 "Survey has already been submitted.". All three change nothing. Success exactly otherwise: every answer's rows are stored in order, and one completed status row is appended. |
| NotificationsRouter.DoneLeavesActive | backend/app/routers/notifications.py:134-144 | After a successful seen or submit, the notification is not in that user's active list. |
| NotificationsRouter.StatusEndpointsKeepOneStatus | backend/app/routers/notifications.py:165-205 | Seen and submit keep at most one status row per (user, notification). |
| NotificationsRouter.JoinOne | backend/app/routers/notifications.py:245-263 | The outer join of one notification gives one entry per matching status row, or a single entry when there is none. |
| NotificationsRouter.Entries | backend/app/routers/notifications.py:257-263 | Each matching status row gives an entry with that row's seen and completed flags. |
| NotificationsRouter.JoinAllOnePerNotification | backend/app/routers/notifications.py:245-263 | With one status row per user and notification, the history has exactly one entry per published notification. Its flags come from the user's status row, or are false when there is none. |
| NotificationsRouter.History | backend/app/routers/notifications.py:237-265 | Every entry is of a published notification, and every published notification has an entry. |
| NotificationsRouter.HistoryOneEntryEach | backend/app/routers/notifications.py:237-265 | With one status row per user and notification, the entries are exactly the published notifications, each once, newest first. Their flags come from the user's status row, or are false when there is none. |
| Progress.JoinTopics | backend/app/routers/progress.py:37-38 | The join keeps only topic rows, and every topic row whose id an error references. |
| Progress.CountKeys | backend/app/routers/progress.py:34-45 | Each key is paired with its multiplicity among the rows. |
| Progress.GroupCounts | backend/app/routers/progress.py:41-42 | `GROUP BY` gives one group per distinct key, counted by multiplicity, covering exactly the keys present. |
| Progress.Rank | backend/app/routers/progress.py:41-44 | Groups ordered by count, largest first, with distinct keys and exact counts. |
| Progress.TopicsEncountered | backend/app/routers/progress.py:29 | The number of distinct topic ids among the caller's error rows. |
| Progress.Top | backend/app/routers/progress.py:43-45 | At most the limit, counts non-increasing, keys distinct and counted exactly. Fewer than the limit only when no key is left out. Any key left out counts no more than any kept key. |
| Progress.TopTopics | backend/app/routers/progress.py:34-48 | At most 3 topic names, in non-increasing error count, each name once with its exact count, and no omitted name beats a listed one. |
| Progress.Summary | backend/app/routers/progress.py:14-54 | `total_errors` counts the caller's error rows, not repetitions. `topics_encountered` counts distinct topic ids. `top_topics` is the top three by name. |
| Progress.TopicNameCount | backend/app/routers/progress.py:34-45 | With a well-formed ledger, a topic name's count is the number of the caller's error rows in that topic. |
| Progress.RankTopics | backend/app/routers/progress.py:76-80 | One entry per (topic id, name), largest count first, counts exact. |
| Progress.UserTopics | backend/app/routers/progress.py:57-82 | One entry per topic the caller has errors in, by count descending, each with its error-row count. |
| Progress.TopicKeyCount | backend/app/routers/progress.py:68-80 | With a well-formed ledger, a listed topic's count is the number of the caller's error rows in it. |
| Progress.JoinPoint | backend/app/routers/progress.py:125-126 | The joined rows of an error and a history row are exactly those with the point that history row references. |
| Progress.JoinHistory | backend/app/routers/progress.py:123-126 | The joined rows of one error are exactly its history rows paired with their points. |
| Progress.JoinLedger | backend/app/routers/progress.py:117-130 | The three-way inner join holds exactly the linked (error, history, point) triples. |
| Progress.TopicErrors | backend/app/routers/progress.py:117-130 | `DISTINCT` detail rows: each appears once, and a detail appears exactly when some caller error in the topic has a history row linking it to a learning point. Errors without history are omitted. |
| Progress.TopicDetailsOf | backend/app/routers/progress.py:86-137 | 404 exactly when the caller has no error in the topic. Otherwise the topic's id, name and error-row count with the distinct detail rows. |
| AdminRouter.LastActive | backend/app/routers/admin.py:23 | `max(updated_at)`: none exactly for no journals; otherwise an upper bound attained by some journal. |
| AdminRouter.Summarize | backend/app/routers/admin.py:20-46 | A summary carries the user's id, username, email, realname, student id, group, creation time and admin flag, the number of their journals and error rows (a missing count is 0), and the latest journal update, which is absent exactly with no journals. |
| AdminRouter.AllStudents | backend/app/routers/admin.py:15-49 | One summary per non-administrator, none for administrators. Students without journals are included. |
| AdminRouter.Distribution | backend/app/routers/admin.py:66-72 | Error rows per topic name, largest count first, each name once with its exact count, covering exactly the names present. |
| AdminRouter.TrendDays | backend/app/routers/admin.py:75-81 | The last-occurrence dates of exactly the errors inside the 30-day window, each as often as it occurs. |
| AdminRouter.DayMultiplicity | backend/app/routers/admin.py:79-83 | A day's count after mapping errors to dates is the number of window errors on that day. |
| AdminRouter.DayGroups | backend/app/routers/admin.py:82-83 | One group per date, strictly ascending, counts exact. |
| AdminRouter.Trend | backend/app/routers/admin.py:76-83 | Error rows per date by strictly ascending date, each date once with its exact count. |
| AdminRouter.GetStudentDetails | backend/app/routers/admin.py:51-101 | 404 exactly when no non-administrator has the id. Otherwise the summary of that student (`Summarize` of the matching user row), their error distribution by topic name and their 30-day trend. |
| AdminRouter.StudentErrors | backend/app/routers/admin.py:113-114 | The join with users keeps exactly the error rows of non-administrators. |
| AdminRouter.ClassErrorDistribution | backend/app/routers/admin.py:104-116 | The class distribution names exactly the topics of students' errors, each once with its exact error-row count, largest count first. |
| AdminRouter.ClassErrorTrend | backend/app/routers/admin.py:119-133 | The class trend has strictly ascending dates, all inside the 30-day window, each with its exact count, and every student error inside the window shows up on its date. |
| AdminRouter.AdminErrorsIgnored | backend/app/routers/admin.py:109-133 | An error row of an administrator (or of no user) changes neither the class distribution nor the class trend. |
| AdminRouter.GetStudentJournals | backend/app/routers/admin.py:136-146 | 404 exactly when no non-administrator has the id. Otherwise exactly the student's journals, newest date first. |
| AdminRouter.GetStudentJournalByDate | backend/app/routers/admin.py:149-165 | Found exactly when some journal has that owner and date. There is no student check. |
| AdminRouter.ByDateSkipsStudentCheck | backend/app/routers/admin.py:141-163 | Some database has an administrator's journal that the list endpoint refuses with 404 but the by-date endpoint serves. |
| AuthRouter.SignupCheck | backend/app/routers/auth.py:20-40 | Email, then username, then student id is checked. The first collision decides the message, and none means all three are free. |
| AuthRouter.Signup | backend/app/routers/auth.py:11-61 | Refused with that 400 exactly when a check collides, with nothing inserted. Otherwise one non-administrator user is appended with a fresh id, the form's fields and hash(password) as the credential. The response is that user without password. |
| AuthRouter.SignupKeepsUniqueness | backend/app/routers/auth.py:20-59 | Signup keeps usernames, emails and present student ids unique and keeps every database constraint. |
| AuthRouter.SecondSignupWithoutStudentIdRefused | backend/app/routers/auth.py:35-40 | Once a user without student id exists, every signup without student id is refused, because `== None` compiles to `IS NULL`. |
| AuthRouter.SignupAsDeclared | backend/app/routers/auth.py:20-52 | On the declared `UserCreate` body, a signup never succeeds and never writes. It gives 400 for a taken email or username and a server error otherwise. |
| AuthRouter.DeclaredSchemaBlocksSignup | backend/app/schemas.py:13-15 | Into an empty database, the declared body fails with a server error, while the same request with the fields the handler reads succeeds. |
| AuthRouter.Login | backend/app/routers/auth.py:64-87 | Every failure is the same 401. A token means a user with that name whose hash verifies the password, signed over that user's id, type "bearer". With unique usernames, a token is issued exactly when such a user exists. |
| AuthRouter.SignupThenLogin | backend/app/routers/auth.py:44-87 | After a successful signup, logging in with the same password gives a bearer token over the new user's id, provided the hash verifies its own input. |
| ContextAgent.ThematicSummary | backend/app/services/context_agent.py:29-35 | With no model: the fixed sentence. A failing model call propagates. Otherwise the reply with whitespace cut from both ends only: a slice of the reply that neither starts nor ends with whitespace. |
| ContextAgent.CallGemini | backend/app/services/context_agent.py:17-27 | Raises exactly when no model is configured. A failing call gives None. Otherwise the fence-free, stripped reply parsed as JSON. |
| ContextAgent.MessageLines | backend/app/services/context_agent.py:79 | One "sender: text" line per message, in message order. |
| ContextAgent.FullText | backend/app/services/context_agent.py:78-80 | The text starts with the content followed by "\n\nChat History:\n". |
| ContextAgent.FullTextFirstMessage | backend/app/services/context_agent.py:78-80 | With no messages the text ends at the header, and a first message's "sender: text" line follows the header directly. |
| ContextAgent.FullTextSnoc | backend/app/services/context_agent.py:78-80 | Each further message adds "\n" and its own line at the end, so the messages appear in order, one per line, without a trailing newline. |
| ContextAgent.UpsertProfile | backend/app/services/context_agent.py:90-101 | Afterwards the user's first profile is exactly the new data and time. Other users' profiles are kept, no foreign profile appears, and one profile per user is preserved. |
| ContextAgent.ProcessJournal | backend/app/services/context_agent.py:63-110 | Only profiles can change. Without commit the database is unchanged, which covers an unknown journal, an unconfigured model and any raising step. It commits exactly when the journal exists and all model steps return. The profile is then exactly {linguistic, cognitive}, with a missing insight as {}. |
| ContextAgent.ProfileOverwrites | backend/app/services/context_agent.py:95-100 | The stored profile does not influence the written one: any earlier profile data is discarded. |
| ContextAgent.UnconfiguredNeverWrites | backend/app/services/context_agent.py:17-35 | Without a configured model the agent never commits. The summary falls back to the fixed sentence, but the extraction raises. |
| AiService.ImageDescription | backend/app/services/ai_service.py:11-26 | An exception gives "Could not generate a description for the image.". Otherwise the client's reply as is. The result is None exactly when the client returned None, and any result other than the fallback sentence is the client's own reply. |
| AiService.Scaffolding | backend/app/services/ai_service.py:206-243 | A string reply is parsed after trimming and fence removal, leaving no fence. A non-string reply, None included, is returned unchanged. An exception or parse failure gives the fixed ASK_QUESTION reply. |
| AiService.WritingContextNeverEmpty | backend/app/services/ai_service.py:250-254 | The model is never shown an empty outline or draft, and a given outline is passed unchanged. |
| AiService.WritingPartner | backend/app/services/ai_service.py:245-263 | An empty outline or draft reaches the model as its placeholder. An exception gives the fixed apology. The result is None exactly when the client returned None, and any result other than the apology is the client's own reply. |
| AiService.TypoKeyIn | backend/app/services/ai_service.py:279 | Python's `in` on the reply raises exactly for None, booleans and numbers. |
| AiService.Evaluation | backend/app/services/ai_service.py:265-288 | `high_level_level_summary` is renamed to `high_level_summary` with its value. Failure (an exception, None, or a reply `in` cannot handle) gives the fixed summary with empty `feedback_items`. No object result keeps the misspelt key. |
| AiService.EvaluationKeepsOtherKeys | backend/app/services/ai_service.py:279-282 | The renaming keeps every other key of an object reply and its value. |
| AiService.QuickCorrection | backend/app/services/ai_service.py:290-305 | Raises exactly when the client raises (there is no handler). Otherwise the result is truthy: the reply when truthy, else {"status": "no_errors"}. |
| AiService.QuickCorrectionStable | backend/app/services/ai_service.py:290-305 | A returned correction fed back as the reply comes out unchanged: both a truthy reply and {"status": "no_errors"} are fixed points. |
| AiService.RequestsAreSound | backend/app/services/ai_service.py:16-300 | Every request sends an image only to the vision-capable model, and asks for JSON output exactly for the replies the service parses (scaffolding, evaluation, quick correction), never for description or writing. |
| ApiClient.IndexedLines | gemini_api_client/gemini_api_client/client.py:20-21 | Line k is "k. item k", numbered from 0. |
| ApiClient.FormatIndexedSnoc | gemini_api_client/gemini_api_client/client.py:20-21 | One more item adds "\n" and the next numbered line: lines are joined with no trailing newline. |
| ApiClient.FormatIndexedEmpty | gemini_api_client/gemini_api_client/client.py:20-21 | The text is empty exactly for an empty list, and otherwise starts with "0. " and the first item. |
| ApiClient.FencedBlock | gemini_api_client/gemini_api_client/client.py:24-26 | No block without a "```json" fence. A block holds no fence and neither starts nor ends with whitespace (non-greedy capture). |
| ApiClient.FencedBlockFound | gemini_api_client/gemini_api_client/client.py:24-26 | A block is found exactly when some "```json" fence is followed, anywhere later, by a closing "```". |
| ApiClient.FencedBlockValue | gemini_api_client/gemini_api_client/client.py:24-26 | The block is the text between the first "```json" fence and the first "```" after it, with whitespace cut from both ends. |
| ApiClient.ScanFrom | gemini_api_client/gemini_api_client/client.py:31-51 | No result only when `raw_decode` fails at every `{` or `[` from the start index on. |
| ApiClient.ScanTakesFirst | gemini_api_client/gemini_api_client/client.py:33-49 | A result is the value decoded at the first bracket where decoding succeeds. |
| ApiClient.NextOpener | gemini_api_client/gemini_api_client/client.py:34-44 | The minimum of the two `find` calls is the first `{` or `[` at or after the index, or none. |
| ApiClient.ExtractJson | gemini_api_client/gemini_api_client/client.py:23-51 | The loop returns the parsed fenced block when it parses, else the leftmost decodable bracket's value, else None. Its index strictly increases, so it terminates. |
| ApiClient.BackoffIsExponential | gemini_api_client/gemini_api_client/client.py:81-135 | The k-th pause is the initial back-off times 2^k. |
| ApiClient.QueryWithRetries | gemini_api_client/gemini_api_client/client.py:55-139 | At most max(max_retries, 0) attempts. Every attempt before the last failed retryably. None exactly when all attempts failed. A value is the last attempt's truthy data. An uncaught error is raised. One pause fewer than attempts, the k-th being initial·2^k. |
| JournalStore.GetJournalByDate | frontend/src/stores/journalStore.js:14-16 | Undefined exactly when no journal has that date; otherwise a journal of that date from the list. |
| JournalStore.ReplaceAt | frontend/src/stores/journalStore.js:186 | `splice(i, 1, x)` puts x at position i and keeps every other position. |
| JournalStore.UpdateLocalJournal | frontend/src/stores/journalStore.js:181-190 | Null or date-less input is ignored. Otherwise the first journal of that date is replaced in place, length unchanged, or the journal is put in front. |
| JournalStore.UpdateThenGet | frontend/src/stores/journalStore.js:181-190 | After a local update, a lookup of its date finds it, and lookups of other dates are unchanged. |
| JournalStore.SetJournalContent | frontend/src/stores/journalStore.js:192-197 | Only the content of the first journal of that date changes; an unknown date changes nothing. |
| JournalStore.FetchJournals | frontend/src/stores/journalStore.js:20-34 | The reply replaces the list; a failure keeps it and reports the fixed message. |
| JournalStore.FetchJournalByDate | frontend/src/stores/journalStore.js:35-64 | A cached journal is returned without a request unless `forceRefresh`. A fetched one replaces the same-date entry in place or is appended. A failure returns null with the list kept. |
| JournalStore.FetchThenGet | frontend/src/stores/journalStore.js:35-64 | A fetched journal of the requested date is what a later lookup finds. |
| JournalStore.CreateJournal | frontend/src/stores/journalStore.js:66-81 | The created journal is prepended and returned; a failure keeps the list and returns null. |
| JournalStore.UpdateWith | frontend/src/stores/journalStore.js:83-114 | The reply goes through `updateLocalJournal`; a failure keeps the list and reports the given message. |
| JournalStore.UpdateJournalThenGet | frontend/src/stores/journalStore.js:83-114 | After a successful `updateJournal` of a dated journal, a lookup of that date finds it and other dates are unaffected. A failure keeps the list. `updateJournalPhase` has the same effect on the list and the same result; only its failure message differs. |
| JournalStore.AddChatMessageOptimistically | frontend/src/stores/journalStore.js:171-179 | An unknown date changes nothing. Otherwise the first journal of that date gets the message at the end of its list, created when missing. |
| JournalStore.RemoveMessage | frontend/src/stores/journalStore.js:160-163 | Only the first journal of that date loses its messages with the given id. |
| JournalStore.UploadImage | frontend/src/stores/journalStore.js:117-169 | The optimistic message is added first. A reply goes through `updateLocalJournal`. A failure removes the temporary message again and reports the server's detail, or "Failed to upload image.". |
| JournalStore.FailedUploadRestores | frontend/src/stores/journalStore.js:140-163 | A failed upload leaves every journal as before, except that a missing message list becomes empty. |
| NotificationStore.RemoveNotificationById | frontend/src/stores/notificationStore.js:87-92 | Removes the first entry with that id, keeping the others' order and all other entries. An absent id changes nothing. |
| NotificationStore.RemoveTakesOutExactlyThatId | frontend/src/stores/notificationStore.js:87-92 | With distinct ids, exactly the notifications with other ids remain, ids stay distinct, and a second removal changes nothing. |
| NotificationStore.FetchActiveNotifications | frontend/src/stores/notificationStore.js:20-32 | The reply replaces the active list; a failure keeps it and reports the fixed message. The modal flags are untouched. |
| NotificationStore.FetchNotificationHistory | frontend/src/stores/notificationStore.js:34-46 | The same for the history list. |
| NotificationStore.MarkAsSeenRemoves | frontend/src/stores/notificationStore.js:15-55 | With distinct ids, an accepted notification is gone and every other pending one stays. The count is then non-zero, and the modal opens by itself, exactly when another notification is pending (and the modal was not opened by hand). A failure leaves the modal decision as it was. |
| NotificationStore.SubmitSurvey | frontend/src/stores/notificationStore.js:57-70 | The entry is removed only after the server accepts; a failure keeps the list, records the message and is rethrown. |
| NotificationStore.UserOpenedNotifications | frontend/src/stores/notificationStore.js:72-76 | Both flags are set whatever the history fetch does, so the modal no longer opens by itself. |
| NotificationStore.CloseHistoryModal | frontend/src/stores/notificationStore.js:78-80 | Only `showHistoryModal` is cleared. |
| NotificationStore.ResetManualOpenState | frontend/src/stores/notificationStore.js:82-85 | Both flags are cleared and nothing else changes. |
| NotificationStore.ModalStaysClosedUntilReset | frontend/src/stores/notificationStore.js:72-85 | After open and close the modal does not reopen by itself; after a reset it does exactly when notifications are pending. |
| RouteGuard.AuthenticatedAfterRefresh | frontend/src/router/index.js:81-84 | After the guard's own refresh, a visitor is authenticated exactly with a token and a user, loaded before or fetched now. |
| RouteGuard.Guard | frontend/src/router/index.js:86-102 | A protected route without authentication goes to '/login', checked first. Otherwise an administrator route without the flag goes to '/'. Otherwise a signed-in visit to '/login' goes to '/'. Everything else proceeds. |
| RouteGuard.AdminRoutesRequireAuth | frontend/src/router/index.js:50-69 | Every administrator route in the table also requires authentication. |
| RouteGuard.AdminRoutesGuarded | frontend/src/router/index.js:50-94 | On the route table, an administrator route proceeds only for a signed-in administrator, and an anonymous visitor is sent to '/login'. |
| RouteGuard.ProceedSatisfiesEveryRecord | frontend/src/router/index.js:86-102 | A visitor who proceeds satisfies every flag of every matched record. |
| RouteGuard.GuardAsShipped | frontend/src/router/index.js:92 | With the administrator flag read as `undefined`, no administrator route ever proceeds. |
| RouteGuard.AdminDashboardUnreachableAsShipped | frontend/src/stores/authStore.js:12-14 | As shipped nobody enters '/admin', while with an `isAdmin` getter a signed-in administrator would. |
| FileTree.NameLeIsTotal | compiler.py:10 | Python's string order on names is a total preorder, so `sorted` is well defined. |
| FileTree.Visible | compiler.py:10-19 | The listed entries are sorted by name. They are exactly the kept ones: directories not excluded, files with a listed extension. Each appears as often as in the directory. |
| FileTree.VisibleSum | compiler.py:10-19 | Sorting and filtering do not change how many lines the entries contribute. |
| FileTree.Lines | compiler.py:21-33 | Every line starts with the prefix, and there is exactly one line per kept entry at any depth. |
| FileTree.ItemLines | compiler.py:21-32 | Every line starts with the prefix. There is one line per kept entry at any depth from position i on. The first line is prefix + connector + the entry's name, with "└── " exactly for the last entry. |
| FileTree.ItemLinesTail | compiler.py:21-32 | An entry's block is its own line, then its directory's lines under the extended prefix ("    " after the last entry, "│   " otherwise), then the blocks of the following entries. |
| FileTree.ItemLinesDrop | compiler.py:21-32 | The lines from entry j on are the lines from entry i on with the earlier entries' blocks dropped. |
| FileTree.ShownEntryBlock | compiler.py:10-32 | Every shown entry has its block in the listing, starting after the blocks of the entries sorted before it: its line with its connector and name, then its directory's lines. |
| FileTree.GenerateFileStructure | compiler.py:3-33 | The text is empty exactly when nothing is kept. Otherwise it starts with the prefix and ends with a line break. It is the listing's lines, each followed by a line break. |
| FileTree.UnlinesAppend | compiler.py:21-33 | The text of two runs of lines is the text of the first followed by the text of the second, so `structure +=` builds the text block by block. |
| FileTree.FirstLine | compiler.py:23-27 | The first line is prefix + connector + the first name, with "└── " exactly when that entry is the only one kept. |
| FileTree.EmptyDirectoryListed | compiler.py:14-19 | A kept directory whose entries are all hidden still gets its line "└── name" and nothing below it. |
| Text.Strip | backend/app/services/context_agent.py:23 | `str.strip()` gives a slice of the input: only whitespace is cut on either side, and the slice neither starts nor ends with whitespace. |
| Text.StripUnique | backend/app/services/context_agent.py:23 | Any cut that removes only whitespace and leaves no whitespace at either end is the one `str.strip()` makes. |
| Text.NoFenceAfterRemoval | backend/app/services/ai_service.py:233 | After `replace("```", "")` no fence remains. |
| Text.CleanFences | backend/app/services/ai_service.py:233 | The cleaned reply has no fence and no surrounding whitespace. A reply without a fence is only stripped. |
| Text.CleanFencesUnwraps | backend/app/services/ai_service.py:233 | A body wrapped as "```json" + body + "```" comes back stripped, provided the body holds no fence and does not end in a backtick. |
| Text.JoinSnoc | backend/app/services/context_agent.py:78-80 | `"\n".join` of one more part appends the separator and the part. |
| Text.NatToStringRoundTrip | frontend/src/stores/journalStore.js:122 | The number in a temporary id is printed in decimal without loss. |

## Left out

- `GET /api/auth/me`: it returns the current user. Resolving that user needs the security module, which is not part of this model.
- Password hashing, password verification and token creation are parameters (`hash`, `verify`, `createToken`). The security module is not part of this model.
- The language-model calls and their prompt wording are uninterpreted parameters, as are `json.loads` and `json.JSONDecoder.raw_decode`.
- `get_ai_feedback_from_text` and `get_ai_chat_response` are absent from ai_service.py and are parameters.
- The HTTP transport of the gateway client (`requests.post`, `raise_for_status`, timeouts, multipart encoding) is left out. Each attempt's outcome is an input, and sleeping is a recorded list of pauses.
- `initial_backoff` is a float in the source and an integer here; only the doubling is modelled.
- Logging and `print` calls are left out.
- SQLAlchemy sessions, flush, refresh and eager loading (`joinedload`) are left out, as are database.py, config.py and main.py. They are persistence and framework plumbing.
- All primary keys come from one counter (`Db.nextId`) rather than one sequence per table; only uniqueness of keys matters here.
- FastAPI background tasks run after the response. Scheduling is an appended job row; running it is `ContextAgent.ProcessJournal` on its own.
- Concurrent requests and interleaved store actions are left out.
- `date.today()`, `datetime.utcnow()` and `Date.now()` are parameters. Dates are day numbers and timestamps are seconds, in UTC.
- Authorization dependencies (`get_current_user`, `get_current_admin_user`) are left out: the caller's id is a parameter. The admin router requires an administrator through a router-level `get_current_admin_user` dependency (backend/app/routers/admin.py:12); the admin handlers take no caller and assume it is already authorised.
- SQL ordering among equal keys (equal dates, equal counts) is not specified by the database. The model fixes one order, a stable sort of table order.
- JSON object key order is not modelled (objects are maps), and JSON numbers are integers.
- Whitespace for `strip` and the regex `\s` is its ASCII part: space, tab, line feed, vertical tab, form feed, carriage return and 0x1C-0x1F. Non-ASCII whitespace (such as U+0085 and U+00A0) is left out.
- `formatDisplayDate` in journalStore.js is date-fns formatting and is left out.
- The blob URL, `URL.revokeObjectURL` and the optimistic message's timestamp and image fields in `uploadImage` are left out; they affect only the display.
- aiStore.js, progressStore.js, adminStore.js, authStore.js (apart from its missing `isAdmin` getter), uiStore.js and api.js are thin wrappers over network calls, the DOM and local storage.
- `compile_codebase_for_prompting` in compiler.py is file-system walking and file output. The directory listing is a value (`FileTree.Entry`) rather than `os.listdir`, and symbolic links are not distinguished.
- The dispatcher, the turn cap and copying the outline into the content on a phase change appear only in prompt text, not in code, so they are not modelled.
- test.py, testapi.py, the vite configs and the package `__init__.py` are example scripts, build configuration and re-exports.
- AuthRouter.Signup: the `EmailStr` validation of the body is not modelled. A malformed email is refused with 422 before the handler runs, and the email is compared and stored as given, without normalisation.
- AuthRouter.Signup: a new user is stored with `is_admin` false. models.py declares no `is_admin` column and the handler sets none, so the default is assumed.
- Models.SenderName: the sender values "user" and "ai" printed by `msg.sender.name` are assumed, because no sender enum is declared in models.py.
- A new journal's writing phase is assumed to be the first one, `scaffolding`. models.py declares no `writing_phase` column and the create handler sets none.
- JournalStore.UploadImage: the server's error detail is taken as an optional string. A non-string detail, such as the list a 422 response carries, would itself become the error and is not modelled.
- Only 400 responses carry their detail text. The texts of 401, 404, 422, 500 and 503 responses are not modelled.
- NotificationsRouter.SubmitSurvey: the question ids of the answers are not checked against the survey, as in the source.
- NotificationsRouter.SurveyResults: results are served for an unpublished survey too, as in the source.

## Findings

| source | as written | input that shows it | evidently intended | confidence | as-written member | corrected member |
|---|---|---|---|---|---|---|
| backend/app/routers/auth.py:35-53 | The signup handler reads `user.student_id`, `user.realname` and `user.group`, but `UserCreate` (backend/app/schemas.py:13-15) declares only email, username and password. Read literally, this raises, so a signup that passes the email and username checks ends in a server error. schemas.py lacks fourteen other schemas the routers need, so the missing fields are probably the same revision skew rather than a shipped bug. | Signup of "a@b.c" / "ana" / "pw" into an empty database | `UserCreate` declares the optional real name, student id and group, and the signup succeeds | not executed | AuthRouter.SignupAsDeclared, AuthRouter.DeclaredSchemaBlocksSignup | AuthRouter.Signup |
| frontend/src/router/index.js:92 | The guard reads `authStore.isAdmin`, but the auth store (frontend/src/stores/authStore.js:12-14) defines only `isAuthenticated`. `undefined` is falsy, so every administrator route redirects to '/'. | A signed-in administrator navigating to '/admin' | The guard reads the user's administrator flag, so a signed-in administrator proceeds | not executed | RouteGuard.GuardAsShipped, RouteGuard.AdminDashboardUnreachableAsShipped | RouteGuard.Guard |

=== FILE: admin.dfy ===
/** The administrator endpoints of backend/app/routers/admin.py: per-student
    summaries and analytics, class-wide error distribution and trend, and
    read access to a student's journals. Every query is a pure function of
    the database. */
module AdminRouter {
  import opened Wrappers
  import opened Seqs
  import opened Sorting
  import opened Models
  import opened Progress
  import JournalsRouter

  // ----- Student summaries -----

  predicate IsStudent(u: User) { !u.isAdmin }

  function Students(users: seq<User>): seq<User> {
    Filter(users, (u: User) => IsStudent(u))
  }

  function OwnedBy(userId: Id): Journal -> bool { (j: Journal) => j.userId == userId }

  /** `max(updated_at)` over some journals: None for none. */
  function LastActive(journals: seq<Journal>): (r: Option<Timestamp>)
    ensures r.None? <==> |journals| == 0
    ensures r.Some? ==> (forall k :: 0 <= k < |journals| ==> journals[k].updatedAt <= r.value)
                        && exists k :: 0 <= k < |journals| && journals[k].updatedAt == r.value
  {
    if |journals| == 0 then None
    else
      var rest := LastActive(journals[1..]);
      if rest.None? || rest.value <= journals[0].updatedAt then
        assert forall k :: 1 <= k < |journals| ==> journals[k] == journals[1..][k - 1];
        Some(journals[0].updatedAt)
      else
        assert forall k :: 1 <= k < |journals| ==> journals[k] == journals[1..][k - 1];
        var w :| 0 <= w < |journals[1..]| && journals[1..][w].updatedAt == rest.value;
        assert journals[w + 1].updatedAt == rest.value;
        rest
  }

  datatype StudentSummary = StudentSummary(
    id: Id,
    username: string,
    email: string,
    realname: Option<string>,
    studentId: Option<string>,
    group: Option<string>,
    createdAt: Timestamp,
    isAdmin: bool,
    journalCount: nat,
    totalErrors: nat,
    lastActive: Option<Timestamp>)

  /** The summary row of one user: the user's columns, how many journals and
      error rows they have, and the latest journal update. */
  function Summarize(db: Db, u: User): (r: StudentSummary)
    ensures r.id == u.id && r.username == u.username && r.email == u.email && r.isAdmin == u.isAdmin
    ensures r.realname == u.realname && r.studentId == u.studentId && r.group == u.group && r.createdAt == u.createdAt
    ensures r.journalCount == Count(db.journals, OwnedBy(u.id))
    ensures r.totalErrors == Count(db.errors, ErrorOf(u.id))
    ensures r.lastActive.None? <==> r.journalCount == 0
    ensures r.lastActive.Some? ==> forall j :: j in db.journals && j.userId == u.id ==> j.updatedAt <= r.lastActive.value
  {
    var mine := Filter(db.journals, OwnedBy(u.id));
    CountIsFilterLength(db.journals, OwnedBy(u.id));
    CountIsFilterLength(db.errors, ErrorOf(u.id));
    var last := LastActive(mine);
    forall j | j in db.journals && j.userId == u.id && last.Some? ensures j.updatedAt <= last.value {
      assert j in mine;
      var k :| 0 <= k < |mine| && mine[k] == j;
    }
    StudentSummary(u.id, u.username, u.email, u.realname, u.studentId, u.group, u.createdAt, u.isAdmin,
                   |mine|, |Filter(db.errors, ErrorOf(u.id))|, last)
  }

  /** `GET /api/admin/students`: one summary per non-administrator, students
      without any journal included (with a count of 0). */
  function AllStudents(db: Db): (r: seq<StudentSummary>)
    ensures |r| == Count(db.users, (u: User) => IsStudent(u))
    ensures forall s :: s in r ==> !s.isAdmin
    ensures forall u :: u in db.users && !u.isAdmin ==> Summarize(db, u) in r
  {
    CountIsFilterLength(db.users, (u: User) => IsStudent(u));
    SummariesCoverStudents(db, Students(db.users));
    SummariesOfStudents(db, Students(db.users));
    Map(Students(db.users), (u: User) => Summarize(db, u))
  }

  lemma SummariesCoverStudents(db: Db, students: seq<User>)
    ensures forall u :: u in students ==> Summarize(db, u) in Map(students, (u: User) => Summarize(db, u))
  {
    var r := Map(students, (u: User) => Summarize(db, u));
    forall u | u in students ensures Summarize(db, u) in r {
      var k :| 0 <= k < |students| && students[k] == u;
      assert r[k] == Summarize(db, u);
    }
  }

  lemma SummariesOfStudents(db: Db, students: seq<User>)
    requires forall u :: u in students ==> !u.isAdmin
    ensures forall s :: s in Map(students, (u: User) => Summarize(db, u)) ==> !s.isAdmin
  {
    var r := Map(students, (u: User) => Summarize(db, u));
    forall s | s in r ensures !s.isAdmin {
      var k :| 0 <= k < |r| && r[k] == s;
      assert students[k] in students;
    }
  }

  // ----- Distribution and trend -----

  datatype DistributionItem = DistributionItem(topicName: string, errorCount: nat)

  function ToItem(g: Group<string>): DistributionItem { DistributionItem(g.key, g.count) }
  function ItemName(d: DistributionItem): string { d.topicName }
  function ItemNames(items: seq<DistributionItem>): seq<string> { Map(items, ItemName) }

  /** Error rows per topic name, largest count first, every name once. */
  function Distribution(names: seq<string>): (r: seq<DistributionItem>)
    ensures forall i, j :: 0 <= i < j < |r| ==> r[i].errorCount >= r[j].errorCount
    ensures forall i, j :: 0 <= i < j < |r| ==> r[i].topicName != r[j].topicName
    ensures forall i :: 0 <= i < |r| ==> r[i].errorCount == multiset(names)[r[i].topicName] >= 1
    ensures forall n :: n in names <==> n in ItemNames(r)
  {
    var ranked := Rank(names);
    var r := Map(ranked, ToItem);
    assert ItemNames(r) == Keys(ranked);
    r
  }

  datatype TrendPoint = TrendPoint(date: Day, errorCount: nat)

  const TrendWindowDays: int := 30

  function ToPoint(g: Group<Day>): TrendPoint { TrendPoint(g.key, g.count) }
  function PointDate(p: TrendPoint): Day { p.date }
  function PointDates(points: seq<TrendPoint>): seq<Day> { Map(points, PointDate) }
  function GroupDay(g: Group<Day>): int { g.key }

  /** `last_occurred_at >= today - 30 days`, the date promoted to its midnight. */
  function InWindow(today: Day): UserError -> bool {
    (e: UserError) => e.lastOccurredAt >= MidnightOf(today - TrendWindowDays)
  }

  function LastDay(e: UserError): Day { DayOf(e.lastOccurredAt) }

  /** The date of the last occurrence of each error inside the window. */
  function TrendDays(errors: seq<UserError>, today: Day): (r: seq<Day>)
    ensures forall d :: d in r ==> d >= today - TrendWindowDays
    ensures forall e :: e in errors && DayOf(e.lastOccurredAt) >= today - TrendWindowDays ==> DayOf(e.lastOccurredAt) in r
    ensures forall e :: e in errors ==>
              multiset(r)[DayOf(e.lastOccurredAt)] == Count(errors, (x: UserError) => x.lastOccurredAt >= MidnightOf(today - TrendWindowDays) && DayOf(x.lastOccurredAt) == DayOf(e.lastOccurredAt))
  {
    var recent := Filter(errors, InWindow(today));
    var r := Map(recent, LastDay);
    forall d | d in r ensures d >= today - TrendWindowDays {
      var k :| 0 <= k < |r| && r[k] == d;
      assert recent[k] in recent;
      MidnightComparison(recent[k].lastOccurredAt, today - TrendWindowDays);
    }
    forall e | e in errors && DayOf(e.lastOccurredAt) >= today - TrendWindowDays ensures DayOf(e.lastOccurredAt) in r {
      MidnightComparison(e.lastOccurredAt, today - TrendWindowDays);
      assert e in recent;
      var k :| 0 <= k < |recent| && recent[k] == e;
      assert r[k] == DayOf(e.lastOccurredAt);
    }
    forall e | e in errors
      ensures multiset(r)[DayOf(e.lastOccurredAt)] ==
              Count(errors, (x: UserError) => x.lastOccurredAt >= MidnightOf(today - TrendWindowDays) && DayOf(x.lastOccurredAt) == DayOf(e.lastOccurredAt))
    {
      DayMultiplicity(errors, today, DayOf(e.lastOccurredAt));
    }
    r
  }

  /** The number of window errors on a day, counted before or after mapping. */
  lemma {:induction false} DayMultiplicity(errors: seq<UserError>, today: Day, d: Day)
    ensures multiset(Map(Filter(errors, InWindow(today)), LastDay))[d] ==
            Count(errors, (x: UserError) => x.lastOccurredAt >= MidnightOf(today - TrendWindowDays) && DayOf(x.lastOccurredAt) == d)
  {
    if |errors| > 0 {
      DayMultiplicity(errors[1..], today, d);
      var rest := Filter(errors[1..], InWindow(today));
      if InWindow(today)(errors[0]) {
        assert Filter(errors, InWindow(today)) == [errors[0]] + rest;
        assert Map([errors[0]] + rest, LastDay) == [LastDay(errors[0])] + Map(rest, LastDay);
      }
    }
  }

  /** `GROUP BY date ORDER BY date`: one group per day, earliest first. */
  function DayGroups(days: seq<Day>): (r: seq<Group<Day>>)
    ensures forall i, j :: 0 <= i < j < |r| ==> r[i].key < r[j].key
    ensures forall i :: 0 <= i < |r| ==> r[i].count == multiset(days)[r[i].key] >= 1
    ensures forall d :: d in days <==> d in Keys(r)
  {
    var groups := GroupCounts(days);
    var sorted := SortAscending(groups, GroupDay);
    SortedDayGroups(days, groups, sorted);
    sorted
  }

  lemma SortedDayGroups(days: seq<Day>, groups: seq<Group<Day>>, sorted: seq<Group<Day>>)
    requires forall i :: 0 <= i < |groups| ==> groups[i].count == multiset(days)[groups[i].key] >= 1
    requires forall d :: d in days <==> d in Keys(groups)
    requires forall i, j :: 0 <= i < j < |groups| ==> groups[i].key != groups[j].key
    requires forall i, j :: 0 <= i < j < |sorted| ==> GroupDay(sorted[i]) <= GroupDay(sorted[j])
    requires multiset(sorted) == multiset(groups)
    ensures forall i, j :: 0 <= i < j < |sorted| ==> sorted[i].key < sorted[j].key
    ensures forall i :: 0 <= i < |sorted| ==> sorted[i].count == multiset(days)[sorted[i].key] >= 1
    ensures forall d :: d in days <==> d in Keys(sorted)
  {
    PermutationKeepsGroups(groups, sorted);
    PermutationKeepsKeys(groups, sorted);
    forall i, j | 0 <= i < j < |sorted| ensures sorted[i].key < sorted[j].key {
      assert GroupDay(sorted[i]) <= GroupDay(sorted[j]);
    }
    forall i | 0 <= i < |sorted| ensures sorted[i].count == multiset(days)[sorted[i].key] >= 1 {
      var g :| 0 <= g < |groups| && groups[g] == sorted[i];
    }
  }

  /** Error rows per day, by ascending date, every day once. */
  function Trend(days: seq<Day>): (r: seq<TrendPoint>)
    ensures forall i, j :: 0 <= i < j < |r| ==> r[i].date < r[j].date
    ensures forall i :: 0 <= i < |r| ==> r[i].errorCount == multiset(days)[r[i].date] >= 1
    ensures forall d :: d in days <==> d in PointDates(r)
  {
    var groups := DayGroups(days);
    PointDatesAreKeys(groups);
    Map(groups, ToPoint)
  }

  lemma PointDatesAreKeys(groups: seq<Group<Day>>)
    ensures PointDates(Map(groups, ToPoint)) == Keys(groups)
  {
    var l := PointDates(Map(groups, ToPoint));
    assert |l| == |Keys(groups)|;
    forall i | 0 <= i < |l| ensures l[i] == Keys(groups)[i] {
    }
  }

  // ----- Student detail -----

  function StudentWithId(studentId: Id): User -> bool { (u: User) => u.id == studentId && !u.isAdmin }

  datatype StudentDetail = StudentDetail(
    summary: StudentSummary,
    errorDistribution: seq<DistributionItem>,
    errorTrend: seq<TrendPoint>)

  /** `GET /api/admin/students/{id}`: 404 for an unknown or administrator id;
      otherwise the student's summary, error distribution by topic name, and
      error trend over the last 30 days. */
  function GetStudentDetails(db: Db, studentId: Id, today: Day): (r: Result<StudentDetail, HttpError>)
    ensures r.Err? <==> forall u :: u in db.users ==> u.id != studentId || u.isAdmin
    ensures r.Err? ==> r.error == NotFound
    ensures r.Ok? ==>
              && r.value.summary.id == studentId && !r.value.summary.isAdmin
              && r.value.errorDistribution == Distribution(ErrorTopicNames(db, studentId))
              && r.value.errorTrend == Trend(TrendDays(Mine(db, studentId), today))
    ensures r.Ok? ==> exists k :: 0 <= k < |db.users| && db.users[k].id == studentId && !db.users[k].isAdmin
                                  && r.value.summary == Summarize(db, db.users[k])
  {
    match FindFirst(db.users, StudentWithId(studentId))
    case None =>
      assert forall u :: u in db.users ==> u.id != studentId || u.isAdmin by {
        forall u | u in db.users ensures u.id != studentId || u.isAdmin {
          var k :| 0 <= k < |db.users| && db.users[k] == u;
          assert !StudentWithId(studentId)(db.users[k]);
        }
      }
      Err(NotFound)
    case Some(i) =>
      assert db.users[i] in db.users;
      Ok(StudentDetail(Summarize(db, db.users[i]), Distribution(ErrorTopicNames(db, studentId)),
                       Trend(TrendDays(Mine(db, studentId), today))))
  }

  // ----- Class analytics -----

  /** Whether `userId` is the id of a non-administrator. */
  predicate IsStudentId(users: seq<User>, userId: Id) {
    exists k :: 0 <= k < |users| && users[k].id == userId && !users[k].isAdmin
  }

  /** `user_errors JOIN users ON user_id = id WHERE NOT is_admin`. User ids are
      primary keys, so each error row meets at most one user row. */
  function StudentErrors(errors: seq<UserError>, users: seq<User>): (r: seq<UserError>)
    ensures forall e :: e in r <==> e in errors && IsStudentId(users, e.userId)
  {
    Filter(errors, (e: UserError) => IsStudentId(users, e.userId))
  }

  /** `GET /api/admin/analytics/error-distribution`: error rows of students
      per topic name, largest count first. */
  function ClassErrorDistribution(db: Db): (r: seq<DistributionItem>)
    ensures forall n :: n in ItemNames(r) <==> n in Map(JoinTopics(StudentErrors(db.errors, db.users), db.topics), TopicName)
    ensures forall i, j :: 0 <= i < j < |r| ==> r[i].errorCount >= r[j].errorCount
    ensures forall i, j :: 0 <= i < j < |r| ==> r[i].topicName != r[j].topicName
    ensures forall i :: 0 <= i < |r| ==>
              r[i].errorCount == multiset(Map(JoinTopics(StudentErrors(db.errors, db.users), db.topics), TopicName))[r[i].topicName] >= 1
  {
    Distribution(Map(JoinTopics(StudentErrors(db.errors, db.users), db.topics), TopicName))
  }

  /** `GET /api/admin/analytics/error-trend`: error rows of students per day
      over the last 30 days, by ascending date. */
  function ClassErrorTrend(db: Db, today: Day): (r: seq<TrendPoint>)
    ensures forall i, j :: 0 <= i < j < |r| ==> r[i].date < r[j].date
    ensures forall i :: 0 <= i < |r| ==> r[i].date >= today - TrendWindowDays
    ensures forall i :: 0 <= i < |r| ==>
              r[i].errorCount == multiset(TrendDays(StudentErrors(db.errors, db.users), today))[r[i].date] >= 1
    ensures forall e :: e in StudentErrors(db.errors, db.users) && DayOf(e.lastOccurredAt) >= today - TrendWindowDays ==>
              DayOf(e.lastOccurredAt) in PointDates(r)
  {
    var r := Trend(TrendDays(StudentErrors(db.errors, db.users), today));
    forall i | 0 <= i < |r| ensures r[i].date >= today - TrendWindowDays {
      assert r[i].date in PointDates(r);
    }
    r
  }

  /** An error row of a user who is not a student (an administrator, or no
      user at all) changes neither class-wide statistic. */
  lemma AdminErrorsIgnored(db: Db, e: UserError, today: Day)
    requires forall u :: u in db.users && u.id == e.userId ==> u.isAdmin
    ensures ClassErrorDistribution(db.(errors := db.errors + [e])) == ClassErrorDistribution(db)
    ensures ClassErrorTrend(db.(errors := db.errors + [e]), today) == ClassErrorTrend(db, today)
  {
    StudentErrorsSkip(db.errors, db.users, e);
  }

  /** A row whose user is not a student adds nothing to the join. */
  lemma StudentErrorsSkip(errors: seq<UserError>, users: seq<User>, e: UserError)
    requires forall u :: u in users && u.id == e.userId ==> u.isAdmin
    ensures StudentErrors(errors + [e], users) == StudentErrors(errors, users)
  {
    var p := (x: UserError) => IsStudentId(users, x.userId);
    FilterAppend(errors, [e], p);
    assert !IsStudentId(users, e.userId) by {
      forall k | 0 <= k < |users| && users[k].id == e.userId ensures users[k].isAdmin {
        assert users[k] in users;
      }
    }
    assert Filter([e], p) == [];
  }

  // ----- Journals of a student -----

  /** `GET /api/admin/students/{id}/journals`: 404 for an unknown or
      administrator id; otherwise the student's journals, newest date first. */
  function GetStudentJournals(db: Db, studentId: Id): (r: Result<seq<Journal>, HttpError>)
    ensures r.Err? <==> forall u :: u in db.users ==> u.id != studentId || u.isAdmin
    ensures r.Err? ==> r.error == NotFound
    ensures r.Ok? ==> (forall j :: j in r.value <==> j in db.journals && j.userId == studentId)
                      && forall i, k :: 0 <= i < k < |r.value| ==> r.value[i].journalDate >= r.value[k].journalDate
  {
    match FindFirst(db.users, StudentWithId(studentId))
    case None =>
      assert forall u :: u in db.users ==> u.id != studentId || u.isAdmin by {
        forall u | u in db.users ensures u.id != studentId || u.isAdmin {
          var k :| 0 <= k < |db.users| && db.users[k] == u;
          assert !StudentWithId(studentId)(db.users[k]);
        }
      }
      Err(NotFound)
    case Some(i) =>
      assert db.users[i] in db.users;
      Ok(JournalsRouter.GetAllJournals(db, studentId))
  }

  /** `GET /api/admin/students/{id}/journals/{date}`: the journal of that user
      and date, or 404; unlike the other student endpoints it does not check
      that the id belongs to a student. */
  function GetStudentJournalByDate(db: Db, studentId: Id, date: Day): (r: Result<Journal, HttpError>)
    ensures r.Ok? <==> exists j :: j in db.journals && j.userId == studentId && j.journalDate == date
    ensures r.Ok? ==> r.value in db.journals && r.value.userId == studentId && r.value.journalDate == date
    ensures r.Err? ==> r.error == NotFound
  {
    JournalsRouter.GetJournalByDate(db, studentId, date)
  }

  /** An administrator's journal is refused by the journal list but served by
      the by-date lookup. */
  lemma ByDateSkipsStudentCheck()
    ensures exists db: Db, id: Id, date: Day ::
              GetStudentJournals(db, id).Err? && GetStudentJournalByDate(db, id, date).Ok?
  {
    var admin := User(1, "root", "root@x", "h", None, None, None, true, 0);
    var j := Journal(2, 1, 100, None, "", "", InitialPhase, 0, 0);
    var db := Db([admin], [j], [], [], [], [], [], [], [], [], [], [], [], [], 3);
    assert j in db.journals;
    assert GetStudentJournals(db, 1).Err?;
    assert GetStudentJournalByDate(db, 1, 100).Ok?;
  }
}

=== FILE: ai_router.dfy ===
/** The AI endpoints of backend/app/routers/ai.py: recording AI feedback in
    the error ledger, and the chat that appends turns to a journal. */
module AiRouter {
  import opened Wrappers
  import opened JsonValues
  import opened Seqs
  import opened Models
  import opened Schemas

  // ----- One feedback item, step by step -----

  /** The topic named `name`, created when missing; returns its id. */
  function TopicStep(db: Db, name: string): (Db, Id) {
    match FindTopicByName(db.topics, name)
    case Some(i) => (db, db.topics[i].id)
    case None => (db.(topics := db.topics + [LearningTopic(db.nextId, name, None)], nextId := db.nextId + 1), db.nextId)
  }

  /** Count one more occurrence of the phrase for (user, topic), creating the
      error row when missing; returns the row's id. */
  function ErrorStep(db: Db, userId: Id, topicId: Id, phrase: string, now: Timestamp): (Db, Id) {
    match FindError(db.errors, userId, topicId, phrase)
    case Some(i) =>
      var e := db.errors[i];
      (db.(errors := db.errors[i := e.(repetitionCount := e.repetitionCount + 1, lastOccurredAt := now)]), e.id)
    case None =>
      (db.(errors := db.errors + [NewUserError(db.nextId, userId, topicId, phrase, now)], nextId := db.nextId + 1), db.nextId)
  }

  /** The learning point for (topic, explanation), created with the given
      suggestion when missing; an existing point is never updated. */
  function PointStep(db: Db, topicId: Id, explanation: string, suggestion: string): (Db, Id) {
    match FindPoint(db.points, topicId, explanation)
    case Some(i) => (db, db.points[i].id)
    case None =>
      (db.(points := db.points + [LearningPoint(db.nextId, topicId, explanation, suggestion)], nextId := db.nextId + 1), db.nextId)
  }

  /** Append the history row linking an error occurrence to its learning point. */
  function HistoryStep(db: Db, errorId: Id, pointId: Id, now: Timestamp): Db {
    db.(history := db.history + [LearningHistory(db.nextId, errorId, pointId, now)], nextId := db.nextId + 1)
  }

  /** The id of the topic an item is filed under, once `TopicStep` has run. */
  function ItemTopic(db: Db, item: FeedbackItem): Id {
    TopicStep(db, item.errorType).1
  }

  /** Record one feedback item for `userId`. */
  function ProcessItem(db: Db, userId: Id, item: FeedbackItem, now: Timestamp): Db {
    var (db1, t) := TopicStep(db, item.errorType);
    var (db2, e) := ErrorStep(db1, userId, t, item.incorrectPhrase, now);
    var (db3, p) := PointStep(db2, t, item.explanation, item.suggestion);
    HistoryStep(db3, e, p, now)
  }

  /** How many times `userId` has made `phrase` under topic `topicId` (0 if never). */
  function RepetitionCount(errors: seq<UserError>, userId: Id, topicId: Id, phrase: string): nat {
    match FindError(errors, userId, topicId, phrase)
    case None => 0
    case Some(i) => errors[i].repetitionCount
  }

  // ----- Well-formedness of each step -----

  lemma TopicStepWf(db: Db, name: string)
    requires LedgerWf(db)
    ensures LedgerWf(TopicStep(db, name).0)
    ensures TopicStep(db, name).1 in TopicIds(TopicStep(db, name).0)
    ensures TopicStep(db, name).0 == db.(topics := TopicStep(db, name).0.topics, nextId := TopicStep(db, name).0.nextId)
    ensures db.nextId <= TopicStep(db, name).0.nextId
    ensures TopicIds(db) <= TopicIds(TopicStep(db, name).0)
  {
    match FindTopicByName(db.topics, name)
    case Some(i) =>
      assert TopicStep(db, name) == (db, db.topics[i].id);
      assert db.topics[i] in db.topics;
    case None =>
      var n := LearningTopic(db.nextId, name, None);
      assert TopicStep(db, name) == (db.(topics := db.topics + [n], nextId := db.nextId + 1), n.id);
      AppendTopicWf(db, n);
  }

  /** Appending a topic with a fresh key and a new name keeps the ledger well formed. */
  lemma AppendTopicWf(db: Db, n: LearningTopic)
    requires LedgerWf(db)
    requires n.id == db.nextId
    requires FindTopicByName(db.topics, n.topicName).None?
    ensures var r := db.(topics := db.topics + [n], nextId := db.nextId + 1);
      LedgerWf(r) && n.id in TopicIds(r) && TopicIds(db) <= TopicIds(r)
  {
    var r := db.(topics := db.topics + [n], nextId := db.nextId + 1);
    forall a, b | 0 <= a < b < |r.topics| ensures r.topics[a].topicName != r.topics[b].topicName {
      assert r.topics[a] == db.topics[a];
      if b < |db.topics| { assert r.topics[b] == db.topics[b]; }
    }
    AppendFresh(db.topics, n, (t: LearningTopic) => t.id, db.nextId);
    BumpFresh(db.points, (p: LearningPoint) => p.id, db.nextId);
    BumpFresh(db.errors, (e: UserError) => e.id, db.nextId);
    BumpFresh(db.history, (h: LearningHistory) => h.id, db.nextId);
    assert n in r.topics;
    assert forall x :: x in db.topics ==> x in r.topics;
  }

  /** The updated error row keeps the key and id of the row it replaces. */
  lemma UpdateKeepsKeys(errors: seq<UserError>, i: nat, e: UserError)
    requires i < |errors|
    requires e.id == errors[i].id && e.userId == errors[i].userId
    requires e.topicId == errors[i].topicId && e.incorrectPhrase == errors[i].incorrectPhrase
    requires UniqueErrorKeys(errors)
    ensures UniqueErrorKeys(errors[i := e])
    ensures (set x | x in errors[i := e] :: x.id) == (set x | x in errors :: x.id)
    ensures forall x :: x in errors[i := e] ==> exists y :: y in errors && y.topicId == x.topicId
  {
    var u := errors[i := e];
    forall x | x in u ensures exists y :: y in errors && y.topicId == x.topicId {
      var k :| 0 <= k < |u| && u[k] == x;
      assert errors[k] in errors;
    }
    var before := set x | x in errors :: x.id;
    var after := set x | x in u :: x.id;
    forall id | id in before ensures id in after {
      var y :| y in errors && y.id == id;
      var k :| 0 <= k < |errors| && errors[k] == y;
      assert u[k] in u;
    }
    forall id | id in after ensures id in before {
      var y :| y in u && y.id == id;
      var k :| 0 <= k < |u| && u[k] == y;
      assert errors[k] in errors;
    }
  }

  lemma ErrorStepWf(db: Db, userId: Id, topicId: Id, phrase: string, now: Timestamp)
    requires LedgerWf(db)
    requires topicId in TopicIds(db)
    ensures LedgerWf(ErrorStep(db, userId, topicId, phrase, now).0)
    ensures ErrorStep(db, userId, topicId, phrase, now).1 in ErrorIds(ErrorStep(db, userId, topicId, phrase, now).0)
    ensures var r := ErrorStep(db, userId, topicId, phrase, now).0;
      r == db.(errors := r.errors, nextId := r.nextId) && db.nextId <= r.nextId && ErrorIds(db) <= ErrorIds(r)
  {
    match FindError(db.errors, userId, topicId, phrase)
    case Some(i) =>
      var e := db.errors[i];
      var e' := e.(repetitionCount := e.repetitionCount + 1, lastOccurredAt := now);
      assert ErrorStep(db, userId, topicId, phrase, now) == (db.(errors := db.errors[i := e']), e.id);
      UpdateErrorWf(db, i, e');
    case None =>
      var n := NewUserError(db.nextId, userId, topicId, phrase, now);
      assert ErrorStep(db, userId, topicId, phrase, now) == (db.(errors := db.errors + [n], nextId := db.nextId + 1), n.id);
      AppendErrorWf(db, n);
  }

  /** Replacing an error row by one with the same key, id and topic keeps
      the ledger well formed and the set of error ids. */
  lemma UpdateErrorWf(db: Db, i: nat, e: UserError)
    requires LedgerWf(db) && i < |db.errors|
    requires e.id == db.errors[i].id && e.userId == db.errors[i].userId
    requires e.topicId == db.errors[i].topicId && e.incorrectPhrase == db.errors[i].incorrectPhrase
    ensures var r := db.(errors := db.errors[i := e]);
      LedgerWf(r) && ErrorIds(r) == ErrorIds(db) && e.id in ErrorIds(r)
  {
    var r := db.(errors := db.errors[i := e]);
    UpdateKeepsKeys(db.errors, i, e);
    assert r.errors[i] == e;
    forall a, b | 0 <= a < b < |r.errors| ensures r.errors[a].id != r.errors[b].id {
      assert r.errors[a].id == db.errors[a].id && r.errors[b].id == db.errors[b].id;
    }
    forall a | 0 <= a < |r.errors| ensures r.errors[a].id < r.nextId {
      assert r.errors[a].id == db.errors[a].id;
    }
  }

  /** Appending an error row with a fresh key, an existing topic and a new
      (user, topic, phrase) keeps the ledger well formed. */
  lemma AppendErrorWf(db: Db, n: UserError)
    requires LedgerWf(db)
    requires n.id == db.nextId && n.topicId in TopicIds(db)
    requires FindError(db.errors, n.userId, n.topicId, n.incorrectPhrase).None?
    ensures var r := db.(errors := db.errors + [n], nextId := db.nextId + 1);
      LedgerWf(r) && n.id in ErrorIds(r) && ErrorIds(db) <= ErrorIds(r)
  {
    var r := db.(errors := db.errors + [n], nextId := db.nextId + 1);
    AppendUniqueError(db.errors, n);
    AppendFresh(db.errors, n, (e: UserError) => e.id, db.nextId);
    BumpFresh(db.topics, (t: LearningTopic) => t.id, db.nextId);
    BumpFresh(db.points, (p: LearningPoint) => p.id, db.nextId);
    BumpFresh(db.history, (h: LearningHistory) => h.id, db.nextId);
    AppendErrorRefs(db, n);
  }

  /** A row whose (user, topic, phrase) is not yet present keeps those keys unique. */
  lemma AppendUniqueError(errors: seq<UserError>, n: UserError)
    requires UniqueErrorKeys(errors)
    requires FindError(errors, n.userId, n.topicId, n.incorrectPhrase).None?
    ensures UniqueErrorKeys(errors + [n])
  {
    var r := errors + [n];
    forall a, b | 0 <= a < b < |r|
      ensures (r[a].userId, r[a].topicId, r[a].incorrectPhrase) != (r[b].userId, r[b].topicId, r[b].incorrectPhrase)
    {
      assert r[a] == errors[a];
      if b < |errors| { assert r[b] == errors[b]; }
    }
  }

  /** After appending an error row with an existing topic, references still resolve. */
  lemma AppendErrorRefs(db: Db, n: UserError)
    requires forall e :: e in db.errors ==> e.topicId in TopicIds(db)
    requires n.topicId in TopicIds(db)
    ensures var r := db.(errors := db.errors + [n], nextId := db.nextId + 1);
      && (forall e :: e in r.errors ==> e.topicId in TopicIds(r))
      && ErrorIds(db) <= ErrorIds(r) && n.id in ErrorIds(r)
  {
    var r := db.(errors := db.errors + [n], nextId := db.nextId + 1);
    assert n in r.errors;
    assert forall x :: x in db.errors ==> x in r.errors;
    assert forall x :: x in r.errors ==> x in db.errors || x == n;
  }

  lemma PointStepWf(db: Db, topicId: Id, explanation: string, suggestion: string)
    requires LedgerWf(db)
    requires topicId in TopicIds(db)
    ensures LedgerWf(PointStep(db, topicId, explanation, suggestion).0)
    ensures PointStep(db, topicId, explanation, suggestion).1 in PointIds(PointStep(db, topicId, explanation, suggestion).0)
    ensures var r := PointStep(db, topicId, explanation, suggestion).0;
      r == db.(points := r.points, nextId := r.nextId) && db.nextId <= r.nextId && PointIds(db) <= PointIds(r)
  {
    match FindPoint(db.points, topicId, explanation)
    case Some(i) =>
      assert PointStep(db, topicId, explanation, suggestion) == (db, db.points[i].id);
      assert db.points[i] in db.points;
    case None =>
      var n := LearningPoint(db.nextId, topicId, explanation, suggestion);
      assert PointStep(db, topicId, explanation, suggestion) == (db.(points := db.points + [n], nextId := db.nextId + 1), n.id);
      AppendPointWf(db, n);
  }

  /** Appending a learning point with a fresh key, an existing topic and a
      new (topic, explanation) keeps the ledger well formed. */
  lemma AppendPointWf(db: Db, n: LearningPoint)
    requires LedgerWf(db)
    requires n.id == db.nextId && n.topicId in TopicIds(db)
    requires FindPoint(db.points, n.topicId, n.explanationText).None?
    ensures var r := db.(points := db.points + [n], nextId := db.nextId + 1);
      LedgerWf(r) && n.id in PointIds(r) && PointIds(db) <= PointIds(r)
  {
    AppendUniquePoint(db.points, n);
    AppendFresh(db.points, n, (p: LearningPoint) => p.id, db.nextId);
    BumpFresh(db.topics, (t: LearningTopic) => t.id, db.nextId);
    BumpFresh(db.errors, (e: UserError) => e.id, db.nextId);
    BumpFresh(db.history, (h: LearningHistory) => h.id, db.nextId);
    AppendPointRefs(db, n);
  }

  lemma AppendUniquePoint(points: seq<LearningPoint>, n: LearningPoint)
    requires UniquePointKeys(points)
    requires FindPoint(points, n.topicId, n.explanationText).None?
    ensures UniquePointKeys(points + [n])
  {
    var r := points + [n];
    forall a, b | 0 <= a < b < |r|
      ensures (r[a].topicId, r[a].explanationText) != (r[b].topicId, r[b].explanationText)
    {
      assert r[a] == points[a];
      if b < |points| { assert r[b] == points[b]; }
    }
  }

  lemma AppendPointRefs(db: Db, n: LearningPoint)
    requires forall p :: p in db.points ==> p.topicId in TopicIds(db)
    requires n.topicId in TopicIds(db)
    ensures var r := db.(points := db.points + [n], nextId := db.nextId + 1);
      && (forall p :: p in r.points ==> p.topicId in TopicIds(r))
      && PointIds(db) <= PointIds(r) && n.id in PointIds(r)
  {
    var r := db.(points := db.points + [n], nextId := db.nextId + 1);
    assert n in r.points;
    assert forall x :: x in db.points ==> x in r.points;
    assert forall x :: x in r.points ==> x in db.points || x == n;
  }

  lemma HistoryStepWf(db: Db, errorId: Id, pointId: Id, now: Timestamp)
    requires LedgerWf(db)
    requires errorId in ErrorIds(db) && pointId in PointIds(db)
    ensures LedgerWf(HistoryStep(db, errorId, pointId, now))
  {
    var r := HistoryStep(db, errorId, pointId, now);
    var n := LearningHistory(db.nextId, errorId, pointId, now);
    AppendFresh(db.history, n, (h: LearningHistory) => h.id, db.nextId);
    BumpFresh(db.topics, (t: LearningTopic) => t.id, db.nextId);
    BumpFresh(db.points, (p: LearningPoint) => p.id, db.nextId);
    BumpFresh(db.errors, (e: UserError) => e.id, db.nextId);
    assert forall x :: x in r.history ==> x in db.history || x == n;
  }

  /** Recording an item keeps the ledger well formed: topic names and
      (user, topic, phrase) and (topic, explanation) keys stay unique, and
      every history row still points at an existing error and learning point. */
  lemma ProcessItemKeepsLedger(db: Db, userId: Id, item: FeedbackItem, now: Timestamp)
    requires LedgerWf(db)
    ensures LedgerWf(ProcessItem(db, userId, item, now))
  {
    var (db1, t) := TopicStep(db, item.errorType);
    TopicStepWf(db, item.errorType);
    var (db2, e) := ErrorStep(db1, userId, t, item.incorrectPhrase, now);
    ErrorStepWf(db1, userId, t, item.incorrectPhrase, now);
    var (db3, p) := PointStep(db2, t, item.explanation, item.suggestion);
    assert TopicIds(db2) == TopicIds(db1);
    PointStepWf(db2, t, item.explanation, item.suggestion);
    assert ErrorIds(db3) == ErrorIds(db2);
    HistoryStepWf(db3, e, p, now);
  }

  // ----- What recording an item does -----

  /** The item's topic exists afterwards; an existing topic of that name is
      reused, otherwise exactly one topic is added. */
  lemma ProcessItemTopic(db: Db, userId: Id, item: FeedbackItem, now: Timestamp)
    ensures var r := ProcessItem(db, userId, item, now);
      && FindTopicByName(r.topics, item.errorType).Some?
      && r.topics[FindTopicByName(r.topics, item.errorType).value].id == ItemTopic(db, item)
      && (FindTopicByName(db.topics, item.errorType).Some? ==> r.topics == db.topics)
      && (FindTopicByName(db.topics, item.errorType).None? ==>
            |r.topics| == |db.topics| + 1 && r.topics[..|db.topics|] == db.topics)
  {
    var r := ProcessItem(db, userId, item, now);
    var db1 := TopicStep(db, item.errorType).0;
    assert r.topics == db1.topics;
    if FindTopicByName(db.topics, item.errorType).None? {
      assert db1.topics[|db.topics|].topicName == item.errorType;
    }
  }

  /** The repetition count for (user, topic, phrase) goes up by exactly one
      (from 0 for a new row, which starts at 1 and is 'active'); the row's
      last occurrence becomes `now`; every other error row is untouched. */
  lemma ProcessItemCountsOccurrence(db: Db, userId: Id, item: FeedbackItem, now: Timestamp)
    ensures var r := ProcessItem(db, userId, item, now);
      var t := ItemTopic(db, item);
      var phrase := item.incorrectPhrase;
      && RepetitionCount(r.errors, userId, t, phrase) == RepetitionCount(db.errors, userId, t, phrase) + 1
      && FindError(r.errors, userId, t, phrase).Some?
      && r.errors[FindError(r.errors, userId, t, phrase).value].lastOccurredAt == now
      && (FindError(db.errors, userId, t, phrase).Some? ==> |r.errors| == |db.errors|)
      && (FindError(db.errors, userId, t, phrase).None? ==>
            |r.errors| == |db.errors| + 1 && r.errors[|db.errors|].status == "active"
            && r.errors[|db.errors|].firstOccurredAt == now)
      && (forall k :: 0 <= k < |db.errors| &&
            (db.errors[k].userId, db.errors[k].topicId, db.errors[k].incorrectPhrase) != (userId, t, phrase)
            ==> r.errors[k] == db.errors[k])
  {
    var r := ProcessItem(db, userId, item, now);
    var (db1, t) := TopicStep(db, item.errorType);
    var phrase := item.incorrectPhrase;
    var db2 := ErrorStep(db1, userId, t, phrase, now).0;
    assert r.errors == db2.errors;
    match FindError(db.errors, userId, t, phrase)
    case Some(i) =>
      var p := (e: UserError) => e.userId == userId && e.topicId == t && e.incorrectPhrase == phrase;
      assert forall k :: 0 <= k < |db.errors| ==> p(r.errors[k]) == p(db.errors[k]);
      assert FindError(r.errors, userId, t, phrase) == Some(i);
    case None =>
      var p := (e: UserError) => e.userId == userId && e.topicId == t && e.incorrectPhrase == phrase;
      assert forall k :: 0 <= k < |db.errors| ==> r.errors[k] == db.errors[k];
      assert p(r.errors[|db.errors|]);
      assert FindError(r.errors, userId, t, phrase) == Some(|db.errors|);
  }

  /** Existing learning points, including their suggestion text, are never
      changed; a point for (topic, explanation) exists afterwards, and a new
      one carries the item's suggestion. */
  lemma ProcessItemPoint(db: Db, userId: Id, item: FeedbackItem, now: Timestamp)
    ensures var r := ProcessItem(db, userId, item, now);
      var t := ItemTopic(db, item);
      && |db.points| <= |r.points| && r.points[..|db.points|] == db.points
      && FindPoint(r.points, t, item.explanation).Some?
      && (FindPoint(db.points, t, item.explanation).Some? ==> r.points == db.points)
      && (FindPoint(db.points, t, item.explanation).None? ==>
            |r.points| == |db.points| + 1 && r.points[|db.points|].suggestionText == item.suggestion)
  {
    var r := ProcessItem(db, userId, item, now);
    var (db1, t) := TopicStep(db, item.errorType);
    var db2 := ErrorStep(db1, userId, t, item.incorrectPhrase, now).0;
    var db3 := PointStep(db2, t, item.explanation, item.suggestion).0;
    assert r.points == db3.points && db2.points == db.points;
    if FindPoint(db.points, t, item.explanation).None? {
      var p := (x: LearningPoint) => x.topicId == t && x.explanationText == item.explanation;
      assert p(r.points[|db.points|]);
      assert FindPoint(r.points, t, item.explanation).Some?;
    }
  }

  /** Exactly one history row is appended, and it links the item's error row
      to the item's learning point. */
  lemma ProcessItemHistory(db: Db, userId: Id, item: FeedbackItem, now: Timestamp)
    ensures var r := ProcessItem(db, userId, item, now);
      var t := ItemTopic(db, item);
      && |r.history| == |db.history| + 1 && r.history[..|db.history|] == db.history
      && FindError(r.errors, userId, t, item.incorrectPhrase).Some?
      && FindPoint(r.points, t, item.explanation).Some?
      && r.history[|db.history|].errorId == r.errors[FindError(r.errors, userId, t, item.incorrectPhrase).value].id
      && r.history[|db.history|].learningPointId == r.points[FindPoint(r.points, t, item.explanation).value].id
      && r.history[|db.history|].timestamp == now
  {
    var (db1, t) := TopicStep(db, item.errorType);
    var (db2, e) := ErrorStep(db1, userId, t, item.incorrectPhrase, now);
    var (db3, p) := PointStep(db2, t, item.explanation, item.suggestion);
    ErrorStepFinds(db1, userId, t, item.incorrectPhrase, now);
    PointStepFinds(db2, t, item.explanation, item.suggestion);
    ProcessItemAppendsHistory(db, userId, item, now);
    assert db3.errors == db2.errors;
  }

  /** The id `ErrorStep` returns is that of the row `FindError` finds afterwards. */
  lemma ErrorStepFinds(db: Db, userId: Id, topicId: Id, phrase: string, now: Timestamp)
    ensures var (r, e) := ErrorStep(db, userId, topicId, phrase, now);
      FindError(r.errors, userId, topicId, phrase).Some? && r.errors[FindError(r.errors, userId, topicId, phrase).value].id == e
  {
    var (r, e) := ErrorStep(db, userId, topicId, phrase, now);
    var p := (x: UserError) => x.userId == userId && x.topicId == topicId && x.incorrectPhrase == phrase;
    match FindError(db.errors, userId, topicId, phrase)
    case Some(i) =>
      assert forall k :: 0 <= k < |db.errors| ==> p(r.errors[k]) == p(db.errors[k]);
      assert FindError(r.errors, userId, topicId, phrase) == Some(i);
    case None =>
      assert forall k :: 0 <= k < |db.errors| ==> r.errors[k] == db.errors[k];
      assert p(r.errors[|db.errors|]);
      assert FindError(r.errors, userId, topicId, phrase) == Some(|db.errors|);
  }

  /** The id `PointStep` returns is that of the point `FindPoint` finds afterwards. */
  lemma PointStepFinds(db: Db, topicId: Id, explanation: string, suggestion: string)
    ensures var (r, pid) := PointStep(db, topicId, explanation, suggestion);
      FindPoint(r.points, topicId, explanation).Some? && r.points[FindPoint(r.points, topicId, explanation).value].id == pid
  {
    var (r, pid) := PointStep(db, topicId, explanation, suggestion);
    var p := (x: LearningPoint) => x.topicId == topicId && x.explanationText == explanation;
    if FindPoint(db.points, topicId, explanation).None? {
      assert forall k :: 0 <= k < |db.points| ==> r.points[k] == db.points[k];
      assert p(r.points[|db.points|]);
      assert FindPoint(r.points, topicId, explanation) == Some(|db.points|);
    }
  }

  /** Recording an item appends exactly one history row. */
  lemma ProcessItemAppendsHistory(db: Db, userId: Id, item: FeedbackItem, now: Timestamp)
    ensures var r := ProcessItem(db, userId, item, now);
      |r.history| == |db.history| + 1 && r.history[..|db.history|] == db.history
  {
    var (db1, t) := TopicStep(db, item.errorType);
    var (db2, e) := ErrorStep(db1, userId, t, item.incorrectPhrase, now);
    var (db3, p) := PointStep(db2, t, item.explanation, item.suggestion);
    assert db3.history == db.history;
    assert HistoryStep(db3, e, p, now).history == db.history + [LearningHistory(db3.nextId, e, p, now)];
  }

  // ----- The endpoint -----

  /** Record the items in order. Pydantic validation of an item can fail; the
      items before it stay committed (each step commits), and processing stops.
      The flag says whether every item was valid. */
  function ProcessRaw(db: Db, userId: Id, raw: seq<Json>, now: Timestamp): (r: (Db, bool))
    decreases |raw|
  {
    if |raw| == 0 then (db, true)
    else match ParseFeedbackItem(raw[0])
      case None => (db, false)
      case Some(item) => ProcessRaw(ProcessItem(db, userId, item, now), userId, raw[1..], now)
  }

  /** The number of leading items that are valid. */
  function ValidPrefix(raw: seq<Json>): (n: nat)
    ensures n <= |raw|
    ensures forall k :: 0 <= k < n ==> ParseFeedbackItem(raw[k]).Some?
    ensures n < |raw| ==> ParseFeedbackItem(raw[n]).None?
  {
    if |raw| == 0 || ParseFeedbackItem(raw[0]).None? then 0 else 1 + ValidPrefix(raw[1..])
  }

  /** Processing keeps the ledger well formed and appends one history row per
      valid leading item without touching the older ones. */
  lemma ProcessRawEffect(db: Db, userId: Id, raw: seq<Json>, now: Timestamp)
    requires LedgerWf(db)
    ensures LedgerWf(ProcessRaw(db, userId, raw, now).0)
    ensures |ProcessRaw(db, userId, raw, now).0.history| == |db.history| + ValidPrefix(raw)
    ensures ProcessRaw(db, userId, raw, now).0.history[..|db.history|] == db.history
  {
    ProcessRawKeepsLedger(db, userId, raw, now);
    ProcessRawHistory(db, userId, raw, now);
  }

  lemma {:induction false} ProcessRawKeepsLedger(db: Db, userId: Id, raw: seq<Json>, now: Timestamp)
    requires LedgerWf(db)
    ensures LedgerWf(ProcessRaw(db, userId, raw, now).0)
    decreases |raw|
  {
    if |raw| > 0 {
      match ParseFeedbackItem(raw[0])
      case None =>
      case Some(item) =>
        var db1 := ProcessItem(db, userId, item, now);
        assert ProcessRaw(db, userId, raw, now) == ProcessRaw(db1, userId, raw[1..], now);
        ProcessItemKeepsLedger(db, userId, item, now);
        ProcessRawKeepsLedger(db1, userId, raw[1..], now);
    }
  }

  lemma {:induction false} ProcessRawHistory(db: Db, userId: Id, raw: seq<Json>, now: Timestamp)
    ensures |ProcessRaw(db, userId, raw, now).0.history| == |db.history| + ValidPrefix(raw)
    ensures ProcessRaw(db, userId, raw, now).0.history[..|db.history|] == db.history
    decreases |raw|
  {
    if |raw| > 0 {
      match ParseFeedbackItem(raw[0])
      case None =>
      case Some(item) =>
        var db1 := ProcessItem(db, userId, item, now);
        assert ProcessRaw(db, userId, raw, now) == ProcessRaw(db1, userId, raw[1..], now);
        ProcessItemAppendsHistory(db, userId, item, now);
        ProcessRawHistory(db1, userId, raw[1..], now);
        var r := ProcessRaw(db1, userId, raw[1..], now).0;
        assert ValidPrefix(raw) == 1 + ValidPrefix(raw[1..]);
        assert r.history[..|db.history|] == r.history[..|db1.history|][..|db.history|];
    }
  }

  /** `POST /api/ai/feedback/{date}`: 422 for text shorter than ten
      characters, 404 without a journal for the date, 503 when the analyser
      returns nothing; otherwise the items are recorded in order and returned.
      An invalid item ends the request with a server error. */
  function SubmitFeedback(db: Db, userId: Id, date: Day, text: string,
                          analyze: string -> Option<seq<Json>>, now: Timestamp): (r: Step<seq<Json>>)
    ensures !ValidFeedbackRequest(text) ==> r == Step(db, Err(Unprocessable))
    ensures ValidFeedbackRequest(text) && FindJournal(db.journals, userId, date).None? ==> r == Step(db, Err(NotFound))
    ensures ValidFeedbackRequest(text) && FindJournal(db.journals, userId, date).Some? && analyze(text).None? ==>
              r == Step(db, Err(ServiceUnavailable))
    ensures r.response.Ok? ==> analyze(text) == Some(r.response.value)
    ensures r.response.Ok? <==>
              && ValidFeedbackRequest(text) && FindJournal(db.journals, userId, date).Some?
              && analyze(text).Some?
              && forall k :: 0 <= k < |analyze(text).value| ==> ParseFeedbackItem(analyze(text).value[k]).Some?
  {
    if !ValidFeedbackRequest(text) then Step(db, Err(Unprocessable))
    else if FindJournal(db.journals, userId, date).None? then Step(db, Err(NotFound))
    else match analyze(text)
      case None => Step(db, Err(ServiceUnavailable))
      case Some(items) =>
        var (db', ok) := ProcessRaw(db, userId, items, now);
        ProcessRawOk(db, userId, items, now);
        if ok then Step(db', Ok(items)) else Step(db', Err(InternalError))
  }

  /** Whatever the outcome, the ledger stays well formed. */
  lemma SubmitFeedbackKeepsLedger(db: Db, userId: Id, date: Day, text: string,
                                  analyze: string -> Option<seq<Json>>, now: Timestamp)
    requires LedgerWf(db)
    ensures LedgerWf(SubmitFeedback(db, userId, date, text, analyze, now).db)
  {
    if ValidFeedbackRequest(text) && FindJournal(db.journals, userId, date).Some? && analyze(text).Some? {
      ProcessRawEffect(db, userId, analyze(text).value, now);
    }
  }

  /** The success flag of `ProcessRaw` does not depend on the ledger. */
  lemma {:induction false} ProcessRawOk(db: Db, userId: Id, raw: seq<Json>, now: Timestamp)
    ensures ProcessRaw(db, userId, raw, now).1 <==> forall k :: 0 <= k < |raw| ==> ParseFeedbackItem(raw[k]).Some?
    decreases |raw|
  {
    if |raw| > 0 {
      match ParseFeedbackItem(raw[0])
      case None =>
      case Some(item) =>
        var db1 := ProcessItem(db, userId, item, now);
        assert ProcessRaw(db, userId, raw, now) == ProcessRaw(db1, userId, raw[1..], now);
        ProcessRawOk(db1, userId, raw[1..], now);
        forall k | 1 <= k < |raw| ensures raw[k] == raw[1..][k - 1] { }
    }
  }

  /** Submitting the same single item twice, starting from an empty ledger,
      leaves one topic, one error row counted twice, one learning point and
      two history rows. */
  lemma SubmitTwice(db: Db, userId: Id, item: FeedbackItem, now1: Timestamp, now2: Timestamp)
    requires db.topics == [] && db.errors == [] && db.points == [] && db.history == []
    ensures var r := ProcessItem(ProcessItem(db, userId, item, now1), userId, item, now2);
      && |r.topics| == 1 && |r.errors| == 1 && |r.points| == 1 && |r.history| == 2
      && r.errors[0].repetitionCount == 2 && r.errors[0].firstOccurredAt == now1 && r.errors[0].lastOccurredAt == now2
  {
    var r1 := ProcessItem(db, userId, item, now1);
    ProcessItemTopic(db, userId, item, now1);
    ProcessItemCountsOccurrence(db, userId, item, now1);
    ProcessItemPoint(db, userId, item, now1);
    ProcessItemHistory(db, userId, item, now1);
    assert ItemTopic(r1, item) == ItemTopic(db, item);
    ProcessItemTopic(r1, userId, item, now2);
    ProcessItemCountsOccurrence(r1, userId, item, now2);
    ProcessItemPoint(r1, userId, item, now2);
    ProcessItemHistory(r1, userId, item, now2);
  }

  // ----- Chat -----

  const UserTurnPrefix: string := "\n\nUser: "
  const AiTurnPrefix: string := "\n\nLingo: "

  datatype ChatReply = ChatReply(aiResponse: string, updatedJournalContent: string)

  /** `POST /api/ai/chat/{date}`. The user's turn is appended to the journal
      content and the whole conversation is sent to `chat` (together with the
      message); an empty or missing reply is a 503 and nothing is saved.
      Otherwise the reply is appended as Lingo's turn and the journal saved. */
  function ChatWithAi(db: Db, userId: Id, date: Day, message: string,
                      chat: (string, string) -> Option<string>, now: Timestamp): (r: Step<ChatReply>)
    ensures !ValidChatRequest(message) ==> r == Step(db, Err(Unprocessable))
    ensures ValidChatRequest(message) && FindJournal(db.journals, userId, date).None? ==> r == Step(db, Err(NotFound))
    ensures r.response.Err? ==> r.db == db
    ensures ValidChatRequest(message) && FindJournal(db.journals, userId, date).Some? ==>
      var i := FindJournal(db.journals, userId, date).value;
      var reply := chat(db.journals[i].content + UserTurnPrefix + message, message);
      && (reply.None? || reply.value == "" ==> r == Step(db, Err(ServiceUnavailable)))
      && (r.response.Ok? <==> reply.Some? && reply.value != "")
    ensures r.response.Ok? ==>
      && ValidChatRequest(message)
      && FindJournal(db.journals, userId, date).Some?
      && var i := FindJournal(db.journals, userId, date).value;
         var old_ := db.journals[i].content;
         var reply := r.response.value.aiResponse;
      && chat(old_ + UserTurnPrefix + message, message) == Some(reply) && reply != ""
      && r.response.value.updatedJournalContent == old_ + UserTurnPrefix + message + AiTurnPrefix + reply
      && r.db == db.(journals := db.journals[i := db.journals[i].(content := r.response.value.updatedJournalContent,
                                                                   updatedAt := now)])
  {
    if !ValidChatRequest(message) then Step(db, Err(Unprocessable))
    else match FindJournal(db.journals, userId, date)
      case None => Step(db, Err(NotFound))
      case Some(i) =>
        var j := db.journals[i];
        var withUser := j.content + UserTurnPrefix + message;
        var reply := chat(withUser, message);
        if reply.None? || reply.value == "" then Step(db, Err(ServiceUnavailable))
        else
          var content := withUser + AiTurnPrefix + reply.value;
          Step(db.(journals := db.journals[i := j.(content := content, updatedAt := now)]), Ok(ChatReply(reply.value, content)))
  }

  /** A successful chat keeps the old conversation as a prefix of the new one,
      ends it with the reply, and keeps one journal per user and date. */
  lemma ChatAppendsOnly(db: Db, userId: Id, date: Day, message: string,
                        chat: (string, string) -> Option<string>, now: Timestamp)
    requires OneJournalPerDay(db.journals)
    ensures var r := ChatWithAi(db, userId, date, message, chat, now);
      && OneJournalPerDay(r.db.journals)
      && (r.response.Ok? ==>
            var i := FindJournal(db.journals, userId, date).value;
            && |db.journals[i].content| < |r.db.journals[i].content|
            && r.db.journals[i].content[..|db.journals[i].content|] == db.journals[i].content
            && EndsWithReply(r.db.journals[i].content, r.response.value.aiResponse))
  {
    var r := ChatWithAi(db, userId, date, message, chat, now);
    if r.response.Ok? {
      var i := FindJournal(db.journals, userId, date).value;
      var c := r.db.journals[i].content;
      var reply := r.response.value.aiResponse;
      assert c == db.journals[i].content + (UserTurnPrefix + message + AiTurnPrefix + reply);
      assert c[|c| - |AiTurnPrefix + reply|..] == AiTurnPrefix + reply;
    }
  }

  /** The content ends with Lingo's turn carrying `reply`. */
  predicate EndsWithReply(content: string, reply: string) {
    |AiTurnPrefix + reply| <= |content| && content[|content| - |AiTurnPrefix + reply|..] == AiTurnPrefix + reply
  }
}

=== FILE: ai_service.dfy ===
/** The model-facing helpers of backend/app/services/ai_service.py. Each one
    builds a request for the model gateway client and post-processes its
    answer; most of them turn any exception into a fixed, safe reply. */
module AiService {
  import opened Wrappers
  import opened JsonValues
  import opened Text

  type byte = bv8

  const ModelLite: string := "gemini-2.5-flash-lite-preview-09-2025"
  const ModelFlash: string := "gemini-2.5-flash-preview-09-2025"

  /** What a request asks; the prompt wording itself is not modelled. */
  datatype Prompt =
    | DescribeImagePrompt
    | ScaffoldingPrompt(userContext: Json, sessionState: Json)
    | WritingPrompt(userMessage: string, outline: string, draft: string)
    | EvaluationPrompt(text: string)
    | QuickCorrectionPrompt(userMessage: string)

  /** The arguments of one `query_api_with_retries` call. An empty `image`
      stands for no image. */
  datatype ApiRequest = ApiRequest(prompt: Prompt, model: string, image: seq<byte>, outjson: bool)

  /** The gateway client: a parsed reply (a string when `outjson` is off),
      None when every attempt failed, or an exception. */
  type Gateway = ApiRequest -> Outcome<Option<Json>>

  // ----- Image description -----

  const DescriptionFallback: string := "Could not generate a description for the image."

  function DescriptionRequest(image: seq<byte>): (q: ApiRequest)
    ensures q.model == ModelFlash && !q.outjson && q.image == image && q.prompt == DescribeImagePrompt
  {
    ApiRequest(DescribeImagePrompt, ModelFlash, image, false)
  }

  /** `get_image_description`: the client's reply as is (None included); an
      exception becomes a fixed sentence. */
  function ImageDescription(gateway: Gateway, image: seq<byte>): (r: Option<Json>)
    ensures gateway(DescriptionRequest(image)).Raised? ==> r == Some(JStr(DescriptionFallback))
    ensures gateway(DescriptionRequest(image)).Returned? ==> r == gateway(DescriptionRequest(image)).value
    ensures r.None? <==> gateway(DescriptionRequest(image)) == Returned(None)
    ensures r != Some(JStr(DescriptionFallback)) ==> gateway(DescriptionRequest(image)) == Returned(r)
  {
    match gateway(DescriptionRequest(image))
    case Raised => Some(JStr(DescriptionFallback))
    case Returned(reply) => reply
  }

  // ----- Scaffolding -----

  /** The safe default reply: ask the user to rephrase. */
  function ScaffoldingFallback(): Json {
    JObj(map["action" := JStr("ASK_QUESTION"),
             "payload" := JObj(map["question" := JStr("I'm sorry, I'm having a little trouble thinking. Could you rephrase that?")])])
  }

  /** The request: the vision-capable model exactly when an image is given,
      the image attached only then, and JSON output always requested. */
  function ScaffoldingRequest(userContext: Json, sessionState: Json, image: seq<byte>): (q: ApiRequest)
    ensures q.model == (if |image| > 0 then ModelFlash else ModelLite)
    ensures q.image == image
    ensures q.outjson
    ensures q.prompt == ScaffoldingPrompt(userContext, sessionState)
  {
    ApiRequest(ScaffoldingPrompt(userContext, sessionState), if |image| > 0 then ModelFlash else ModelLite, image, true)
  }

  /** `get_scaffolding_response`: a string reply is cleaned of code fences and
      parsed (a parse failure gives the default); any other reply, None
      included, is returned as is; an exception gives the default. */
  function Scaffolding(gateway: Gateway, loads: string -> Option<Json>,
                       userContext: Json, sessionState: Json, image: seq<byte>): (r: Option<Json>)
    ensures var reply := gateway(ScaffoldingRequest(userContext, sessionState, image));
      && (reply.Raised? ==> r == Some(ScaffoldingFallback()))
      && (reply.Returned? && reply.value.Some? && reply.value.value.JStr? ==>
            var cleaned := CleanFences(reply.value.value.s);
            !Contains(cleaned, Fence) && r == Some(loads(cleaned).GetOr(ScaffoldingFallback())))
      && (reply.Returned? && !(reply.value.Some? && reply.value.value.JStr?) ==> r == reply.value)
  {
    match gateway(ScaffoldingRequest(userContext, sessionState, image))
    case Raised => Some(ScaffoldingFallback())
    case Returned(reply) =>
      if reply.Some? && reply.value.JStr? then
        match loads(CleanFences(reply.value.s))
        case None => Some(ScaffoldingFallback())
        case Some(parsed) => Some(parsed)
      else reply
  }

  // ----- Writing partner -----

  const NoOutline: string := "No outline provided."
  const NoDraft: string := "The user has not written anything yet."
  const WritingFallback: string := "I'm sorry, I'm unable to help with that right now."

  /** `outline or "No outline provided."` and the same for the draft. */
  function WritingRequest(userMessage: string, outline: string, draft: string): (q: ApiRequest)
    ensures q.model == ModelLite && !q.outjson && q.image == []
    ensures q.prompt.WritingPrompt? && q.prompt.userMessage == userMessage
    ensures q.prompt.outline == (if outline == "" then NoOutline else outline)
    ensures q.prompt.draft == (if draft == "" then NoDraft else draft)
  {
    ApiRequest(WritingPrompt(userMessage, if outline == "" then NoOutline else outline,
                             if draft == "" then NoDraft else draft), ModelLite, [], false)
  }

  /** The model is never shown an empty outline or draft. */
  lemma WritingContextNeverEmpty(userMessage: string, outline: string, draft: string)
    ensures WritingRequest(userMessage, outline, draft).prompt.outline != ""
    ensures WritingRequest(userMessage, outline, draft).prompt.draft != ""
    ensures outline != "" ==> WritingRequest(userMessage, outline, draft).prompt.outline == outline
  {
  }

  /** `get_writing_partner_response`: the reply as is; an exception becomes an apology. */
  function WritingPartner(gateway: Gateway, userMessage: string, outline: string, draft: string): (r: Option<Json>)
    ensures gateway(WritingRequest(userMessage, outline, draft)).Raised? ==> r == Some(JStr(WritingFallback))
    ensures gateway(WritingRequest(userMessage, outline, draft)).Returned? ==>
              r == gateway(WritingRequest(userMessage, outline, draft)).value
    ensures r.None? <==> gateway(WritingRequest(userMessage, outline, draft)) == Returned(None)
    ensures r != Some(JStr(WritingFallback)) ==> gateway(WritingRequest(userMessage, outline, draft)) == Returned(r)
  {
    match gateway(WritingRequest(userMessage, outline, draft))
    case Raised => Some(JStr(WritingFallback))
    case Returned(reply) => reply
  }

  // ----- Evaluation -----

  const TypoKey: string := "high_level_level_summary"
  const SummaryKey: string := "high_level_summary"

  function EvaluationFallback(): Json {
    JObj(map[SummaryKey := JStr("There was an issue analyzing the text. Please try again."), "feedback_items" := JArr([])])
  }

  function EvaluationRequest(text: string): (q: ApiRequest)
    ensures q.model == ModelLite && q.outjson && q.image == [] && q.prompt == EvaluationPrompt(text)
  {
    ApiRequest(EvaluationPrompt(text), ModelLite, [], true)
  }

  /** Python's `TypoKey in value`: key membership for an object, element
      membership for a list, substring for a string; None, booleans and
      numbers raise (None). */
  function TypoKeyIn(value: Json): (r: Option<bool>)
    ensures r.None? <==> value.JNull? || value.JBool? || value.JNum?
  {
    match value
    case JObj(fields) => Some(TypoKey in fields)
    case JArr(items) => Some(JStr(TypoKey) in items)
    case JStr(s) => Some(Contains(s, TypoKey))
    case _ => None
  }

  /** `get_evaluation_feedback`. For an object, a misspelt summary key is
      renamed. A list or string that "contains" the misspelt key makes the
      renaming raise; so do None and scalar replies, and so does an exception
      in the client: all of these give the fallback. */
  function Evaluation(gateway: Gateway, text: string): (r: Json)
    ensures var reply := gateway(EvaluationRequest(text));
      && (reply.Raised? || reply.value.None? ==> r == EvaluationFallback())
      && (reply.Returned? && reply.value.Some? ==>
            var v := reply.value.value;
            && (v.JObj? && TypoKey in v.fields ==>
                  r == JObj(v.fields - {TypoKey} + map[SummaryKey := v.fields[TypoKey]]))
            && (v.JObj? && TypoKey !in v.fields ==> r == v)
            && (TypoKeyIn(v) == Some(false) ==> r == v)
            && (!v.JObj? && TypoKeyIn(v) != Some(false) ==> r == EvaluationFallback()))
    ensures r.JObj? ==> TypoKey !in r.fields
  {
    match gateway(EvaluationRequest(text))
    case Raised => EvaluationFallback()
    case Returned(None) => EvaluationFallback()
    case Returned(Some(v)) =>
      match TypoKeyIn(v)
      case None => EvaluationFallback()
      case Some(false) => v
      case Some(true) =>
        if v.JObj? then JObj(v.fields - {TypoKey} + map[SummaryKey := v.fields[TypoKey]])
        else EvaluationFallback()
  }

  /** Renaming keeps every other key of the reply and its value. */
  lemma EvaluationKeepsOtherKeys(gateway: Gateway, text: string, key: string)
    requires gateway(EvaluationRequest(text)).Returned?
    requires gateway(EvaluationRequest(text)).value.Some? && gateway(EvaluationRequest(text)).value.value.JObj?
    requires key != TypoKey && key != SummaryKey
    ensures var v := gateway(EvaluationRequest(text)).value.value;
      var r := Evaluation(gateway, text);
      r.JObj? && (key in r.fields <==> key in v.fields) && (key in v.fields ==> r.fields[key] == v.fields[key])
  {
  }

  // ----- Quick correction -----

  function CorrectionRequest(userMessage: string): (q: ApiRequest)
    ensures q.model == ModelLite && q.outjson && q.image == [] && q.prompt == QuickCorrectionPrompt(userMessage)
  {
    ApiRequest(QuickCorrectionPrompt(userMessage), ModelLite, [], true)
  }

  /** `get_quick_correction`: a falsy reply means no errors were found. There
      is no exception handler, so an exception in the client propagates. */
  function QuickCorrection(gateway: Gateway, userMessage: string): (r: Outcome<Json>)
    ensures r.Raised? <==> gateway(CorrectionRequest(userMessage)).Raised?
    ensures r.Returned? ==> Truthy(r.value)
    ensures r.Returned? && TruthyOpt(gateway(CorrectionRequest(userMessage)).value) ==>
              r.value == gateway(CorrectionRequest(userMessage)).value.value
    ensures r.Returned? && !TruthyOpt(gateway(CorrectionRequest(userMessage)).value) ==>
              r.value == StatusObject("no_errors")
  {
    match gateway(CorrectionRequest(userMessage))
    case Raised => Raised
    case Returned(reply) => Returned(if TruthyOpt(reply) then reply.value else StatusObject("no_errors"))
  }

  /** Feeding a correction back through the same normalisation changes
      nothing: a "no errors" answer and any truthy reply are fixed points. */
  lemma QuickCorrectionStable(gateway: Gateway, again: Gateway, userMessage: string)
    requires QuickCorrection(gateway, userMessage).Returned?
    requires again(CorrectionRequest(userMessage)) == Returned(Some(QuickCorrection(gateway, userMessage).value))
    ensures QuickCorrection(again, userMessage) == QuickCorrection(gateway, userMessage)
  {
  }

  // ----- Requests -----

  /** What every request the service sends has in common: an image goes
      only to the vision-capable model, and a JSON reply is asked for
      exactly when the prompt's answer is parsed (scaffolding, evaluation,
      quick correction) and never for free text (description, writing). */
  predicate SoundRequest(q: ApiRequest) {
    && (|q.image| > 0 ==> q.model == ModelFlash)
    && (q.outjson <==> !(q.prompt.DescribeImagePrompt? || q.prompt.WritingPrompt?))
  }

  lemma RequestsAreSound(image: seq<byte>, userContext: Json, sessionState: Json,
                         userMessage: string, outline: string, draft: string, text: string)
    ensures SoundRequest(DescriptionRequest(image))
    ensures SoundRequest(ScaffoldingRequest(userContext, sessionState, image))
    ensures SoundRequest(WritingRequest(userMessage, outline, draft))
    ensures SoundRequest(EvaluationRequest(text))
    ensures SoundRequest(CorrectionRequest(userMessage))
  {
  }
}

=== FILE: auth.dfy ===
/** Registration and login of backend/app/routers/auth.py. Password hashing,
    password verification and token signing live in a security module that
    is not part of this model; they are parameters here. */
module AuthRouter {
  import opened Wrappers
  import opened Seqs
  import opened Models
  import opened Schemas

  const EmailTaken: string := "Email already registered."
  const UsernameTaken: string := "Username is already taken."
  const StudentIdTaken: string := "Student ID is already registered."

  /** The signup body as the handler reads it: the declared fields plus the
      optional real name, student id and group. */
  datatype SignupForm = SignupForm(
    email: string,
    username: string,
    password: string,
    realname: Option<string>,
    studentId: Option<string>,
    group: Option<string>)

  function EmailIs(email: string): User -> bool { (u: User) => u.email == email }
  function UsernameIs(username: string): User -> bool { (u: User) => u.username == username }

  /** `User.student_id == value`. An absent value compiles to `IS NULL`, so it
      matches every user stored without a student id. */
  function StudentIdIs(studentId: Option<string>): User -> bool { (u: User) => u.studentId == studentId }

  predicate Taken(users: seq<User>, p: User -> bool) {
    exists k :: 0 <= k < |users| && p(users[k])
  }

  /** The uniqueness checks in the handler's order; the first one that finds
      a user decides the message. */
  function SignupCheck(users: seq<User>, form: SignupForm): (r: Option<string>)
    ensures r == Some(EmailTaken) <==> Taken(users, EmailIs(form.email))
    ensures r == Some(UsernameTaken) <==> !Taken(users, EmailIs(form.email)) && Taken(users, UsernameIs(form.username))
    ensures r == Some(StudentIdTaken) <==>
              !Taken(users, EmailIs(form.email)) && !Taken(users, UsernameIs(form.username)) && Taken(users, StudentIdIs(form.studentId))
    ensures r.None? <==>
              !Taken(users, EmailIs(form.email)) && !Taken(users, UsernameIs(form.username)) && !Taken(users, StudentIdIs(form.studentId))
  {
    if FindFirst(users, EmailIs(form.email)).Some? then Some(EmailTaken)
    else if FindFirst(users, UsernameIs(form.username)).Some? then Some(UsernameTaken)
    else if FindFirst(users, StudentIdIs(form.studentId)).Some? then Some(StudentIdTaken)
    else None
  }

  /** `POST /api/auth/signup`: a 400 with the first collision's message and no
      insert, or a new non-administrator user whose stored credential is the
      hash of the password. */
  function Signup(db: Db, form: SignupForm, hash: string -> string, now: Timestamp): (r: Step<UserOut>)
    ensures r.response.Err? <==> SignupCheck(db.users, form).Some?
    ensures r.response.Err? ==> r.db == db && r.response.error == BadRequest(SignupCheck(db.users, form).value)
    ensures r.response.Ok? ==>
              && r.db == db.(users := r.db.users, nextId := db.nextId + 1)
              && |r.db.users| == |db.users| + 1 && r.db.users[..|db.users|] == db.users
              && var u := r.db.users[|db.users|];
                 && u.id == db.nextId && u.createdAt == now && !u.isAdmin
                 && u.email == form.email && u.username == form.username && u.hashedPassword == hash(form.password)
                 && u.realname == form.realname && u.studentId == form.studentId && u.group == form.group
                 && r.response.value == ToUserOut(u)
  {
    match SignupCheck(db.users, form)
    case Some(message) => Step(db, Err(BadRequest(message)))
    case None =>
      var u := User(db.nextId, form.username, form.email, hash(form.password),
                    form.realname, form.studentId, form.group, false, now);
      Step(db.(users := db.users + [u], nextId := db.nextId + 1), Ok(ToUserOut(u)))
  }

  /** No two users share a student id, counting only users that have one. */
  predicate UniqueStudentIds(users: seq<User>) {
    forall i, j :: 0 <= i < j < |users| && users[i].studentId.Some? ==> users[i].studentId != users[j].studentId
  }

  /** Signup keeps usernames, emails and present student ids unique, and
      keeps every database constraint. */
  lemma SignupKeepsUniqueness(db: Db, form: SignupForm, hash: string -> string, now: Timestamp)
    requires UniqueUsernames(db.users) && UniqueEmails(db.users) && UniqueStudentIds(db.users)
    ensures var r := Signup(db, form, hash, now);
      UniqueUsernames(r.db.users) && UniqueEmails(r.db.users) && UniqueStudentIds(r.db.users)
    ensures DbConstraints(db) ==> DbConstraints(Signup(db, form, hash, now).db)
  {
    var r := Signup(db, form, hash, now);
    if r.response.Ok? {
      var u := r.db.users[|db.users|];
      assert r.db.users == db.users + [u];
      forall i | 0 <= i < |db.users| ensures db.users[i].username != form.username && db.users[i].email != form.email {
        assert !UsernameIs(form.username)(db.users[i]);
        assert !EmailIs(form.email)(db.users[i]);
      }
      forall i | 0 <= i < |db.users| && db.users[i].studentId.Some? ensures db.users[i].studentId != form.studentId {
        assert !StudentIdIs(form.studentId)(db.users[i]);
      }
      AppendNewUser(db.users, u);
      if DbConstraints(db) {
        AppendUserKeepsForeignKeys(db, u);
      }
    }
  }

  /** A user whose username, email and present student id are all new keeps
      the three uniqueness rules. */
  lemma AppendNewUser(users: seq<User>, u: User)
    requires UniqueUsernames(users) && UniqueEmails(users) && UniqueStudentIds(users)
    requires forall i :: 0 <= i < |users| ==> users[i].username != u.username && users[i].email != u.email
    requires forall i :: 0 <= i < |users| && users[i].studentId.Some? ==> users[i].studentId != u.studentId
    ensures UniqueUsernames(users + [u]) && UniqueEmails(users + [u]) && UniqueStudentIds(users + [u])
  {
    var r := users + [u];
    forall a, b | 0 <= a < b < |r|
      ensures r[a].username != r[b].username && r[a].email != r[b].email
      ensures r[a].studentId.Some? ==> r[a].studentId != r[b].studentId
    {
      assert r[a] == users[a];
      if b < |users| { assert r[b] == users[b]; }
    }
  }

  /** Adding a user never breaks a foreign key. */
  lemma AppendUserKeepsForeignKeys(db: Db, u: User)
    requires ForeignKeys(db)
    ensures ForeignKeys(db.(users := db.users + [u], nextId := db.nextId + 1))
  {
    var r := db.(users := db.users + [u], nextId := db.nextId + 1);
    assert UserIds(db) <= UserIds(r) by {
      forall x | x in UserIds(db) ensures x in UserIds(r) {
        var v :| v in db.users && v.id == x;
        assert v in r.users;
      }
    }
  }

  /** Once one user is stored without a student id, every later signup
      without a student id is refused (the `IS NULL` match), even with a
      fresh email and username. */
  lemma SecondSignupWithoutStudentIdRefused(db: Db, form: SignupForm, hash: string -> string, now: Timestamp)
    requires exists u :: u in db.users && u.studentId.None?
    requires form.studentId.None?
    ensures Signup(db, form, hash, now).response.Err?
  {
    var u :| u in db.users && u.studentId.None?;
    var k :| 0 <= k < |db.users| && db.users[k] == u;
    assert StudentIdIs(form.studentId)(db.users[k]);
  }

  // ----- The signup handler against the declared request schema -----

  /** `schemas.UserCreate` as declared: email, username and password only. */
  datatype DeclaredUserCreate = DeclaredUserCreate(email: string, username: string, password: string)

  /** The handler run on the declared schema: once the email and username
      checks pass, reading `user.student_id` raises, which is a 500. */
  function SignupAsDeclared(db: Db, body: DeclaredUserCreate): (r: Step<UserOut>)
    ensures r.db == db
    ensures r.response.Err?
    ensures Taken(db.users, EmailIs(body.email)) ==> r.response.error == BadRequest(EmailTaken)
    ensures !Taken(db.users, EmailIs(body.email)) && Taken(db.users, UsernameIs(body.username)) ==>
              r.response.error == BadRequest(UsernameTaken)
    ensures !Taken(db.users, EmailIs(body.email)) && !Taken(db.users, UsernameIs(body.username)) ==>
              r.response.error == InternalError
  {
    if FindFirst(db.users, EmailIs(body.email)).Some? then Step(db, Err(BadRequest(EmailTaken)))
    else if FindFirst(db.users, UsernameIs(body.username)).Some? then Step(db, Err(BadRequest(UsernameTaken)))
    else Step(db, Err(InternalError))
  }

  /** On the declared schema nobody can register, even into an empty
      database; with the fields the handler reads, the same request succeeds. */
  lemma DeclaredSchemaBlocksSignup(hash: string -> string, now: Timestamp)
    ensures var db := Db([], [], [], [], [], [], [], [], [], [], [], [], [], [], 1);
      && SignupAsDeclared(db, DeclaredUserCreate("a@b.c", "ana", "pw")).response == Err(InternalError)
      && Signup(db, SignupForm("a@b.c", "ana", "pw", None, None, None), hash, now).response.Ok?
  {
  }

  // ----- Login -----

  datatype Token = Token(accessToken: string, tokenType: string)

  /** `POST /api/auth/token`: the first user with that username whose stored
      hash verifies the password gets a bearer token signed over its id; an
      unknown username and a wrong password give the same 401. */
  function Login(db: Db, username: string, password: string,
                 verify: (string, string) -> bool, createToken: Id -> string): (r: Result<Token, HttpError>)
    ensures r.Err? ==> r.error == Unauthorized
    ensures r.Ok? ==> r.value.tokenType == "bearer"
    ensures r.Ok? ==> exists u :: u in db.users && u.username == username && verify(password, u.hashedPassword)
                                  && r.value.accessToken == createToken(u.id)
    ensures !Taken(db.users, UsernameIs(username)) ==> r.Err?
    ensures UniqueUsernames(db.users) ==>
              (r.Ok? <==> exists u :: u in db.users && u.username == username && verify(password, u.hashedPassword))
  {
    match FindFirst(db.users, UsernameIs(username))
    case None => Err(Unauthorized)
    case Some(i) =>
      assert db.users[i] in db.users;
      if verify(password, db.users[i].hashedPassword) then Ok(Token(createToken(db.users[i].id), "bearer"))
      else Err(Unauthorized)
  }

  /** A user who has just signed up can log in with the same password, and
      the token carries the new user's id, provided the hash verifies its own
      input. */
  lemma SignupThenLogin(db: Db, form: SignupForm, hash: string -> string, now: Timestamp,
                        verify: (string, string) -> bool, createToken: Id -> string)
    requires Signup(db, form, hash, now).response.Ok?
    requires verify(form.password, hash(form.password))
    ensures Login(Signup(db, form, hash, now).db, form.username, form.password, verify, createToken)
            == Ok(Token(createToken(db.nextId), "bearer"))
  {
    var users := Signup(db, form, hash, now).db.users;
    forall k | 0 <= k < |db.users| ensures !UsernameIs(form.username)(users[k]) {
      assert users[k] == db.users[k];
    }
    assert UsernameIs(form.username)(users[|db.users|]);
  }
}

=== FILE: client.dfy ===
/** The model gateway client of gemini_api_client/client.py: list formatting,
    extraction of a JSON value from free model text, and the retrying query
    loop. The HTTP transport and the JSON decoder are parameters. */
module ApiClient {
  import opened Wrappers
  import opened JsonValues
  import opened Text

  // ----- format_list_as_indexed_string -----

  /** One numbered line, `"{i}. {item}"`. */
  function IndexedLine(i: nat, item: string): string {
    NatToString(i) + ". " + item
  }

  function IndexedLines(items: seq<string>): (r: seq<string>)
    ensures |r| == |items|
    ensures forall k :: 0 <= k < |items| ==> r[k] == IndexedLine(k, items[k])
  {
    if |items| == 0 then [] else IndexedLines(items[..|items| - 1]) + [IndexedLine(|items| - 1, items[|items| - 1])]
  }

  /** The items numbered from 0, one per line. */
  function FormatIndexed(items: seq<string>): string {
    Join(IndexedLines(items), "\n")
  }

  /** Adding an item adds one line carrying the next number. */
  lemma FormatIndexedSnoc(items: seq<string>, x: string)
    requires |items| > 0
    ensures FormatIndexed(items + [x]) == FormatIndexed(items) + "\n" + IndexedLine(|items|, x)
  {
    assert (items + [x])[..|items|] == items;
    assert IndexedLines(items + [x]) == IndexedLines(items) + [IndexedLine(|items|, x)];
    JoinSnoc(IndexedLines(items), IndexedLine(|items|, x), "\n");
  }

  /** The output is empty exactly when the list is, and otherwise starts with item 0. */
  lemma FormatIndexedEmpty(items: seq<string>)
    ensures FormatIndexed(items) == "" <==> |items| == 0
    ensures |items| > 0 ==> StartsWith(FormatIndexed(items), "0. " + items[0])
  {
    if |items| > 0 {
      var lines := IndexedLines(items);
      var first := "0. " + items[0];
      assert lines[0] == first by { assert NatToString(0) == "0"; }
      var f := FormatIndexed(items);
      if |items| > 1 {
        var rest := "\n" + Join(lines[1..], "\n");
        assert f == first + rest;
        assert f[..|first|] == first;
      }
    }
  }

  // ----- extract_json_from_text -----

  /** The group captured by the regular expression
      ```` ```json\s*([\s\S]*?)\s*``` ````: after the first "```json" and the
      whitespace that follows it, everything up to the next "```", without
      the whitespace before that fence. None when there is no such block. */
  function FencedBlock(text: string): (r: Option<string>)
    ensures !Contains(text, JsonFence) ==> r.None?
    ensures r.Some? ==> !Contains(r.value, Fence)
    ensures r.Some? ==> r.value == [] || (!IsSpace(r.value[0]) && !IsSpace(r.value[|r.value| - 1]))
  {
    match IndexOf(text, JsonFence, 0)
    case None => None
    case Some(i) =>
      assert Contains(text, JsonFence) by { assert OccursAt(text, JsonFence, i); }
      BlockFrom(text, SpanStart(text, i + |JsonFence|))
  }

  /** The lazy group and the `\s*` before the closing fence, from the first
      non-whitespace index `p` after the opening fence. */
  function BlockFrom(text: string, p: nat): (r: Option<string>)
    requires p <= |text| && (p == |text| || !IsSpace(text[p]))
    ensures r.Some? ==> !Contains(r.value, Fence)
    ensures r.Some? ==> r.value == [] || (!IsSpace(r.value[0]) && !IsSpace(r.value[|r.value| - 1]))
  {
    match IndexOf(text, Fence, p)
    case None => None
    case Some(q) =>
      WindowAvoids(text, Fence, p, q);
      assert p < q ==> text[p..q][0] == text[p];
      StrippedBlock(text[p..q]);
      Some(RStrip(text[p..q]))
  }

  /** Trimming the end of a fence-free block that starts with a non-space
      leaves a fence-free block trimmed at both ends. */
  lemma StrippedBlock(s: string)
    requires !Contains(s, Fence)
    requires s == [] || !IsSpace(s[0])
    ensures var r := RStrip(s);
      !Contains(r, Fence) && (r == [] || (!IsSpace(r[0]) && !IsSpace(r[|r| - 1])))
  {
    var r := RStrip(s);
    SliceAvoids(s, Fence, 0, |r|);
    assert r == s[0..|r|];
    if r != [] { assert r[0] == s[0]; }
  }

  /** No fence starts on a whitespace character. */
  lemma NoFenceOnSpace(text: string, j: int)
    requires 0 <= j < |text| && IsSpace(text[j])
    ensures !OccursAt(text, Fence, j)
  {
    assert j + 3 <= |text| ==> text[j..j + 3][0] == text[j];
  }

  /** The search for a block succeeds exactly when some "```json" fence is
      followed, anywhere later, by a closing "```". */
  lemma FencedBlockFound(text: string)
    ensures FencedBlock(text).Some? <==>
      exists i, q :: OccursAt(text, JsonFence, i) && i + |JsonFence| <= q && OccursAt(text, Fence, q)
  {
    var found := IndexOf(text, JsonFence, 0);
    if found.Some? {
      var i := found.value;
      var p := SpanStart(text, i + |JsonFence|);
      var closing := IndexOf(text, Fence, p);
      if closing.None? {
        forall i', q | OccursAt(text, JsonFence, i') && i' + |JsonFence| <= q
          ensures !OccursAt(text, Fence, q)
        {
          if q < p {
            NoFenceOnSpace(text, q);
          }
        }
      } else {
        assert OccursAt(text, JsonFence, i) && i + |JsonFence| <= closing.value && OccursAt(text, Fence, closing.value);
      }
    }
  }

  /** `i` is the first "```json" fence in `text` and `q` the first "```"
      after it. */
  predicate BlockBounds(text: string, i: int, q: int) {
    FirstAt(text, JsonFence, 0, i) && FirstAt(text, Fence, i + |JsonFence|, q)
  }

  /** The block is the text between the first "```json" fence and the first
      "```" after it, stripped of whitespace at both ends. */
  lemma FencedBlockValue(text: string)
    requires FencedBlock(text).Some?
    ensures exists i, q :: BlockBounds(text, i, q) && FencedBlock(text).value == Strip(text[i + |JsonFence|..q])
  {
    var i := IndexOf(text, JsonFence, 0).value;
    var a := i + |JsonFence|;
    var p := SpanStart(text, a);
    var q := IndexOf(text, Fence, p).value;
    assert FencedBlock(text).value == RStrip(text[p..q]);
    forall j | a <= j < p ensures !OccursAt(text, Fence, j) {
      NoFenceOnSpace(text, j);
    }
    assert BlockBounds(text, i, q);
    BlockIsStripped(text, a, p, q);
  }

  /** Cutting the leading whitespace run and then trailing whitespace is
      stripping the whole stretch. */
  lemma BlockIsStripped(text: string, a: nat, p: nat, q: nat)
    requires a <= p <= q <= |text|
    requires p == q || !IsSpace(text[p])
    requires forall j :: a <= j < p ==> IsSpace(text[j])
    ensures RStrip(text[p..q]) == Strip(text[a..q])
  {
    var x := text[a..q];
    var y := text[p..q];
    var v := RStrip(y);
    var lo := p - a;
    var hi := lo + |v|;
    assert y == x[lo..];
    assert v == x[lo..hi];
    forall j | 0 <= j < lo ensures IsSpace(x[j]) {
      assert x[j] == text[a + j];
    }
    forall j | hi <= j < |x| ensures IsSpace(x[j]) {
      assert x[j] == y[j - lo];
    }
    assert lo < hi ==> x[lo] == y[0];
    StripUnique(x, lo, hi);
  }

  predicate IsOpener(c: char) {
    c == '{' || c == '['
  }

  /** The scan after the fenced block: try `raw_decode` at each `{` or `[` from
      `idx` on, left to right, and take the first value it decodes. */
  function ScanFrom(text: string, rawDecode: (string, nat) -> Option<Json>, idx: nat): (r: Option<Json>)
    ensures r.None? ==> forall k :: idx <= k < |text| && IsOpener(text[k]) ==> rawDecode(text, k).None?
    decreases |text| - idx
  {
    if idx >= |text| then None
    else if IsOpener(text[idx]) && rawDecode(text, idx).Some? then rawDecode(text, idx)
    else ScanFrom(text, rawDecode, idx + 1)
  }

  /** What `extract_json_from_text` returns: the fenced block if `json.loads`
      accepts it, otherwise the first value decodable at an opening bracket. */
  function ExtractSpec(text: string, loads: string -> Option<Json>, rawDecode: (string, nat) -> Option<Json>): Option<Json> {
    match FencedBlock(text)
    case Some(block) =>
      if loads(block).Some? then loads(block) else ScanFrom(text, rawDecode, 0)
    case None => ScanFrom(text, rawDecode, 0)
  }

  /** The first opening bracket at or after `from`, as `min` over the two
      `str.find` calls computes it. */
  method NextOpener(text: string, from: nat) returns (r: Option<nat>)
    ensures r.Some? ==> from <= r.value < |text| && IsOpener(text[r.value])
    ensures r.Some? ==> forall k :: from <= k < r.value ==> !IsOpener(text[k])
    ensures r.None? ==> forall k :: from <= k < |text| ==> !IsOpener(text[k])
  {
    var brace := IndexOf(text, "{", from);
    var bracket := IndexOf(text, "[", from);
    assert forall k :: from <= k < |text| ==> (OccursAt(text, "{", k) <==> text[k] == '{') by {
      forall k | from <= k < |text| ensures OccursAt(text, "{", k) <==> text[k] == '{' {
        assert text[k..k + 1] == [text[k]];
      }
    }
    assert forall k :: from <= k < |text| ==> (OccursAt(text, "[", k) <==> text[k] == '[') by {
      forall k | from <= k < |text| ensures OccursAt(text, "[", k) <==> text[k] == '[' {
        assert text[k..k + 1] == [text[k]];
      }
    }
    if brace.Some? && bracket.Some? {
      r := Some(if brace.value < bracket.value then brace.value else bracket.value);
    } else if brace.Some? {
      r := brace;
    } else if bracket.Some? {
      r := bracket;
    } else {
      r := None;
    }
  }

  /** `extract_json_from_text`, as the loop the source runs. */
  method ExtractJson(text: string, loads: string -> Option<Json>, rawDecode: (string, nat) -> Option<Json>)
    returns (r: Option<Json>)
    ensures r == ExtractSpec(text, loads, rawDecode)
  {
    var block := FencedBlock(text);
    if block.Some? && loads(block.value).Some? {
      return loads(block.value);
    }
    var idx: nat := 0;
    while idx < |text|
      invariant idx <= |text|
      invariant ScanFrom(text, rawDecode, idx) == ScanFrom(text, rawDecode, 0)
      decreases |text| - idx
    {
      var start := NextOpener(text, idx);
      if start.None? {
        SkipToEnd(text, rawDecode, idx);
        break;
      }
      SkipNonOpeners(text, rawDecode, idx, start.value);
      var decoded := rawDecode(text, start.value);
      if decoded.Some? {
        return decoded;
      }
      idx := start.value + 1;
    }
    return None;
  }

  /** Positions without an opening bracket do not change the scan's result. */
  lemma {:induction false} SkipNonOpeners(text: string, rawDecode: (string, nat) -> Option<Json>, from: nat, to: nat)
    requires from <= to < |text|
    requires forall k :: from <= k < to ==> !IsOpener(text[k])
    ensures ScanFrom(text, rawDecode, from) == ScanFrom(text, rawDecode, to)
    decreases (to as int) - (from as int)
  {
    if from < to {
      SkipNonOpeners(text, rawDecode, from + 1, to);
    }
  }

  lemma {:induction false} SkipToEnd(text: string, rawDecode: (string, nat) -> Option<Json>, from: nat)
    requires from <= |text|
    requires forall k :: from <= k < |text| ==> !IsOpener(text[k])
    ensures ScanFrom(text, rawDecode, from) == None
    decreases |text| - from
  {
    if from < |text| {
      SkipToEnd(text, rawDecode, from + 1);
    }
  }

  /** The scan returns the value decoded at the first bracket where decoding
      succeeds: every earlier bracket fails to decode. */
  lemma {:induction false} ScanTakesFirst(text: string, rawDecode: (string, nat) -> Option<Json>, idx: nat)
    requires ScanFrom(text, rawDecode, idx).Some?
    ensures exists k :: idx <= k < |text| && IsOpener(text[k]) && rawDecode(text, k) == ScanFrom(text, rawDecode, idx)
                        && forall m :: idx <= m < k && IsOpener(text[m]) ==> rawDecode(text, m).None?
    decreases |text| - idx
  {
    if IsOpener(text[idx]) && rawDecode(text, idx).Some? {
      assert rawDecode(text, idx) == ScanFrom(text, rawDecode, idx);
    } else {
      ScanTakesFirst(text, rawDecode, idx + 1);
      var k :| idx + 1 <= k < |text| && IsOpener(text[k]) && rawDecode(text, k) == ScanFrom(text, rawDecode, idx + 1)
               && forall m :: idx + 1 <= m < k && IsOpener(text[m]) ==> rawDecode(text, m).None?;
      assert forall m :: idx <= m < k && IsOpener(text[m]) ==> rawDecode(text, m).None?;
    }
  }

  // ----- query_api_with_retries -----

  /** What one POST attempt produced: a transport or HTTP status error
      (`RequestException`), a response body, or some other exception, which
      the loop does not catch. */
  datatype AttemptResult = TransportError | Received(body: string) | Crashed

  /** The data an attempt yields: the extracted JSON, or the raw body when
      `outjson` is off (as a string value). */
  function AttemptData(res: AttemptResult, outjson: bool, loads: string -> Option<Json>,
                       rawDecode: (string, nat) -> Option<Json>): Option<Json>
  {
    match res
    case Received(body) => if outjson then ExtractSpec(body, loads, rawDecode) else Some(JStr(body))
    case _ => None
  }

  /** An attempt that ends in a logged error and a retry: a transport error, or
      a response with no truthy data (`ValueError`). */
  predicate Retryable(res: AttemptResult, outjson: bool, loads: string -> Option<Json>,
                      rawDecode: (string, nat) -> Option<Json>)
  {
    res.TransportError? || (res.Received? && !TruthyOpt(AttemptData(res, outjson, loads, rawDecode)))
  }

  function Pow2(k: nat): (r: nat)
    ensures r >= 1
  {
    if k == 0 then 1 else 2 * Pow2(k - 1)
  }

  /** The pause before retry `k + 1`: the initial back-off, doubled `k` times. */
  function Backoff(initial: int, k: nat): int {
    if k == 0 then initial else 2 * Backoff(initial, k - 1)
  }

  /** Doubling `k` times multiplies by 2 to the `k`. */
  lemma {:induction false} BackoffIsExponential(initial: int, k: nat)
    ensures Backoff(initial, k) == initial * Pow2(k)
  {
    if k > 0 {
      BackoffIsExponential(initial, k - 1);
      calc {
        Backoff(initial, k);
        2 * (initial * Pow2(k - 1));
        initial * (2 * Pow2(k - 1));
      }
    }
  }

  /** One attempt's data, computed as the loop body does. */
  method AttemptDataOf(res: AttemptResult, outjson: bool, loads: string -> Option<Json>,
                       rawDecode: (string, nat) -> Option<Json>) returns (data: Option<Json>)
    ensures data == AttemptData(res, outjson, loads, rawDecode)
  {
    data := None;
    if res.Received? {
      if outjson {
        data := ExtractJson(res.body, loads, rawDecode);
      } else {
        data := Some(JStr(res.body));
      }
    }
  }

  /** The retry loop. `attempt(k)` is what the k-th POST produces. Returns the
      outcome, the number of attempts made, and the back-off pauses slept
      between attempts. The source sleeps after a failed attempt unless it
      was the last; the loop below sleeps before every attempt but the first,
      which yields the same pauses. */
  method QueryWithRetries(maxRetries: int, initialBackoff: int, outjson: bool, attempt: nat -> AttemptResult,
                          loads: string -> Option<Json>, rawDecode: (string, nat) -> Option<Json>)
    returns (r: Outcome<Option<Json>>, attempts: nat, sleeps: seq<int>)
    ensures attempts <= (if maxRetries < 0 then 0 else maxRetries)
    ensures forall k :: 0 <= k < attempts - 1 ==> Retryable(attempt(k), outjson, loads, rawDecode)
    ensures r == Returned(None) <==>
              attempts == (if maxRetries < 0 then 0 else maxRetries)
              && forall k :: 0 <= k < attempts ==> Retryable(attempt(k), outjson, loads, rawDecode)
    ensures r.Returned? && r.value.Some? ==>
              attempts >= 1 && Truthy(r.value.value)
              && r.value == AttemptData(attempt(attempts - 1), outjson, loads, rawDecode)
    ensures r.Raised? ==> attempts >= 1 && attempt(attempts - 1).Crashed?
    ensures |sleeps| == (if attempts == 0 then 0 else attempts - 1)
    ensures forall k :: 0 <= k < |sleeps| ==> sleeps[k] == Backoff(initialBackoff, k)
  {
    var n: nat := if maxRetries < 0 then 0 else maxRetries;
    var backoff := initialBackoff;
    attempts := 0;
    sleeps := [];
    while attempts < n
      invariant attempts <= n
      invariant forall m :: 0 <= m < attempts ==> Retryable(attempt(m), outjson, loads, rawDecode)
      invariant |sleeps| == (if attempts == 0 then 0 else attempts - 1)
      invariant forall m :: 0 <= m < |sleeps| ==> sleeps[m] == Backoff(initialBackoff, m)
      invariant backoff == Backoff(initialBackoff, |sleeps|)
      decreases n - attempts
    {
      if attempts > 0 {
        sleeps := sleeps + [backoff];
        backoff := backoff * 2;
      }
      var res := attempt(attempts);
      attempts := attempts + 1;
      if res.Crashed? {
        return Raised, attempts, sleeps;
      }
      var data := AttemptDataOf(res, outjson, loads, rawDecode);
      if TruthyOpt(data) {
        return Returned(data), attempts, sleeps;
      }
    }
    r := Returned(None);
  }
}

=== FILE: context_agent.dfy ===
/** The background context agent of backend/app/services/context_agent.py:
    after a journal is completed it summarises the journal, extracts
    cognitive and linguistic patterns with the language model, and overwrites
    the user's context profile with them. */
module ContextAgent {
  import opened Wrappers
  import opened JsonValues
  import opened Seqs
  import opened Text
  import opened Models

  /** The three questions the agent asks the model. */
  datatype AgentPrompt =
    | SummaryPrompt(fullText: string)
    | CognitivePrompt(summary: string)
    | LinguisticPrompt(text: string)

  /** The language model as the agent sees it: whether the client could be
      configured at import time, `generate_content` (None when it raises), and
      `json.loads` (None when the text is not JSON). */
  datatype AgentAi = AgentAi(configured: bool, generate: AgentPrompt -> Option<string>, loads: string -> Option<Json>)

  const SummaryUnavailable: string := "Summary generation unavailable."

  /** `get_thematic_summary`: the stripped reply, or a fixed sentence when the
      model is not configured. A failing model call propagates. */
  function ThematicSummary(ai: AgentAi, text: string): (r: Outcome<string>)
    ensures !ai.configured ==> r == Returned(SummaryUnavailable)
    ensures ai.configured && ai.generate(SummaryPrompt(text)).None? ==> r == Raised
    ensures ai.configured && ai.generate(SummaryPrompt(text)).Some? ==>
              r.Returned? && r.value == Strip(ai.generate(SummaryPrompt(text)).value)
    ensures r.Returned? && ai.configured ==>
              var reply := ai.generate(SummaryPrompt(text)).value;
              (exists lo, hi :: TrimmedAt(reply, lo, hi) && r.value == reply[lo..hi])
              && (r.value == [] || (!IsSpace(r.value[0]) && !IsSpace(r.value[|r.value| - 1])))
  {
    if !ai.configured then Returned(SummaryUnavailable)
    else match ai.generate(SummaryPrompt(text))
      case None => Raised
      case Some(reply) => Returned(Strip(reply))
  }

  /** `_call_gemini_api`: raises when the model is not configured; a failing
      call or unparsable reply gives None; otherwise the parsed reply after
      its code fences are removed. */
  function CallGemini(ai: AgentAi, prompt: AgentPrompt): (r: Outcome<Option<Json>>)
    ensures r == Raised <==> !ai.configured
    ensures ai.configured && ai.generate(prompt).None? ==> r == Returned(None)
    ensures ai.configured && ai.generate(prompt).Some? ==>
              r == Returned(ai.loads(CleanFences(ai.generate(prompt).value)))
  {
    if !ai.configured then Raised
    else match ai.generate(prompt)
      case None => Returned(None)
      case Some(reply) => Returned(ai.loads(CleanFences(reply)))
  }

  /** One chat message as the agent prints it: `sender: text`. */
  function MessageLine(m: ChatMessage): string {
    SenderName(m.sender) + ": " + m.messageText
  }

  function MessageLines(msgs: seq<ChatMessage>): (r: seq<string>)
    ensures |r| == |msgs| && forall k :: 0 <= k < |msgs| ==> r[k] == MessageLine(msgs[k])
  {
    if |msgs| == 0 then [] else [MessageLine(msgs[0])] + MessageLines(msgs[1..])
  }

  const ChatHistoryHeader: string := "\n\nChat History:\n"

  /** The text summarised: the journal content, a header, and the chat
      messages one per line. */
  function FullText(content: string, msgs: seq<ChatMessage>): (r: string)
    ensures StartsWith(r, content + ChatHistoryHeader)
  {
    content + ChatHistoryHeader + Join(MessageLines(msgs), "\n")
  }

  /** With no messages the text ends at the header; the first message
      follows the header directly. */
  lemma FullTextFirstMessage(content: string, m: ChatMessage)
    ensures FullText(content, []) == content + ChatHistoryHeader
    ensures FullText(content, [m]) == content + ChatHistoryHeader + MessageLine(m)
  {
    assert MessageLines([m]) == [MessageLine(m)];
  }

  /** Each later message adds a newline and its own line at the end, so the
      messages appear in order, one per line. */
  lemma FullTextSnoc(content: string, msgs: seq<ChatMessage>, m: ChatMessage)
    requires |msgs| >= 1
    ensures FullText(content, msgs + [m]) == FullText(content, msgs) + "\n" + MessageLine(m)
  {
    assert MessageLines(msgs + [m]) == MessageLines(msgs) + [MessageLine(m)];
    JoinSnoc(MessageLines(msgs), MessageLine(m), "\n");
  }

  function JournalWithId(journalId: Id): Journal -> bool { (j: Journal) => j.id == journalId }
  function MessageOf(journalId: Id): ChatMessage -> bool { (m: ChatMessage) => m.journalId == journalId }
  function ProfileOf(userId: Id): ContextProfile -> bool { (p: ContextProfile) => p.userId == userId }

  /** The profile data written on success: exactly these two keys, replacing
      whatever was stored; a missing or empty insight becomes `{}`. */
  function ProfileData(linguistic: Option<Json>, cognitive: Option<Json>): map<string, Json> {
    map["linguistic_profile" := OrEmptyObject(linguistic), "cognitive_profile" := OrEmptyObject(cognitive)]
  }

  /** Insert or overwrite the user's profile. */
  function UpsertProfile(profiles: seq<ContextProfile>, userId: Id, data: map<string, Json>, now: Timestamp): (r: seq<ContextProfile>)
    ensures FindFirst(r, ProfileOf(userId)).Some?
    ensures r[FindFirst(r, ProfileOf(userId)).value] == ContextProfile(userId, data, now)
    ensures forall k :: 0 <= k < |profiles| && profiles[k].userId != userId ==> k < |r| && r[k] == profiles[k]
    ensures forall p :: p in r && p.userId != userId ==> p in profiles
    ensures OneProfilePerUser(profiles) ==> OneProfilePerUser(r)
  {
    match FindFirst(profiles, ProfileOf(userId))
    case Some(i) =>
      var r := profiles[i := ContextProfile(userId, data, now)];
      assert forall k :: 0 <= k < |profiles| && k != i ==> r[k] == profiles[k];
      assert ProfileOf(userId)(r[i]);
      assert FindFirst(r, ProfileOf(userId)) == Some(i);
      forall p | p in r && p.userId != userId ensures p in profiles {
        var k :| 0 <= k < |r| && r[k] == p;
        assert k != i;
      }
      r
    case None =>
      var r := profiles + [ContextProfile(userId, data, now)];
      assert forall k :: 0 <= k < |profiles| ==> r[k] == profiles[k];
      assert ProfileOf(userId)(r[|profiles|]);
      r
  }

  /** The end state of one agent run and whether it committed. */
  datatype AgentRun = AgentRun(db: Db, committed: bool)

  /** `process_journal`: it commits exactly when the journal exists and every
      model step returns; any failure (unknown journal, model not configured,
      a raising model call) rolls back and leaves the database as it was. */
  function ProcessJournal(db: Db, journalId: Id, userId: Id, ai: AgentAi, now: Timestamp): (r: AgentRun)
    ensures r.db == db.(profiles := r.db.profiles)
    ensures !r.committed ==> r.db == db
    ensures !ai.configured ==> !r.committed
    ensures OneProfilePerUser(db.profiles) ==> OneProfilePerUser(r.db.profiles)
    ensures r.committed <==>
      && FindFirst(db.journals, JournalWithId(journalId)).Some?
      && var j := db.journals[FindFirst(db.journals, JournalWithId(journalId)).value];
         var summary := ThematicSummary(ai, FullText(j.content, Filter(db.messages, MessageOf(j.id))));
      && summary.Returned?
      && CallGemini(ai, LinguisticPrompt(j.content)).Returned?
      && CallGemini(ai, CognitivePrompt(summary.value)).Returned?
    ensures r.committed ==>
      var j := db.journals[FindFirst(db.journals, JournalWithId(journalId)).value];
      var summary := ThematicSummary(ai, FullText(j.content, Filter(db.messages, MessageOf(j.id))));
      && FindFirst(r.db.profiles, ProfileOf(userId)).Some?
      && r.db.profiles[FindFirst(r.db.profiles, ProfileOf(userId)).value] ==
           ContextProfile(userId, ProfileData(CallGemini(ai, LinguisticPrompt(j.content)).value,
                                              CallGemini(ai, CognitivePrompt(summary.value)).value), now)
      && (forall p :: p in r.db.profiles && p.userId != userId ==> p in db.profiles)
  {
    match FindFirst(db.journals, JournalWithId(journalId))
    case None => AgentRun(db, false)
    case Some(i) =>
      var j := db.journals[i];
      var summary := ThematicSummary(ai, FullText(j.content, Filter(db.messages, MessageOf(j.id))));
      if summary.Raised? then AgentRun(db, false)
      else
        var cognitive := CallGemini(ai, CognitivePrompt(summary.value));
        var linguistic := CallGemini(ai, LinguisticPrompt(j.content));
        if cognitive.Raised? || linguistic.Raised? then AgentRun(db, false)
        else
          var data := ProfileData(linguistic.value, cognitive.value);
          AgentRun(db.(profiles := UpsertProfile(db.profiles, userId, data, now)), true)
  }

  /** The new profile overwrites the old one: what was stored before does not
      influence what is stored after. */
  lemma ProfileOverwrites(db: Db, stored: seq<ContextProfile>, journalId: Id, userId: Id, ai: AgentAi, now: Timestamp)
    requires ProcessJournal(db, journalId, userId, ai, now).committed
    ensures var r1 := ProcessJournal(db, journalId, userId, ai, now).db.profiles;
      var r2 := ProcessJournal(db.(profiles := stored), journalId, userId, ai, now).db.profiles;
      && ProcessJournal(db.(profiles := stored), journalId, userId, ai, now).committed
      && r1[FindFirst(r1, ProfileOf(userId)).value] == r2[FindFirst(r2, ProfileOf(userId)).value]
  {
  }

  /** With the model unconfigured the agent can never succeed: the summary
      falls back to a fixed sentence, but the pattern extraction raises. */
  lemma UnconfiguredNeverWrites(db: Db, journalId: Id, userId: Id, ai: AgentAi, now: Timestamp)
    requires !ai.configured
    ensures ProcessJournal(db, journalId, userId, ai, now) == AgentRun(db, false)
    ensures ThematicSummary(ai, "") == Returned(SummaryUnavailable) && CallGemini(ai, CognitivePrompt(SummaryUnavailable)) == Raised
  {
  }
}

=== FILE: file_tree.dfy ===
/** The directory overview of compiler.py (`generate_file_structure`): one
    line per kept entry, in sorted name order and pre-order, drawn with tree
    connectors. The directory tree is given as a value instead of being read
    from the file system. */
module FileTree {
  import opened Seqs
  import opened Sorting
  import opened Text

  /** A directory entry as listed: a file, or a directory with its entries
      in listing order. */
  datatype Entry = FileEntry(name: string) | DirEntry(name: string, children: seq<Entry>)

  const Branch: string := "├── "
  const LastBranch: string := "└── "
  const Pipe: string := "│   "
  const Blank: string := "    "

  function Connector(isLast: bool): string { if isLast then LastBranch else Branch }
  function ChildPrefix(isLast: bool): string { if isLast then Blank else Pipe }

  // ----- Name order -----

  /** Python's string order: lexicographic by code point, a prefix first. */
  predicate StrLe(a: string, b: string) {
    |a| == 0 || (|b| > 0 && (a[0] < b[0] || (a[0] == b[0] && StrLe(a[1..], b[1..]))))
  }

  lemma {:induction false} StrLeTotal(a: string, b: string)
    ensures StrLe(a, b) || StrLe(b, a)
  {
    if |a| > 0 && |b| > 0 && a[0] == b[0] {
      StrLeTotal(a[1..], b[1..]);
    }
  }

  lemma {:induction false} StrLeTransitive(a: string, b: string, c: string)
    requires StrLe(a, b) && StrLe(b, c)
    ensures StrLe(a, c)
  {
    if |a| > 0 && |b| > 0 && |c| > 0 && a[0] == b[0] && b[0] == c[0] {
      StrLeTransitive(a[1..], b[1..], c[1..]);
    }
  }

  function NameLe(): (Entry, Entry) -> bool { (x: Entry, y: Entry) => StrLe(x.name, y.name) }

  lemma NameLeIsTotal()
    ensures TotalPreorder(NameLe())
  {
    forall x: Entry, y: Entry ensures NameLe()(x, y) || NameLe()(y, x) {
      StrLeTotal(x.name, y.name);
    }
    forall x: Entry, y: Entry, z: Entry | NameLe()(x, y) && NameLe()(y, z) ensures NameLe()(x, z) {
      StrLeTransitive(x.name, y.name, z.name);
    }
  }

  // ----- Which entries are shown -----

  /** A directory is shown unless its name is excluded; a file is shown when
      its name ends with one of the extensions. */
  predicate Kept(e: Entry, excludeDirs: seq<string>, extensions: seq<string>) {
    match e
    case DirEntry(name, _) => name !in excludeDirs
    case FileEntry(name) => exists k :: 0 <= k < |extensions| && EndsWith(name, extensions[k])
  }

  function KeptBy(excludeDirs: seq<string>, extensions: seq<string>): Entry -> bool {
    (e: Entry) => Kept(e, excludeDirs, extensions)
  }

  /** Every item is a shown entry of the listing. */
  predicate AllShown(contents: seq<Entry>, items: seq<Entry>, excludeDirs: seq<string>, extensions: seq<string>) {
    forall e :: e in items ==> e in contents && Kept(e, excludeDirs, extensions)
  }

  /** The entries of one directory that get a line, by name. */
  function Visible(contents: seq<Entry>, excludeDirs: seq<string>, extensions: seq<string>): (r: seq<Entry>)
    ensures SortedBy(r, NameLe())
    ensures forall e :: e in r <==> e in contents && Kept(e, excludeDirs, extensions)
    ensures multiset(r) == multiset(Filter(contents, KeptBy(excludeDirs, extensions)))
    ensures AllShown(contents, r, excludeDirs, extensions)
  {
    NameLeIsTotal();
    var sorted := Sort(contents, NameLe());
    var r := Filter(sorted, KeptBy(excludeDirs, extensions));
    SortedMembers(contents, sorted);
    FilterKeepsOrder(sorted, KeptBy(excludeDirs, extensions), NameLe());
    FilterOfPermutation(sorted, contents, KeptBy(excludeDirs, extensions));
    r
  }

  lemma {:induction false} FilterKeepsOrder<T(!new)>(xs: seq<T>, p: T -> bool, le: (T, T) -> bool)
    requires SortedBy(xs, le)
    ensures SortedBy(Filter(xs, p), le)
  {
    if |xs| > 0 {
      FilterKeepsOrder(xs[1..], p, le);
      var rest := Filter(xs[1..], p);
      forall k | 0 <= k < |rest| ensures le(xs[0], rest[k]) {
        assert rest[k] in xs[1..];
      }
    }
  }

  lemma FilterOfPermutation<T(!new)>(xs: seq<T>, ys: seq<T>, p: T -> bool)
    requires multiset(xs) == multiset(ys)
    ensures multiset(Filter(xs, p)) == multiset(Filter(ys, p))
  {
    assert forall x :: multiset(Filter(xs, p))[x] == multiset(Filter(ys, p))[x];
  }

  // ----- Counting shown entries -----

  /** The number of lines an entry contributes: none when it is not shown;
      otherwise its own line, plus those of its entries for a directory. */
  function Weight(e: Entry, excludeDirs: seq<string>, extensions: seq<string>): nat
    decreases e, 1
  {
    if !Kept(e, excludeDirs, extensions) then 0
    else match e
      case FileEntry(_) => 1
      case DirEntry(_, children) => 1 + KeptCountFrom(children, 0, excludeDirs, extensions)
  }

  function WeightOf(excludeDirs: seq<string>, extensions: seq<string>): Entry -> nat {
    (e: Entry) => Weight(e, excludeDirs, extensions)
  }

  /** Shown entries of a listing, from position `i`, counted in listing order. */
  function KeptCountFrom(contents: seq<Entry>, i: nat, excludeDirs: seq<string>, extensions: seq<string>): nat
    requires i <= |contents|
    decreases contents, 0, |contents| - i
  {
    if i == |contents| then 0
    else Weight(contents[i], excludeDirs, extensions) + KeptCountFrom(contents, i + 1, excludeDirs, extensions)
  }

  function KeptCount(contents: seq<Entry>, excludeDirs: seq<string>, extensions: seq<string>): nat {
    KeptCountFrom(contents, 0, excludeDirs, extensions)
  }

  function Sum<T>(xs: seq<T>, f: T -> nat): nat {
    if |xs| == 0 then 0 else f(xs[0]) + Sum(xs[1..], f)
  }

  lemma {:induction false} KeptCountIsSum(contents: seq<Entry>, i: nat, excludeDirs: seq<string>, extensions: seq<string>)
    requires i <= |contents|
    ensures KeptCountFrom(contents, i, excludeDirs, extensions) == Sum(contents[i..], WeightOf(excludeDirs, extensions))
    decreases |contents| - i
  {
    if i < |contents| {
      KeptCountIsSum(contents, i + 1, excludeDirs, extensions);
      assert contents[i..][1..] == contents[i + 1..];
    }
  }

  lemma {:induction false} SumAppend<T>(xs: seq<T>, ys: seq<T>, f: T -> nat)
    ensures Sum(xs + ys, f) == Sum(xs, f) + Sum(ys, f)
  {
    if |xs| == 0 {
      assert xs + ys == ys;
    } else {
      assert (xs + ys)[1..] == xs[1..] + ys;
      SumAppend(xs[1..], ys, f);
    }
  }

  /** A sum depends only on the multiset of its terms. */
  lemma {:induction false} SumPermutation<T>(xs: seq<T>, ys: seq<T>, f: T -> nat)
    requires multiset(xs) == multiset(ys)
    ensures Sum(xs, f) == Sum(ys, f)
    decreases |xs|
  {
    if |xs| > 0 {
      assert xs[0] in multiset(ys);
      var j :| 0 <= j < |ys| && ys[j] == xs[0];
      var rest := ys[..j] + ys[j + 1..];
      RemoveOne(ys, j);
      assert xs == [xs[0]] + xs[1..];
      assert multiset(xs[1..]) == multiset(xs) - multiset{xs[0]};
      SumPermutation(xs[1..], rest, f);
      SumRemoveOne(ys, j, f);
    }
  }

  /** Taking out position j removes one copy of that element. */
  lemma RemoveOne<T>(ys: seq<T>, j: nat)
    requires j < |ys|
    ensures multiset(ys[..j] + ys[j + 1..]) == multiset(ys) - multiset{ys[j]}
  {
    assert ys == ys[..j] + [ys[j]] + ys[j + 1..];
    assert multiset(ys) == multiset(ys[..j]) + multiset{ys[j]} + multiset(ys[j + 1..]);
  }

  /** The sum is the term at j plus the sum of the others. */
  lemma {:induction false} SumRemoveOne<T>(ys: seq<T>, j: nat, f: T -> nat)
    requires j < |ys|
    ensures Sum(ys, f) == f(ys[j]) + Sum(ys[..j] + ys[j + 1..], f)
  {
    if j == 0 {
      assert ys[..0] + ys[1..] == ys[1..];
    } else {
      var tail := ys[1..];
      SumRemoveOne(tail, j - 1, f);
      var others := tail[..j - 1] + tail[j..];
      assert ys[..j] + ys[j + 1..] == [ys[0]] + others;
      assert tail[j - 1] == ys[j];
    }
  }

  /** Dropping terms of weight zero leaves the sum unchanged. */
  lemma {:induction false} SumOfKept(xs: seq<Entry>, excludeDirs: seq<string>, extensions: seq<string>)
    ensures Sum(Filter(xs, KeptBy(excludeDirs, extensions)), WeightOf(excludeDirs, extensions))
         == Sum(xs, WeightOf(excludeDirs, extensions))
  {
    if |xs| > 0 {
      SumOfKept(xs[1..], excludeDirs, extensions);
      var rest := Filter(xs[1..], KeptBy(excludeDirs, extensions));
      if Kept(xs[0], excludeDirs, extensions) {
        assert Filter(xs, KeptBy(excludeDirs, extensions)) == [xs[0]] + rest;
        assert ([xs[0]] + rest)[1..] == rest;
      }
    }
  }

  /** The shown entries of a listing, counted after sorting and filtering,
      are its shown entries counted in listing order. */
  lemma VisibleSum(contents: seq<Entry>, excludeDirs: seq<string>, extensions: seq<string>)
    ensures Sum(Visible(contents, excludeDirs, extensions), WeightOf(excludeDirs, extensions))
         == KeptCount(contents, excludeDirs, extensions)
  {
    var w := WeightOf(excludeDirs, extensions);
    var filtered := Filter(contents, KeptBy(excludeDirs, extensions));
    SumPermutation(Visible(contents, excludeDirs, extensions), filtered, w);
    SumOfKept(contents, excludeDirs, extensions);
    KeptCountIsSum(contents, 0, excludeDirs, extensions);
    assert contents[0..] == contents;
  }

  // ----- Rendering -----

  /** The lines of one directory listing (without their line breaks): every
      shown entry in name order, each followed by the lines of its entries
      when it is a directory. Every line starts with `prefix`, and there is
      exactly one line per shown entry at any depth. */
  function Lines(contents: seq<Entry>, excludeDirs: seq<string>, extensions: seq<string>, prefix: string): (r: seq<string>)
    ensures AllStartWith(r, prefix)
    ensures |r| == KeptCount(contents, excludeDirs, extensions)
    decreases contents, 1
  {
    var items := Visible(contents, excludeDirs, extensions);
    VisibleSum(contents, excludeDirs, extensions);
    ItemLines(contents, items, 0, excludeDirs, extensions, prefix)
  }

  /** The lines of the shown entries from position `i` on. The entry at the
      last position gets the closing connector and passes a blank column to
      its entries; the others get the branching connector and a pipe. */
  function ItemLines(contents: seq<Entry>, items: seq<Entry>, i: nat, excludeDirs: seq<string>, extensions: seq<string>,
                     prefix: string): (r: seq<string>)
    requires i <= |items|
    requires AllShown(contents, items, excludeDirs, extensions)
    ensures AllStartWith(r, prefix)
    ensures |r| == Sum(items[i..], WeightOf(excludeDirs, extensions))
    ensures i < |items| ==> r[0] == prefix + Connector(i == |items| - 1) + items[i].name
    decreases contents, 0, |items| - i
  {
    if i == |items| then []
    else
      var item := items[i];
      assert item in items;
      var isLast := i == |items| - 1;
      var own := prefix + Connector(isLast) + item.name;
      assert StartsWith(own, prefix) by { assert own[..|prefix|] == prefix; }
      var below := ChildLines(item, isLast, excludeDirs, extensions, prefix);
      var rest := ItemLines(contents, items, i + 1, excludeDirs, extensions, prefix);
      assert items[i..][1..] == items[i + 1..];
      PrefixedConcat(own, below, rest, prefix, ChildPrefix(isLast));
      [own] + below + rest
  }

  /** The lines drawn below a shown entry: those of its entries, one column
      deeper, for a directory; none for a file. */
  function ChildLines(e: Entry, isLast: bool, excludeDirs: seq<string>, extensions: seq<string>, prefix: string): (r: seq<string>)
    ensures AllStartWith(r, prefix + ChildPrefix(isLast))
    ensures e.FileEntry? ==> r == []
    ensures e.DirEntry? ==> |r| == KeptCount(e.children, excludeDirs, extensions)
    decreases e, 2
  {
    match e
    case FileEntry(_) => []
    case DirEntry(_, children) => Lines(children, excludeDirs, extensions, prefix + ChildPrefix(isLast))
  }

  /** The block of a shown entry is its own line, then the lines below it;
      the next entry's block follows. */
  lemma ItemLinesTail(contents: seq<Entry>, items: seq<Entry>, i: nat, excludeDirs: seq<string>, extensions: seq<string>,
                      prefix: string)
    requires i < |items|
    requires AllShown(contents, items, excludeDirs, extensions)
    ensures var r := ItemLines(contents, items, i, excludeDirs, extensions, prefix);
      var w := Weight(items[i], excludeDirs, extensions);
      && 1 <= w <= |r|
      && r[1..w] == ChildLines(items[i], i == |items| - 1, excludeDirs, extensions, prefix)
      && r[w..] == ItemLines(contents, items, i + 1, excludeDirs, extensions, prefix)
  {
    var r := ItemLines(contents, items, i, excludeDirs, extensions, prefix);
    var below := ChildLines(items[i], i == |items| - 1, excludeDirs, extensions, prefix);
    var rest := ItemLines(contents, items, i + 1, excludeDirs, extensions, prefix);
    assert items[i] in items;
    assert r == [prefix + Connector(i == |items| - 1) + items[i].name] + below + rest;
    assert |below| + 1 == Weight(items[i], excludeDirs, extensions);
  }

  /** Dropping the block of the entry at `i` leads to the lines from `i + 1`
      on, so whatever they drop to, the lines from `i` drop to as well. */
  lemma ItemLinesStep(contents: seq<Entry>, items: seq<Entry>, i: nat, at: nat, tail: seq<string>,
                      excludeDirs: seq<string>, extensions: seq<string>, prefix: string)
    requires i < |items|
    requires AllShown(contents, items, excludeDirs, extensions)
    requires DropsTo(ItemLines(contents, items, i + 1, excludeDirs, extensions, prefix), at, tail)
    ensures DropsTo(ItemLines(contents, items, i, excludeDirs, extensions, prefix), Weight(items[i], excludeDirs, extensions) + at, tail)
  {
    ItemLinesTail(contents, items, i, excludeDirs, extensions, prefix);
    var r := ItemLines(contents, items, i, excludeDirs, extensions, prefix);
    var w := Weight(items[i], excludeDirs, extensions);
    assert r[w + at..] == r[w..][at..];
  }

  /** `tail` is what remains of `r` after its first `at` elements. */
  predicate DropsTo<T(==)>(r: seq<T>, at: nat, tail: seq<T>) {
    at <= |r| && r[at..] == tail
  }

  /** The lines from position `i` on, with the blocks of the entries before
      position `j` dropped, are the lines from position `j` on. */
  lemma {:induction false} ItemLinesDrop(contents: seq<Entry>, items: seq<Entry>, i: nat, j: nat,
                                         excludeDirs: seq<string>, extensions: seq<string>, prefix: string)
    requires i <= j <= |items|
    requires AllShown(contents, items, excludeDirs, extensions)
    ensures DropsTo(ItemLines(contents, items, i, excludeDirs, extensions, prefix), Sum(items[i..j], WeightOf(excludeDirs, extensions)),
                    ItemLines(contents, items, j, excludeDirs, extensions, prefix))
    decreases j - i
  {
    if i == j {
      assert items[i..j] == [];
    } else {
      ItemLinesDrop(contents, items, i + 1, j, excludeDirs, extensions, prefix);
      SumFrom(items, i, j, WeightOf(excludeDirs, extensions));
      ItemLinesStep(contents, items, i, Sum(items[i + 1..j], WeightOf(excludeDirs, extensions)),
                    ItemLines(contents, items, j, excludeDirs, extensions, prefix), excludeDirs, extensions, prefix);
    }
  }

  lemma SumFrom<T>(xs: seq<T>, i: nat, j: nat, f: T -> nat)
    requires i < j <= |xs|
    ensures Sum(xs[i..j], f) == f(xs[i]) + Sum(xs[i + 1..j], f)
  {
    assert xs[i..j][1..] == xs[i + 1..j];
  }

  /** `lines` holds the block of the shown entry `items[j]` from position
      `at`: its own line, with the closing connector exactly when it is the
      last item, then the lines drawn below it. */
  predicate BlockAt(lines: seq<string>, at: nat, items: seq<Entry>, j: nat, excludeDirs: seq<string>, extensions: seq<string>,
                    prefix: string)
    requires j < |items|
  {
    var w := Weight(items[j], excludeDirs, extensions);
    && 1 <= w && at + w <= |lines|
    && lines[at] == prefix + Connector(j == |items| - 1) + items[j].name
    && lines[at + 1..at + w] == ChildLines(items[j], j == |items| - 1, excludeDirs, extensions, prefix)
  }

  /** The block of the entry at position `j` starts after the blocks of
      the entries before it. */
  lemma ItemBlock(contents: seq<Entry>, items: seq<Entry>, j: nat, excludeDirs: seq<string>, extensions: seq<string>,
                  prefix: string)
    requires j < |items|
    requires AllShown(contents, items, excludeDirs, extensions)
    ensures BlockAt(ItemLines(contents, items, 0, excludeDirs, extensions, prefix),
                    Sum(items[..j], WeightOf(excludeDirs, extensions)), items, j, excludeDirs, extensions, prefix)
  {
    assert items[0..j] == items[..j];
    ItemLinesDrop(contents, items, 0, j, excludeDirs, extensions, prefix);
    HeadBlock(contents, items, j, excludeDirs, extensions, prefix);
    BlockAfterDrop(ItemLines(contents, items, 0, excludeDirs, extensions, prefix), Sum(items[..j], WeightOf(excludeDirs, extensions)),
                   ItemLines(contents, items, j, excludeDirs, extensions, prefix), items, j, excludeDirs, extensions, prefix);
  }

  /** The lines from position `j` on open with the block of the entry at `j`. */
  lemma HeadBlock(contents: seq<Entry>, items: seq<Entry>, j: nat, excludeDirs: seq<string>, extensions: seq<string>,
                  prefix: string)
    requires j < |items|
    requires AllShown(contents, items, excludeDirs, extensions)
    ensures BlockAt(ItemLines(contents, items, j, excludeDirs, extensions, prefix), 0, items, j, excludeDirs, extensions, prefix)
  {
    ItemLinesTail(contents, items, j, excludeDirs, extensions, prefix);
  }

  /** A block found after dropping `at` lines is found at `at`. */
  lemma BlockAfterDrop(lines: seq<string>, at: nat, tail: seq<string>, items: seq<Entry>, j: nat,
                       excludeDirs: seq<string>, extensions: seq<string>, prefix: string)
    requires j < |items|
    requires DropsTo(lines, at, tail) && BlockAt(tail, 0, items, j, excludeDirs, extensions, prefix)
    ensures BlockAt(lines, at, items, j, excludeDirs, extensions, prefix)
  {
    var w := Weight(items[j], excludeDirs, extensions);
    InsideDrop(lines, at, tail, w);
    assert tail[0 + 1..0 + w] == tail[1..w];
  }

  lemma InsideDrop<T>(r: seq<T>, at: nat, tail: seq<T>, w: nat)
    requires DropsTo(r, at, tail) && 1 <= w <= |tail|
    ensures at + w <= |r| && r[at] == tail[0] && r[at + 1..at + w] == tail[1..w]
  {
    forall k | 0 <= k < w - 1
      ensures r[at + 1..at + w][k] == tail[1..w][k]
    {
      assert r[at..][k + 1] == tail[k + 1];
    }
  }

  /** Every shown entry has its block in the listing, in name order, after
      the blocks of the entries before it. */
  lemma ShownEntryBlock(contents: seq<Entry>, excludeDirs: seq<string>, extensions: seq<string>, prefix: string, j: nat)
    requires j < |Visible(contents, excludeDirs, extensions)|
    ensures var items := Visible(contents, excludeDirs, extensions);
      BlockAt(Lines(contents, excludeDirs, extensions, prefix), Sum(items[..j], WeightOf(excludeDirs, extensions)),
              items, j, excludeDirs, extensions, prefix)
  {
    var items := Visible(contents, excludeDirs, extensions);
    assert Lines(contents, excludeDirs, extensions, prefix) == ItemLines(contents, items, 0, excludeDirs, extensions, prefix);
    ItemBlock(contents, items, j, excludeDirs, extensions, prefix);
  }

  /** Every line starts with `prefix`. */
  predicate AllStartWith(lines: seq<string>, prefix: string) {
    forall k :: 0 <= k < |lines| ==> StartsWith(lines[k], prefix)
  }

  /** Lines under a longer prefix also start with the shorter one. */
  lemma PrefixedConcat(own: string, below: seq<string>, rest: seq<string>, prefix: string, extra: string)
    requires StartsWith(own, prefix)
    requires AllStartWith(below, prefix + extra)
    requires AllStartWith(rest, prefix)
    ensures AllStartWith([own] + below + rest, prefix)
  {
    var r := [own] + below + rest;
    forall k | 0 <= k < |r| ensures StartsWith(r[k], prefix) {
      if k == 0 {
      } else if k <= |below| {
        assert r[k] == below[k - 1];
        assert below[k - 1][..|prefix|] == (below[k - 1][..|prefix + extra|])[..|prefix|];
      } else {
        assert r[k] == rest[k - 1 - |below|];
      }
    }
  }

  /** `generate_file_structure`: the lines, each ended by a line break. The
      text is empty exactly when nothing is shown; otherwise it starts with
      the prefix and ends with a line break. */
  function GenerateFileStructure(contents: seq<Entry>, excludeDirs: seq<string>, extensions: seq<string>, prefix: string): (r: string)
    ensures r == "" <==> KeptCount(contents, excludeDirs, extensions) == 0
    ensures r != "" ==> StartsWith(r, prefix) && r[|r| - 1] == '\n'
    ensures r == Unlines(Lines(contents, excludeDirs, extensions, prefix))
  {
    var lines := Lines(contents, excludeDirs, extensions, prefix);
    assert |lines| > 0 ==> StartsWith(lines[0], prefix);
    Unlines(lines)
  }

  /** Each line followed by a line break. */
  function Unlines(lines: seq<string>): (r: string)
    ensures |lines| == 0 <==> r == ""
    ensures |lines| > 0 ==> r[|r| - 1] == '\n' && StartsWith(r, lines[0])
  {
    if |lines| == 0 then "" else
      var r := lines[0] + "\n" + Unlines(lines[1..]);
      assert r[..|lines[0]|] == lines[0];
      r
  }

  /** The text of two runs of lines is the text of the first followed by
      the text of the second. */
  lemma {:induction false} UnlinesAppend(xs: seq<string>, ys: seq<string>)
    ensures Unlines(xs + ys) == Unlines(xs) + Unlines(ys)
  {
    if |xs| == 0 {
      assert xs + ys == ys;
    } else {
      assert (xs + ys)[1..] == xs[1..] + ys;
      UnlinesAppend(xs[1..], ys);
      var head := xs[0] + "\n";
      assert Unlines(xs + ys) == head + (Unlines(xs[1..]) + Unlines(ys));
    }
  }

  /** The first line names the first shown entry, with the closing connector
      exactly when that entry is the only one shown. */
  lemma FirstLine(contents: seq<Entry>, excludeDirs: seq<string>, extensions: seq<string>, prefix: string)
    requires |Visible(contents, excludeDirs, extensions)| > 0
    ensures var items := Visible(contents, excludeDirs, extensions);
      Lines(contents, excludeDirs, extensions, prefix)[0] == prefix + Connector(|items| == 1) + items[0].name
  {
  }

  /** A shown directory whose entries are all hidden still gets its line,
      and nothing below it. */
  lemma EmptyDirectoryListed(name: string, children: seq<Entry>, excludeDirs: seq<string>, extensions: seq<string>,
                             prefix: string)
    requires name !in excludeDirs
    requires forall c :: c in children ==> !Kept(c, excludeDirs, extensions)
    ensures Lines([DirEntry(name, children)], excludeDirs, extensions, prefix) == [prefix + LastBranch + name]
  {
    var d := DirEntry(name, children);
    var items := Visible([d], excludeDirs, extensions);
    assert d in items;
    assert |items| == 1 by {
      assert multiset(items) == multiset(Filter([d], KeptBy(excludeDirs, extensions)));
      assert Filter([d], KeptBy(excludeDirs, extensions)) == [d];
    }
    assert items == [d];
    HiddenCountsNothing(children, 0, excludeDirs, extensions);
    assert Lines(children, excludeDirs, extensions, prefix + Blank) == [];
  }

  lemma {:induction false} HiddenCountsNothing(contents: seq<Entry>, i: nat, excludeDirs: seq<string>, extensions: seq<string>)
    requires i <= |contents|
    requires forall c :: c in contents ==> !Kept(c, excludeDirs, extensions)
    ensures KeptCountFrom(contents, i, excludeDirs, extensions) == 0
    decreases |contents| - i
  {
    if i < |contents| {
      assert contents[i] in contents;
      HiddenCountsNothing(contents, i + 1, excludeDirs, extensions);
    }
  }
}

=== FILE: journal_store.dfy ===
/** The client-side journal cache of frontend/src/stores/journalStore.js.
    Each asynchronous action is modelled by the state it leaves once its
    request has settled; the server's reply is a parameter (`Raised` for a
    rejected request). */
module JournalStore {
  import opened Wrappers
  import opened Seqs
  import opened Text

  /** A message id: a number from the server, or the string id of an
      optimistic message. The two never compare equal. */
  datatype MessageId = ServerId(n: nat) | TempId(s: string)

  datatype LocalMessage = LocalMessage(id: MessageId, sender: string, messageType: string, messageText: string, isOptimistic: bool)

  /** A journal as the client holds it. `journalDate` is the ISO date string;
      an absent `chat_messages` array is None. */
  datatype LocalJournal = LocalJournal(
    id: nat,
    journalDate: Option<string>,
    content: string,
    chatMessages: Option<seq<LocalMessage>>)

  datatype JournalState = JournalState(
    journals: seq<LocalJournal>,
    isLoading: bool,
    error: Option<string>,
    isUploading: bool)

  const LoadListFailed: string := "Failed to load journal entries."
  const LoadOneFailed: string := "Failed to load journal entry."
  const CreateFailed: string := "Failed to create journal entry."
  const UpdateFailed: string := "Failed to update journal entry."
  const PhaseFailed: string := "Failed to update journal phase."
  const UploadFailed: string := "Failed to upload image."
  const UploadingText: string := "Uploading..."

  function DatedOn(date: string): LocalJournal -> bool { (j: LocalJournal) => j.journalDate == Some(date) }

  /** Whether a journal has a truthy `journal_date`. */
  predicate HasDate(j: LocalJournal) { j.journalDate.Some? && j.journalDate.value != "" }

  // ----- Lookup -----

  /** `getJournalByDate`: the first journal of that date, or undefined. */
  function GetJournalByDate(journals: seq<LocalJournal>, date: string): (r: Option<LocalJournal>)
    ensures r.None? <==> forall k :: 0 <= k < |journals| ==> journals[k].journalDate != Some(date)
    ensures r.Some? ==> exists k :: 0 <= k < |journals| && journals[k] == r.value && r.value.journalDate == Some(date)
                                   && forall j :: 0 <= j < k ==> journals[j].journalDate != Some(date)
  {
    match FindFirst(journals, DatedOn(date))
    case None => None
    case Some(i) => Some(journals[i])
  }

  // ----- List maintenance -----

  /** Replace the element at `i`, keeping every other position. */
  function ReplaceAt(journals: seq<LocalJournal>, i: nat, j: LocalJournal): (r: seq<LocalJournal>)
    requires i < |journals|
    ensures |r| == |journals| && r[i] == j
    ensures forall k :: 0 <= k < |r| && k != i ==> r[k] == journals[k]
  {
    journals[..i] + [j] + journals[i + 1..]
  }

  /** `updateLocalJournal`: ignored without a journal or a truthy date;
      otherwise the first journal of that date is replaced in place, or the
      journal is put in front. */
  function UpdateLocalJournal(journals: seq<LocalJournal>, updated: Option<LocalJournal>): (r: seq<LocalJournal>)
    ensures updated.None? || !HasDate(updated.value) ==> r == journals
    ensures updated.Some? && HasDate(updated.value) ==>
              var date := updated.value.journalDate.value;
              match FindFirst(journals, DatedOn(date))
              case Some(i) => |r| == |journals| && r[i] == updated.value
                              && forall k :: 0 <= k < |r| && k != i ==> r[k] == journals[k]
              case None => r == [updated.value] + journals
  {
    if updated.None? || !HasDate(updated.value) then journals
    else match FindFirst(journals, DatedOn(updated.value.journalDate.value))
      case Some(i) => ReplaceAt(journals, i, updated.value)
      case None => [updated.value] + journals
  }

  /** After a local update the journal is what a lookup of its date finds,
      and journals of other dates are found as before. */
  lemma UpdateThenGet(journals: seq<LocalJournal>, updated: LocalJournal, other: string)
    requires HasDate(updated)
    requires Some(other) != updated.journalDate
    ensures GetJournalByDate(UpdateLocalJournal(journals, Some(updated)), updated.journalDate.value) == Some(updated)
    ensures GetJournalByDate(UpdateLocalJournal(journals, Some(updated)), other) == GetJournalByDate(journals, other)
  {
    var date := updated.journalDate.value;
    var r := UpdateLocalJournal(journals, Some(updated));
    var f := GetJournalByDate(r, date);
    match FindFirst(journals, DatedOn(date))
    case Some(i) =>
      var k :| 0 <= k < |r| && r[k] == f.value && f.value.journalDate == Some(date)
               && forall j :: 0 <= j < k ==> r[j].journalDate != Some(date);
      assert k == i;
      FindOtherAfterReplace(journals, i, updated, other);
    case None =>
      assert r[0] == updated;
      FindOtherAfterPrepend(journals, updated, other);
  }

  lemma FindOtherAfterReplace(journals: seq<LocalJournal>, i: nat, j: LocalJournal, other: string)
    requires i < |journals| && journals[i].journalDate == j.journalDate && j.journalDate != Some(other)
    ensures GetJournalByDate(ReplaceAt(journals, i, j), other) == GetJournalByDate(journals, other)
  {
    var r := ReplaceAt(journals, i, j);
    assert forall k :: 0 <= k < |r| ==> (r[k].journalDate == Some(other) <==> journals[k].journalDate == Some(other));
    var a := GetJournalByDate(r, other);
    var b := GetJournalByDate(journals, other);
    if a.Some? {
      var ka :| 0 <= ka < |r| && r[ka] == a.value && a.value.journalDate == Some(other)
                && forall x :: 0 <= x < ka ==> r[x].journalDate != Some(other);
      var kb :| 0 <= kb < |journals| && journals[kb] == b.value && b.value.journalDate == Some(other)
                && forall x :: 0 <= x < kb ==> journals[x].journalDate != Some(other);
      assert ka == kb;
    }
  }

  lemma FindOtherAfterPrepend(journals: seq<LocalJournal>, j: LocalJournal, other: string)
    requires j.journalDate != Some(other)
    ensures GetJournalByDate([j] + journals, other) == GetJournalByDate(journals, other)
  {
    var r := [j] + journals;
    assert r[1..] == journals;
    assert !DatedOn(other)(r[0]);
    match FindFirst(journals, DatedOn(other))
    case None =>
      assert FindFirst(r, DatedOn(other)) == None;
    case Some(i) =>
      assert FindFirst(r, DatedOn(other)) == Some(i + 1);
      assert r[i + 1] == journals[i];
  }

  /** `setJournalContent`: the content of the first journal of that date
      changes; nothing else does. */
  function SetJournalContent(journals: seq<LocalJournal>, date: string, content: string): (r: seq<LocalJournal>)
    ensures |r| == |journals|
    ensures match FindFirst(journals, DatedOn(date))
            case None => r == journals
            case Some(i) => r[i] == journals[i].(content := content)
                            && forall k :: 0 <= k < |r| && k != i ==> r[k] == journals[k]
  {
    match FindFirst(journals, DatedOn(date))
    case None => journals
    case Some(i) => ReplaceAt(journals, i, journals[i].(content := content))
  }

  // ----- Requests -----

  /** `fetchJournals`: the reply replaces the list; a failure keeps it. */
  function FetchJournals(s: JournalState, reply: Outcome<seq<LocalJournal>>): (r: JournalState)
    ensures !r.isLoading && r.isUploading == s.isUploading
    ensures reply.Returned? ==> r.journals == reply.value && r.error.None?
    ensures reply.Raised? ==> r.journals == s.journals && r.error == Some(LoadListFailed)
  {
    match reply
    case Returned(list) => s.(journals := list, isLoading := false, error := None)
    case Raised => s.(isLoading := false, error := Some(LoadListFailed))
  }

  /** `fetchJournalByDate`: a cached journal is returned without a request
      unless a refresh is forced; otherwise the reply replaces the first
      journal of that date or is appended, and is returned. A failed request
      returns null. */
  function FetchJournalByDate(s: JournalState, date: string, forceRefresh: bool, reply: Outcome<LocalJournal>)
    : (r: (JournalState, Option<LocalJournal>))
    ensures GetJournalByDate(s.journals, date).Some? && !forceRefresh ==> r == (s, GetJournalByDate(s.journals, date))
    ensures (GetJournalByDate(s.journals, date).None? || forceRefresh) ==>
              && !r.0.isLoading && r.0.isUploading == s.isUploading
              && (reply.Raised? ==> r.0.journals == s.journals && r.0.error == Some(LoadOneFailed) && r.1.None?)
              && (reply.Returned? ==>
                    && r.0.error.None? && r.1 == Some(reply.value)
                    && match FindFirst(s.journals, DatedOn(date))
                       case Some(i) => |r.0.journals| == |s.journals| && r.0.journals[i] == reply.value
                                       && forall k :: 0 <= k < |s.journals| && k != i ==> r.0.journals[k] == s.journals[k]
                       case None => r.0.journals == s.journals + [reply.value])
  {
    var existing := GetJournalByDate(s.journals, date);
    if existing.Some? && !forceRefresh then (s, existing)
    else match reply
      case Raised => (s.(isLoading := false, error := Some(LoadOneFailed)), None)
      case Returned(j) =>
        var list := match FindFirst(s.journals, DatedOn(date))
                    case Some(i) => ReplaceAt(s.journals, i, j)
                    case None => s.journals + [j];
        (s.(journals := list, isLoading := false, error := None), Some(j))
  }

  /** A fetched journal of the requested date is what later lookups find. */
  lemma FetchThenGet(s: JournalState, date: string, forceRefresh: bool, j: LocalJournal)
    requires GetJournalByDate(s.journals, date).None? || forceRefresh
    requires j.journalDate == Some(date)
    ensures GetJournalByDate(FetchJournalByDate(s, date, forceRefresh, Returned(j)).0.journals, date) == Some(j)
  {
    var r := FetchJournalByDate(s, date, forceRefresh, Returned(j)).0.journals;
    var at := match FindFirst(s.journals, DatedOn(date)) case Some(i) => i case None => |s.journals|;
    assert r[at] == j;
    var f := GetJournalByDate(r, date);
    var k :| 0 <= k < |r| && r[k] == f.value && f.value.journalDate == Some(date)
             && forall x :: 0 <= x < k ==> r[x].journalDate != Some(date);
    assert k == at;
  }

  /** `createJournal`: the created journal goes in front. */
  function CreateJournal(s: JournalState, reply: Outcome<LocalJournal>): (r: (JournalState, Option<LocalJournal>))
    ensures !r.0.isLoading && r.0.isUploading == s.isUploading
    ensures reply.Returned? ==> r.0.journals == [reply.value] + s.journals && r.0.error.None? && r.1 == Some(reply.value)
    ensures reply.Raised? ==> r.0.journals == s.journals && r.0.error == Some(CreateFailed) && r.1.None?
  {
    match reply
    case Returned(j) => (s.(journals := [j] + s.journals, isLoading := false, error := None), Some(j))
    case Raised => (s.(isLoading := false, error := Some(CreateFailed)), None)
  }

  /** `updateJournal` and `updateJournalPhase`: the reply goes through
      `updateLocalJournal`; they differ only in the failure message. */
  function UpdateWith(s: JournalState, reply: Outcome<Option<LocalJournal>>, failure: string)
    : (r: (JournalState, Option<LocalJournal>))
    ensures !r.0.isLoading && r.0.isUploading == s.isUploading
    ensures reply.Returned? ==> r.0.journals == UpdateLocalJournal(s.journals, reply.value) && r.0.error.None? && r.1 == reply.value
    ensures reply.Raised? ==> r.0.journals == s.journals && r.0.error == Some(failure) && r.1.None?
  {
    match reply
    case Returned(j) => (s.(journals := UpdateLocalJournal(s.journals, j), isLoading := false, error := None), j)
    case Raised => (s.(isLoading := false, error := Some(failure)), None)
  }

  function UpdateJournal(s: JournalState, reply: Outcome<Option<LocalJournal>>): (r: (JournalState, Option<LocalJournal>))
    ensures r == UpdateWith(s, reply, UpdateFailed)
    ensures reply.Raised? ==> r.0.error == Some(UpdateFailed)
  {
    UpdateWith(s, reply, UpdateFailed)
  }

  function UpdateJournalPhase(s: JournalState, reply: Outcome<Option<LocalJournal>>): (r: (JournalState, Option<LocalJournal>))
    ensures r == UpdateWith(s, reply, PhaseFailed)
    ensures reply.Raised? ==> r.0.error == Some(PhaseFailed)
  {
    UpdateWith(s, reply, PhaseFailed)
  }

  /** A successful update of a dated journal is what a lookup of that date
      then finds, and lookups of other dates are unaffected; a failed one
      keeps the list. The two actions differ only in the failure message. */
  lemma UpdateJournalThenGet(s: JournalState, j: LocalJournal, other: string, reply: Outcome<Option<LocalJournal>>)
    requires HasDate(j) && Some(other) != j.journalDate
    ensures var r := UpdateJournal(s, Returned(Some(j))).0.journals;
      && GetJournalByDate(r, j.journalDate.value) == Some(j)
      && GetJournalByDate(r, other) == GetJournalByDate(s.journals, other)
    ensures UpdateJournal(s, Raised).0.journals == s.journals
    ensures UpdateJournalPhase(s, reply).0.journals == UpdateJournal(s, reply).0.journals
    ensures UpdateJournalPhase(s, reply).1 == UpdateJournal(s, reply).1
  {
    UpdateThenGet(s.journals, j, other);
  }

  // ----- Optimistic image upload -----

  /** `addChatMessageOptimistically`: the message is appended to the first
      journal of that date, whose missing message list starts empty; for an
      unknown date nothing changes. */
  function AddChatMessageOptimistically(journals: seq<LocalJournal>, date: string, m: LocalMessage): (r: seq<LocalJournal>)
    ensures |r| == |journals|
    ensures match FindFirst(journals, DatedOn(date))
            case None => r == journals
            case Some(i) => r[i] == journals[i].(chatMessages := Some(journals[i].chatMessages.GetOr([]) + [m]))
                            && forall k :: 0 <= k < |r| && k != i ==> r[k] == journals[k]
  {
    match FindFirst(journals, DatedOn(date))
    case None => journals
    case Some(i) => ReplaceAt(journals, i, journals[i].(chatMessages := Some(journals[i].chatMessages.GetOr([]) + [m])))
  }

  function NotId(id: MessageId): LocalMessage -> bool { (m: LocalMessage) => m.id != id }

  /** The cleanup after a failed upload: the first journal of that date loses
      every message with the temporary id. */
  function RemoveMessage(journals: seq<LocalJournal>, date: string, id: MessageId): (r: seq<LocalJournal>)
    ensures |r| == |journals|
    ensures match FindFirst(journals, DatedOn(date))
            case None => r == journals
            case Some(i) => r[i] == journals[i].(chatMessages := Some(Filter(journals[i].chatMessages.GetOr([]), NotId(id))))
                            && forall k :: 0 <= k < |r| && k != i ==> r[k] == journals[k]
  {
    match FindFirst(journals, DatedOn(date))
    case None => journals
    case Some(i) => ReplaceAt(journals, i, journals[i].(chatMessages := Some(Filter(journals[i].chatMessages.GetOr([]), NotId(id)))))
  }

  function TempImageId(now: nat): MessageId { TempId("temp-img-" + NatToString(now)) }

  function OptimisticMessage(now: nat): (m: LocalMessage)
    ensures m.id.TempId? && m.isOptimistic && m.messageText == UploadingText
  {
    LocalMessage(TempImageId(now), "user", "image", UploadingText, true)
  }

  /** `uploadImage`: an optimistic message is shown at once; the reply then
      goes through `updateLocalJournal`, or on failure the optimistic message
      is removed again and the server's detail (or a default) is reported. */
  function UploadImage(s: JournalState, date: string, now: nat, reply: Outcome<Option<LocalJournal>>, detail: Option<string>)
    : (r: JournalState)
    ensures !r.isUploading && r.isLoading == s.isLoading
    ensures var shown := AddChatMessageOptimistically(s.journals, date, OptimisticMessage(now));
      && (reply.Returned? ==> r.journals == UpdateLocalJournal(shown, reply.value) && r.error.None?)
      && (reply.Raised? ==> r.journals == RemoveMessage(shown, date, TempImageId(now))
                            && r.error == Some(if detail.Some? && detail.value != "" then detail.value else UploadFailed))
  {
    var shown := AddChatMessageOptimistically(s.journals, date, OptimisticMessage(now));
    match reply
    case Returned(j) => s.(journals := UpdateLocalJournal(shown, j), error := None, isUploading := false)
    case Raised =>
      s.(journals := RemoveMessage(shown, date, TempImageId(now)),
         error := Some(if detail.Some? && detail.value != "" then detail.value else UploadFailed),
         isUploading := false)
  }

  /** A failed upload leaves the journals as they were, except that a
      missing message list becomes an empty one, provided no message already
      carried the temporary id. */
  lemma FailedUploadRestores(s: JournalState, date: string, now: nat, detail: Option<string>)
    requires forall j :: j in s.journals && j.chatMessages.Some? ==>
               forall m :: m in j.chatMessages.value ==> m.id != TempImageId(now)
    ensures var r := UploadImage(s, date, now, Raised, detail);
      && |r.journals| == |s.journals|
      && forall k :: 0 <= k < |s.journals| ==>
           r.journals[k] == (if s.journals[k].chatMessages.None? && FindFirst(s.journals, DatedOn(date)) == Some(k)
                             then s.journals[k].(chatMessages := Some([])) else s.journals[k])
  {
    var m := OptimisticMessage(now);
    var shown := AddChatMessageOptimistically(s.journals, date, m);
    match FindFirst(s.journals, DatedOn(date))
    case None =>
    case Some(i) =>
      FindFirstAfterReplace(s.journals, i, shown[i], DatedOn(date));
      assert s.journals[i] in s.journals;
      AddThenRemove(s.journals[i].chatMessages.GetOr([]), m);
  }

  /** Removing a freshly appended message by its id undoes the append. */
  lemma AddThenRemove(msgs: seq<LocalMessage>, m: LocalMessage)
    requires forall x :: x in msgs ==> x.id != m.id
    ensures Filter(msgs + [m], NotId(m.id)) == msgs
  {
    FilterAppend(msgs, [m], NotId(m.id));
    FilterKeepsAll(msgs, NotId(m.id));
    assert Filter([m], NotId(m.id)) == [];
  }

  /** Replacing the first match by another match keeps it the first match. */
  lemma FindFirstAfterReplace(journals: seq<LocalJournal>, i: nat, j: LocalJournal, p: LocalJournal -> bool)
    requires FindFirst(journals, p) == Some(i) && p(j)
    ensures FindFirst(ReplaceAt(journals, i, j), p) == Some(i)
  {
    var r := ReplaceAt(journals, i, j);
    assert forall k :: 0 <= k < i ==> r[k] == journals[k];
  }

  /** Filtering by a predicate every element satisfies changes nothing. */
  lemma {:induction false} FilterKeepsAll<T(!new)>(xs: seq<T>, p: T -> bool)
    requires forall k :: 0 <= k < |xs| ==> p(xs[k])
    ensures Filter(xs, p) == xs
  {
    if |xs| > 0 {
      FilterKeepsAll(xs[1..], p);
      assert xs == [xs[0]] + xs[1..];
    }
  }
}

=== FILE: journals.dfy ===
/** The journal endpoints of backend/app/routers/journals.py. Each user has
    at most one journal per date; the handlers keep that invariant because the
    database does not. */
module JournalsRouter {
  import opened Wrappers
  import opened Seqs
  import opened Sorting
  import opened Models

  /** An ORM update: `updated_at` is refreshed (`onupdate`) only when an
      UPDATE is actually issued, that is, when some column changed. */
  function Touch(before: Journal, after: Journal, now: Timestamp): (r: Journal)
    ensures after == before ==> r == before
    ensures after != before ==> r == after.(updatedAt := now)
  {
    if after == before then before else after.(updatedAt := now)
  }

  const AlreadyExists: string := "A journal entry for today already exists."

  /** `POST /api/journals/`: a journal for `today` with the given content, an
      empty outline and the initial phase; 400 when the user already has one
      for today. */
  function CreateJournal(db: Db, userId: Id, content: string, today: Day, now: Timestamp): (r: Step<Journal>)
    ensures FindJournal(db.journals, userId, today).Some? ==> r == Step(db, Err(BadRequest(AlreadyExists)))
    ensures FindJournal(db.journals, userId, today).None? ==>
              && r.response.Ok?
              && var j := r.response.value;
              && j.userId == userId && j.journalDate == today && j.content == content
              && j.outlineContent == "" && j.writingPhase == InitialPhase && j.title == None
              && j.createdAt == now && j.updatedAt == now
              && r.db == db.(journals := db.journals + [j], nextId := db.nextId + 1)
  {
    if FindJournal(db.journals, userId, today).Some? then Step(db, Err(BadRequest(AlreadyExists)))
    else
      var j := Journal(db.nextId, userId, today, None, content, "", InitialPhase, now, now);
      Step(db.(journals := db.journals + [j], nextId := db.nextId + 1), Ok(j))
  }

  function JournalDate(j: Journal): int { j.journalDate }

  /** `GET /api/journals/`: the caller's journals, newest date first. */
  function GetAllJournals(db: Db, userId: Id): (r: seq<Journal>)
    ensures forall j :: j in r <==> j in db.journals && j.userId == userId
    ensures forall i, k :: 0 <= i < k < |r| ==> r[i].journalDate >= r[k].journalDate
    ensures multiset(r) == multiset(Filter(db.journals, (j: Journal) => j.userId == userId))
  {
    var mine := Filter(db.journals, (j: Journal) => j.userId == userId);
    var r := SortDescending(mine, JournalDate);
    SortedMembers(mine, r);
    r
  }

  /** `GET /api/journals/{date}`: the caller's journal for the date, or 404. */
  function GetJournalByDate(db: Db, userId: Id, date: Day): (r: Result<Journal, HttpError>)
    ensures r.Ok? <==> exists j :: j in db.journals && j.userId == userId && j.journalDate == date
    ensures r.Ok? ==> r.value in db.journals && r.value.userId == userId && r.value.journalDate == date
    ensures r.Err? ==> r.error == NotFound
  {
    match FindJournal(db.journals, userId, date)
    case None => Err(NotFound)
    case Some(i) => Ok(db.journals[i])
  }

  /** `PUT /api/journals/{date}`: replace the content, and the outline when one
      is given; 404 without a journal for the date. */
  function UpdateJournal(db: Db, userId: Id, date: Day, content: string, outline: Option<string>,
                         now: Timestamp): (r: Step<Journal>)
    ensures FindJournal(db.journals, userId, date).None? ==> r == Step(db, Err(NotFound))
    ensures FindJournal(db.journals, userId, date).Some? ==>
              && r.response.Ok?
              && var i := FindJournal(db.journals, userId, date).value;
                 var j := r.response.value;
              && j.content == content
              && j.outlineContent == (if outline.Some? then outline.value else db.journals[i].outlineContent)
              && j.id == db.journals[i].id && j.writingPhase == db.journals[i].writingPhase
              && j.userId == db.journals[i].userId && j.journalDate == db.journals[i].journalDate
              && j.title == db.journals[i].title && j.createdAt == db.journals[i].createdAt
              && r.db == db.(journals := db.journals[i := j])
  {
    match FindJournal(db.journals, userId, date)
    case None => Step(db, Err(NotFound))
    case Some(i) =>
      var old_ := db.journals[i];
      var edited := old_.(content := content, outlineContent := outline.GetOr(old_.outlineContent));
      var j := Touch(old_, edited, now);
      Step(db.(journals := db.journals[i := j]), Ok(j))
  }

  /** `PUT /api/journals/{date}/phase`: set the phase (any phase is accepted,
      including moving backwards); when the new phase is Completed the context
      agent is scheduled for this journal. */
  function UpdateJournalPhase(db: Db, userId: Id, date: Day, phase: Phase, now: Timestamp): (r: Step<Journal>)
    ensures FindJournal(db.journals, userId, date).None? ==> r == Step(db, Err(NotFound))
    ensures FindJournal(db.journals, userId, date).Some? ==>
              && r.response.Ok?
              && var i := FindJournal(db.journals, userId, date).value;
                 var j := r.response.value;
              && j == Touch(db.journals[i], db.journals[i].(writingPhase := phase), now)
              && r.db.journals == db.journals[i := j]
              && r.db.jobs == db.jobs + (if phase == Completed then [ContextJob(db.journals[i].id, userId)] else [])
              && r.db == db.(journals := r.db.journals, jobs := r.db.jobs)
  {
    match FindJournal(db.journals, userId, date)
    case None => Step(db, Err(NotFound))
    case Some(i) =>
      var j := Touch(db.journals[i], db.journals[i].(writingPhase := phase), now);
      var jobs := if j.writingPhase == Completed then db.jobs + [ContextJob(j.id, userId)] else db.jobs;
      Step(db.(journals := db.journals[i := j], jobs := jobs), Ok(j))
  }

  // ----- Properties -----

  /** Replacing a journal by one with the same owner and date keeps one
      journal per user and date. */
  lemma ReplaceKeepsOnePerDay(journals: seq<Journal>, i: nat, j: Journal)
    requires i < |journals| && OneJournalPerDay(journals)
    requires j.userId == journals[i].userId && j.journalDate == journals[i].journalDate
    ensures OneJournalPerDay(journals[i := j])
  {
  }

  /** Every journal endpoint keeps at most one journal per user and date. */
  lemma {:induction false} JournalEndpointsKeepOnePerDay(db: Db, userId: Id, date: Day, content: string,
                                                         outline: Option<string>, phase: Phase, now: Timestamp)
    requires OneJournalPerDay(db.journals)
    ensures OneJournalPerDay(CreateJournal(db, userId, content, date, now).db.journals)
    ensures OneJournalPerDay(UpdateJournal(db, userId, date, content, outline, now).db.journals)
    ensures OneJournalPerDay(UpdateJournalPhase(db, userId, date, phase, now).db.journals)
  {
    var c := CreateJournal(db, userId, content, date, now);
    if c.response.Ok? {
      var js := c.db.journals;
      forall a, b | 0 <= a < b < |js|
        ensures (js[a].userId, js[a].journalDate) != (js[b].userId, js[b].journalDate)
      {
        if b == |db.journals| {
          assert js[a] == db.journals[a];
          assert !((js[a].userId == userId) && (js[a].journalDate == date));
        }
      }
    }
    match FindJournal(db.journals, userId, date)
    case None =>
    case Some(i) =>
      ReplaceKeepsOnePerDay(db.journals, i, UpdateJournal(db, userId, date, content, outline, now).response.value);
      ReplaceKeepsOnePerDay(db.journals, i, UpdateJournalPhase(db, userId, date, phase, now).response.value);
  }

  /** The journal just created is the one a read for today returns. */
  lemma CreateThenGet(db: Db, userId: Id, content: string, today: Day, now: Timestamp)
    requires OneJournalPerDay(db.journals)
    ensures var c := CreateJournal(db, userId, content, today, now);
      c.response.Ok? ==> GetJournalByDate(c.db, userId, today) == Ok(c.response.value)
  {
    var c := CreateJournal(db, userId, content, today, now);
    if c.response.Ok? {
      var p := (j: Journal) => j.userId == userId && j.journalDate == today;
      assert forall k :: 0 <= k < |db.journals| ==> c.db.journals[k] == db.journals[k];
      assert p(c.db.journals[|db.journals|]);
      assert FindJournal(c.db.journals, userId, today) == Some(|db.journals|);
    }
  }

  /** After an update, a read for the same date returns the new content. */
  lemma UpdateThenGet(db: Db, userId: Id, date: Day, content: string, outline: Option<string>, now: Timestamp)
    ensures var u := UpdateJournal(db, userId, date, content, outline, now);
      u.response.Ok? ==> GetJournalByDate(u.db, userId, date) == Ok(u.response.value)
                         && u.response.value.content == content
  {
    var u := UpdateJournal(db, userId, date, content, outline, now);
    if u.response.Ok? {
      var i := FindJournal(db.journals, userId, date).value;
      var p := (j: Journal) => j.userId == userId && j.journalDate == date;
      assert forall k :: 0 <= k < |db.journals| ==> p(u.db.journals[k]) == p(db.journals[k]);
      assert FindJournal(u.db.journals, userId, date) == Some(i);
    }
  }

  /** With one journal per date, the list is strictly newest first. */
  lemma AllJournalsStrictlyNewestFirst(db: Db, userId: Id)
    requires OneJournalPerDay(db.journals)
    ensures var r := GetAllJournals(db, userId);
      forall i, k :: 0 <= i < k < |r| ==> r[i].journalDate > r[k].journalDate
  {
    var r := GetAllJournals(db, userId);
    var mine := Filter(db.journals, (j: Journal) => j.userId == userId);
    FilterOneJournalPerDay(db.journals, (j: Journal) => j.userId == userId);
    forall i, k | 0 <= i < k < |r| ensures r[i].journalDate > r[k].journalDate {
      assert r[i] in r && r[k] in r;
      StrictAt(mine, r, i, k);
    }
  }

  /** In a date-ordered permutation of one user's journals, a later position
      holds a strictly older date. */
  lemma StrictAt(mine: seq<Journal>, r: seq<Journal>, i: nat, k: nat)
    requires OneJournalPerDay(mine) && multiset(r) == multiset(mine)
    requires i < k < |r| && r[i].userId == r[k].userId && r[i].journalDate >= r[k].journalDate
    ensures r[i].journalDate > r[k].journalDate
  {
    MultisetDistinctAt(mine, r, i, k);
  }

  lemma {:induction false} FilterOneJournalPerDay(js: seq<Journal>, p: Journal -> bool)
    requires OneJournalPerDay(js)
    ensures OneJournalPerDay(Filter(js, p))
  {
    if |js| > 0 {
      FilterOneJournalPerDay(js[1..], p);
      var tail := Filter(js[1..], p);
      forall k | 0 <= k < |tail|
        ensures (js[0].userId, js[0].journalDate) != (tail[k].userId, tail[k].journalDate)
      {
        assert tail[k] in js[1..];
      }
    }
  }

  /** Two positions of a permutation of a sequence with distinct (user, date)
      keys hold journals with distinct keys. */
  lemma MultisetDistinctAt(xs: seq<Journal>, r: seq<Journal>, i: nat, k: nat)
    requires OneJournalPerDay(xs) && multiset(r) == multiset(xs)
    requires i < k < |r|
    ensures (r[i].userId, r[i].journalDate) != (r[k].userId, r[k].journalDate)
  {
    if (r[i].userId, r[i].journalDate) == (r[k].userId, r[k].journalDate) {
      assert r[i] in multiset(xs) && r[k] in multiset(xs);
      var a :| 0 <= a < |xs| && xs[a] == r[i];
      var b :| 0 <= b < |xs| && xs[b] == r[k];
      assert a == b;
      assert r[i] == r[k];
      // The same journal twice in r means it occurs twice in xs.
      var m := multiset(r)[r[i]];
      assert m >= 2 by {
        assert r == r[..k] + [r[k]] + r[k + 1..];
        assert r[i] in r[..k];
      }
      OccursOnce(xs, a);
    }
  }

  /** With distinct keys, each journal of the sequence occurs in it once. */
  lemma {:induction false} OccursOnce(xs: seq<Journal>, a: nat)
    requires OneJournalPerDay(xs) && a < |xs|
    ensures multiset(xs)[xs[a]] == 1
  {
    if a == 0 {
      assert xs == [xs[0]] + xs[1..];
      assert xs[0] !in xs[1..];
    } else {
      assert xs == [xs[0]] + xs[1..];
      assert xs[1..][a - 1] == xs[a];
      OccursOnce(xs[1..], a - 1);
    }
  }
}

=== FILE: json_values.dfy ===
/** Parsed JSON values as the Python code sees them after `json.loads`, and
    Python truthiness over them (`if parsed_data:`, `x or {}`). */
module JsonValues {
  import opened Wrappers

  /** A JSON value. Objects are maps: the model does not track key order.
      Numbers are integers: no code in the model inspects a fractional number. */
  datatype Json =
    | JNull
    | JBool(b: bool)
    | JNum(n: int)
    | JStr(s: string)
    | JArr(items: seq<Json>)
    | JObj(fields: map<string, Json>)

  /** Python truthiness of the decoded value: `None`, `False`, `0`, `""`,
      `[]` and `{}` are falsy. */
  predicate Truthy(j: Json) {
    match j
    case JNull => false
    case JBool(b) => b
    case JNum(n) => n != 0
    case JStr(s) => |s| > 0
    case JArr(items) => |items| > 0
    case JObj(fields) => |fields| > 0
  }

  /** Truthiness of a value that may be Python's `None`. */
  predicate TruthyOpt(o: Option<Json>) {
    o.Some? && Truthy(o.value)
  }

  /** `x or {}`: the value itself when truthy, else an empty object. */
  function OrEmptyObject(o: Option<Json>): (r: Json)
    ensures TruthyOpt(o) ==> r == o.value
    ensures !TruthyOpt(o) ==> r == JObj(map[])
  {
    if TruthyOpt(o) then o.value else JObj(map[])
  }

  /** The one-key object `{"status": s}`. */
  function StatusObject(s: string): Json {
    JObj(map["status" := JStr(s)])
  }
}

=== FILE: models.dfy ===
/** The persisted entities of backend/app/models.py, the whole database as
    one immutable record of tables, the constraints the schema declares, the
    application invariants the routers maintain, and the cascading deletes. */
module Models {
  import opened Wrappers
  import opened JsonValues
  import opened Seqs

  type Id = nat
  /** A wall-clock instant, in seconds. */
  type Timestamp = int
  /** A calendar date, as a day number. */
  type Day = int

  const SecondsPerDay: int := 86400

  /** The date of an instant (`CAST(ts AS DATE)`, in UTC). */
  function DayOf(t: Timestamp): Day {
    t / SecondsPerDay
  }

  /** The first instant of a date, which is what a date compares as against a timestamp. */
  function MidnightOf(d: Day): Timestamp {
    d * SecondsPerDay
  }

  /** A timestamp is on or after midnight of `d` exactly when its date is on or after `d`. */
  lemma MidnightComparison(t: Timestamp, d: Day)
    ensures t >= MidnightOf(d) <==> DayOf(t) >= d
  {
  }

  /** The writing phase of a journal. */
  datatype Phase = Scaffolding | Writing | Evaluation | Completed

  /** Phase of a new journal. models.py declares no phase column and the
      create handler sets none, so the first phase is assumed. */
  const InitialPhase: Phase := Scaffolding

  datatype User = User(
    id: Id,
    username: string,
    email: string,
    hashedPassword: string,
    realname: Option<string>,
    studentId: Option<string>,
    group: Option<string>,
    isAdmin: bool,
    createdAt: Timestamp)

  /** A journal: at most one per user and date (an application invariant). */
  datatype Journal = Journal(
    id: Id,
    userId: Id,
    journalDate: Day,
    title: Option<string>,
    content: string,
    outlineContent: string,
    writingPhase: Phase,
    createdAt: Timestamp,
    updatedAt: Timestamp)

  datatype Sender = UserSender | AiSender

  /** `sender.name` as the context agent prints it. */
  function SenderName(s: Sender): string {
    match s
    case UserSender => "user"
    case AiSender => "ai"
  }

  datatype ChatMessage = ChatMessage(id: Id, journalId: Id, sender: Sender, messageText: string)

  datatype LearningTopic = LearningTopic(id: Id, topicName: string, description: Option<string>)

  datatype UserError = UserError(
    id: Id,
    userId: Id,
    topicId: Id,
    incorrectPhrase: string,
    repetitionCount: nat,
    status: string,
    firstOccurredAt: Timestamp,
    lastOccurredAt: Timestamp)

  datatype LearningPoint = LearningPoint(id: Id, topicId: Id, explanationText: string, suggestionText: string)

  datatype LearningHistory = LearningHistory(id: Id, errorId: Id, learningPointId: Id, timestamp: Timestamp)

  /** The per-user profile written by the context agent. */
  datatype ContextProfile = ContextProfile(userId: Id, profileData: map<string, Json>, lastUpdated: Timestamp)

  datatype NotificationType = Announcement | Survey

  datatype Notification = Notification(
    id: Id,
    title: string,
    content: string,
    notificationType: NotificationType,
    isPublished: bool,
    createdAt: Timestamp)

  datatype SurveyQuestion = SurveyQuestion(id: Id, notificationId: Id, questionText: string, questionType: string)

  datatype SurveyOption = SurveyOption(id: Id, questionId: Id, optionText: string)

  datatype NotificationStatus = NotificationStatus(userId: Id, notificationId: Id, isSeen: bool, isCompleted: bool)

  datatype SurveyResponse = SurveyResponse(
    id: Id,
    userId: Id,
    questionId: Id,
    textResponse: Option<string>,
    selectedOptionId: Option<Id>)

  /** A background task handed to the task runner after the response is sent. */
  datatype Job = ContextJob(journalId: Id, userId: Id)

  /** The database: every table in insertion order, the scheduled background
      tasks, and the next unused primary key. */
  datatype Db = Db(
    users: seq<User>,
    journals: seq<Journal>,
    messages: seq<ChatMessage>,
    topics: seq<LearningTopic>,
    errors: seq<UserError>,
    points: seq<LearningPoint>,
    history: seq<LearningHistory>,
    profiles: seq<ContextProfile>,
    notifications: seq<Notification>,
    questions: seq<SurveyQuestion>,
    options: seq<SurveyOption>,
    statuses: seq<NotificationStatus>,
    responses: seq<SurveyResponse>,
    jobs: seq<Job>,
    nextId: Id)

  /** What a request handler leaves behind: the committed database and the
      response (a value, or the HTTP error it raised). */
  datatype Step<T> = Step(db: Db, response: Result<T, HttpError>)

  // ----- Defaults of newly inserted rows -----

  /** A new error row: `repetition_count` defaults to 1 and `status` to 'active';
      both timestamps default to the insertion time. */
  function NewUserError(id: Id, userId: Id, topicId: Id, phrase: string, now: Timestamp): (e: UserError)
    ensures e.repetitionCount == 1 && e.status == "active"
    ensures e.firstOccurredAt == now && e.lastOccurredAt == now
  {
    UserError(id, userId, topicId, phrase, 1, "active", now, now)
  }

  // ----- Lookups (`.filter(...).first()`) -----

  /** Position of the caller's journal for a date. */
  function FindJournal(journals: seq<Journal>, userId: Id, date: Day): Option<nat> {
    FindFirst(journals, (j: Journal) => j.userId == userId && j.journalDate == date)
  }

  function FindUserByName(users: seq<User>, username: string): Option<nat> {
    FindFirst(users, (u: User) => u.username == username)
  }

  function FindTopicByName(topics: seq<LearningTopic>, name: string): Option<nat> {
    FindFirst(topics, (t: LearningTopic) => t.topicName == name)
  }

  function FindError(errors: seq<UserError>, userId: Id, topicId: Id, phrase: string): Option<nat> {
    FindFirst(errors, (e: UserError) => e.userId == userId && e.topicId == topicId && e.incorrectPhrase == phrase)
  }

  function FindPoint(points: seq<LearningPoint>, topicId: Id, explanation: string): Option<nat> {
    FindFirst(points, (p: LearningPoint) => p.topicId == topicId && p.explanationText == explanation)
  }

  // ----- Constraints declared by the schema -----

  predicate UniqueUsernames(users: seq<User>) {
    forall i, j :: 0 <= i < j < |users| ==> users[i].username != users[j].username
  }

  predicate UniqueEmails(users: seq<User>) {
    forall i, j :: 0 <= i < j < |users| ==> users[i].email != users[j].email
  }

  predicate UniqueTopicNames(topics: seq<LearningTopic>) {
    forall i, j :: 0 <= i < j < |topics| ==> topics[i].topicName != topics[j].topicName
  }

  function UserIds(db: Db): set<Id> { set u | u in db.users :: u.id }
  function JournalIds(db: Db): set<Id> { set j | j in db.journals :: j.id }
  function TopicIds(db: Db): set<Id> { set t | t in db.topics :: t.id }
  function ErrorIds(db: Db): set<Id> { set e | e in db.errors :: e.id }
  function PointIds(db: Db): set<Id> { set p | p in db.points :: p.id }

  /** The foreign keys of the error ledger and of journals. */
  predicate ForeignKeys(db: Db) {
    && (forall j :: j in db.journals ==> j.userId in UserIds(db))
    && (forall e :: e in db.errors ==> e.userId in UserIds(db) && e.topicId in TopicIds(db))
    && (forall p :: p in db.points ==> p.topicId in TopicIds(db))
    && (forall h :: h in db.history ==> h.errorId in ErrorIds(db) && h.learningPointId in PointIds(db))
  }

  /** Everything the database itself enforces: unique username, email and
      topic name, and the foreign keys. */
  predicate DbConstraints(db: Db) {
    UniqueUsernames(db.users) && UniqueEmails(db.users) && UniqueTopicNames(db.topics) && ForeignKeys(db)
  }

  // ----- Invariants kept only by the application code -----

  /** At most one error row per (user, topic, incorrect phrase). */
  predicate UniqueErrorKeys(errors: seq<UserError>) {
    forall i, j :: 0 <= i < j < |errors| ==>
      (errors[i].userId, errors[i].topicId, errors[i].incorrectPhrase) !=
      (errors[j].userId, errors[j].topicId, errors[j].incorrectPhrase)
  }

  /** At most one learning point per (topic, explanation). */
  predicate UniquePointKeys(points: seq<LearningPoint>) {
    forall i, j :: 0 <= i < j < |points| ==>
      (points[i].topicId, points[i].explanationText) != (points[j].topicId, points[j].explanationText)
  }

  /** At most one journal per (user, date). */
  predicate OneJournalPerDay(journals: seq<Journal>) {
    forall i, j :: 0 <= i < j < |journals| ==>
      (journals[i].userId, journals[i].journalDate) != (journals[j].userId, journals[j].journalDate)
  }

  /** At most one context profile per user. */
  predicate OneProfilePerUser(profiles: seq<ContextProfile>) {
    forall i, j :: 0 <= i < j < |profiles| ==> profiles[i].userId != profiles[j].userId
  }

  /** At most one status row per (user, notification). */
  predicate OneStatusPerUser(statuses: seq<NotificationStatus>) {
    forall i, j :: 0 <= i < j < |statuses| ==>
      (statuses[i].userId, statuses[i].notificationId) != (statuses[j].userId, statuses[j].notificationId)
  }

  /** Keys are distinct and below the next unused key. */
  predicate FreshKeys<T>(rows: seq<T>, key: T -> Id, next: Id) {
    && (forall i :: 0 <= i < |rows| ==> key(rows[i]) < next)
    && (forall i, j :: 0 <= i < j < |rows| ==> key(rows[i]) != key(rows[j]))
  }

  /** The error ledger is well formed: the application uniqueness rules hold,
      primary keys are fresh, and every reference resolves. */
  predicate LedgerWf(db: Db) {
    && UniqueTopicNames(db.topics)
    && UniqueErrorKeys(db.errors)
    && UniquePointKeys(db.points)
    && FreshKeys(db.topics, (t: LearningTopic) => t.id, db.nextId)
    && FreshKeys(db.errors, (e: UserError) => e.id, db.nextId)
    && FreshKeys(db.points, (p: LearningPoint) => p.id, db.nextId)
    && FreshKeys(db.history, (h: LearningHistory) => h.id, db.nextId)
    && (forall e :: e in db.errors ==> e.topicId in TopicIds(db))
    && (forall p :: p in db.points ==> p.topicId in TopicIds(db))
    && (forall h :: h in db.history ==> h.errorId in ErrorIds(db) && h.learningPointId in PointIds(db))
  }

  /** The database does not itself enforce one error per (user, topic, phrase):
      a state with two such rows meets every declared constraint. */
  lemma ErrorUniquenessIsApplicationLevel()
    ensures exists db :: DbConstraints(db) && !UniqueErrorKeys(db.errors)
  {
    var u := User(1, "u", "u@x", "h", None, None, None, false, 0);
    var t := LearningTopic(2, "Grammar", None);
    var e1 := NewUserError(3, 1, 2, "I goed", 0);
    var e2 := NewUserError(4, 1, 2, "I goed", 0);
    var db := Db([u], [], [], [t], [e1, e2], [], [], [], [], [], [], [], [], [], 5);
    assert 1 in UserIds(db) && 2 in TopicIds(db);
    assert DbConstraints(db);
    assert db.errors[0].incorrectPhrase == db.errors[1].incorrectPhrase;
  }

  /** Nor does it enforce one journal per (user, date). */
  lemma JournalUniquenessIsApplicationLevel()
    ensures exists db :: DbConstraints(db) && !OneJournalPerDay(db.journals)
  {
    var u := User(1, "u", "u@x", "h", None, None, None, false, 0);
    var j1 := Journal(2, 1, 100, None, "", "", InitialPhase, 0, 0);
    var j2 := Journal(3, 1, 100, None, "", "", InitialPhase, 0, 0);
    var db := Db([u], [j1, j2], [], [], [], [], [], [], [], [], [], [], [], [], 4);
    assert 1 in UserIds(db);
    assert DbConstraints(db);
    assert db.journals[0].journalDate == db.journals[1].journalDate;
  }

  // ----- Cascading deletes -----

  /** Row filters used by the cascades. */
  function ErrorNotWithId(errorId: Id): UserError -> bool { (e: UserError) => e.id != errorId }
  function HistoryNotOfError(errorId: Id): LearningHistory -> bool { (h: LearningHistory) => h.errorId != errorId }
  function ErrorNotOwnedBy(userId: Id): UserError -> bool { (e: UserError) => e.userId != userId }
  function HistoryOfErrors(kept: set<Id>): LearningHistory -> bool { (h: LearningHistory) => h.errorId in kept }

  /** Deleting an error also deletes its history rows (`ondelete="CASCADE"`). */
  function DeleteError(db: Db, errorId: Id): (r: Db)
    ensures r == db.(errors := r.errors, history := r.history)
    ensures forall e :: e in r.errors <==> e in db.errors && e.id != errorId
    ensures forall h :: h in r.history <==> h in db.history && h.errorId != errorId
  {
    db.(errors := Filter(db.errors, ErrorNotWithId(errorId)),
        history := Filter(db.history, HistoryNotOfError(errorId)))
  }

  /** Deleting a user deletes their journals and errors, and through the
      errors, the history rows that point at them. */
  function DeleteUser(db: Db, userId: Id): (r: Db)
    ensures r == db.(users := r.users, journals := r.journals, errors := r.errors, history := r.history)
    ensures forall u :: u in r.users <==> u in db.users && u.id != userId
    ensures forall j :: j in r.journals <==> j in db.journals && j.userId != userId
    ensures forall e :: e in r.errors <==> e in db.errors && e.userId != userId
    ensures forall h :: h in r.history <==> h in db.history && h.errorId in ErrorIds(r)
  {
    var errors := Filter(db.errors, ErrorNotOwnedBy(userId));
    db.(users := Filter(db.users, (u: User) => u.id != userId),
        journals := Filter(db.journals, (j: Journal) => j.userId != userId),
        errors := errors,
        history := Filter(db.history, HistoryOfErrors(set e | e in errors :: e.id)))
  }

  /** Deleting a user keeps the ledger well formed. */
  lemma DeleteUserKeepsLedger(db: Db, userId: Id)
    requires LedgerWf(db)
    ensures LedgerWf(DeleteUser(db, userId))
  {
    var r := DeleteUser(db, userId);
    var errors := Filter(db.errors, ErrorNotOwnedBy(userId));
    FilterKeepsUniqueErrors(db.errors, ErrorNotOwnedBy(userId));
    FilterKeepsFreshKeys(db.errors, ErrorNotOwnedBy(userId), (e: UserError) => e.id, db.nextId);
    FilterKeepsFreshKeys(db.history, HistoryOfErrors(set e | e in errors :: e.id), (h: LearningHistory) => h.id, db.nextId);
    assert r.errors == errors;
    DeleteUserRefs(db, userId);
  }

  /** After the user cascade every kept row still points at kept rows. */
  lemma DeleteUserRefs(db: Db, userId: Id)
    requires forall e :: e in db.errors ==> e.topicId in TopicIds(db)
    requires forall h :: h in db.history ==> h.learningPointId in PointIds(db)
    ensures var r := DeleteUser(db, userId);
      && (forall e :: e in r.errors ==> e.topicId in TopicIds(r))
      && (forall h :: h in r.history ==> h.errorId in ErrorIds(r) && h.learningPointId in PointIds(r))
  {
    var r := DeleteUser(db, userId);
    assert r.topics == db.topics && r.points == db.points;
  }

  /** Deleting an error keeps the ledger well formed. */
  lemma DeleteErrorKeepsLedger(db: Db, errorId: Id)
    requires LedgerWf(db)
    ensures LedgerWf(DeleteError(db, errorId))
  {
    var r := DeleteError(db, errorId);
    FilterKeepsUniqueErrors(db.errors, ErrorNotWithId(errorId));
    FilterKeepsFreshKeys(db.errors, ErrorNotWithId(errorId), (e: UserError) => e.id, db.nextId);
    FilterKeepsFreshKeys(db.history, HistoryNotOfError(errorId), (h: LearningHistory) => h.id, db.nextId);
    DeleteErrorRefs(db, errorId);
  }

  /** The history rows left by the error cascade point at errors left by it. */
  lemma DeleteErrorRefs(db: Db, errorId: Id)
    requires forall h :: h in db.history ==> h.errorId in ErrorIds(db)
    ensures forall h :: h in DeleteError(db, errorId).history ==> h.errorId in ErrorIds(DeleteError(db, errorId))
  {
    var r := DeleteError(db, errorId);
    forall h | h in r.history ensures h.errorId in ErrorIds(r) {
      var e :| e in db.errors && e.id == h.errorId;
      assert e in r.errors;
    }
  }

  lemma {:induction false} FilterKeepsUniqueErrors(xs: seq<UserError>, p: UserError -> bool)
    requires UniqueErrorKeys(xs)
    ensures UniqueErrorKeys(Filter(xs, p))
  {
    if |xs| > 0 {
      FilterKeepsUniqueErrors(xs[1..], p);
      var tail := Filter(xs[1..], p);
      forall k | 0 <= k < |tail|
        ensures (xs[0].userId, xs[0].topicId, xs[0].incorrectPhrase) !=
                (tail[k].userId, tail[k].topicId, tail[k].incorrectPhrase)
      {
        assert tail[k] in xs[1..];
      }
    }
  }

  lemma {:induction false} FilterKeepsFreshKeys<T(!new)>(xs: seq<T>, p: T -> bool, key: T -> Id, next: Id)
    requires FreshKeys(xs, key, next)
    ensures FreshKeys(Filter(xs, p), key, next)
  {
    if |xs| > 0 {
      FreshKeysTail(xs, key, next);
      FilterKeepsFreshKeys(xs[1..], p, key, next);
      var tail := Filter(xs[1..], p);
      if p(xs[0]) {
        forall y | y in tail ensures key(xs[0]) != key(y) {
          var m :| 0 <= m < |xs[1..]| && xs[1..][m] == y;
          assert xs[m + 1] == y;
        }
        ConsKeepsFresh(xs[0], tail, key, next);
      }
    }
  }

  lemma FreshKeysTail<T>(xs: seq<T>, key: T -> Id, next: Id)
    requires |xs| > 0 && FreshKeys(xs, key, next)
    ensures FreshKeys(xs[1..], key, next) && key(xs[0]) < next
  {
    forall i, j | 0 <= i < j < |xs| - 1 ensures key(xs[1..][i]) != key(xs[1..][j]) {
      assert xs[1..][i] == xs[i + 1] && xs[1..][j] == xs[j + 1];
    }
  }

  /** A row with a fresh key not among the others' keys can go in front. */
  lemma ConsKeepsFresh<T>(x: T, tail: seq<T>, key: T -> Id, next: Id)
    requires FreshKeys(tail, key, next) && key(x) < next
    requires forall y :: y in tail ==> key(x) != key(y)
    ensures FreshKeys([x] + tail, key, next)
  {
    var r := [x] + tail;
    forall i, j | 0 <= i < j < |r| ensures key(r[i]) != key(r[j]) {
      assert r[j] == tail[j - 1];
      if i > 0 { assert r[i] == tail[i - 1]; } else { assert tail[j - 1] in tail; }
    }
    forall i | 0 <= i < |r| ensures key(r[i]) < next {
      if i > 0 { assert r[i] == tail[i - 1]; }
    }
  }

  /** A row carrying the next key can be appended, and the counter then moves on. */
  lemma AppendFresh<T>(rows: seq<T>, x: T, key: T -> Id, next: Id)
    requires FreshKeys(rows, key, next) && key(x) == next
    ensures FreshKeys(rows + [x], key, next + 1)
  {
    var r := rows + [x];
    forall i, j | 0 <= i < j < |r| ensures key(r[i]) != key(r[j]) {
      assert r[i] == rows[i];
      if j < |rows| { assert r[j] == rows[j]; }
    }
    forall i | 0 <= i < |r| ensures key(r[i]) < next + 1 {
      if i < |rows| { assert r[i] == rows[i]; }
    }
  }

  /** Moving the counter on keeps keys fresh. */
  lemma BumpFresh<T>(rows: seq<T>, key: T -> Id, next: Id)
    requires FreshKeys(rows, key, next)
    ensures FreshKeys(rows, key, next + 1)
  {
  }

}

=== FILE: notification_store.dfy ===
/** The client-side notification state of
    frontend/src/stores/notificationStore.js: the active notifications, the
    history list, and the flags that decide whether the notification modal
    opens by itself. Asynchronous actions are modelled by the state they
    leave once their request has settled. */
module NotificationStore {
  import opened Wrappers
  import opened Seqs

  datatype ActiveNotification = ActiveNotification(id: nat, title: string, content: string, notificationType: string)

  /** One history row as the server sends it; the store never looks inside. */
  datatype HistoryItem = HistoryItem(notificationId: nat, isSeen: bool, isCompleted: bool)

  datatype NotificationState = NotificationState(
    activeNotifications: seq<ActiveNotification>,
    notificationHistory: seq<HistoryItem>,
    isLoading: bool,
    isLoadingHistory: bool,
    error: Option<string>,
    hasManuallyOpened: bool,
    showHistoryModal: bool)

  const LoadActiveFailed: string := "Failed to load notifications."
  const LoadHistoryFailed: string := "Failed to load notification history."
  const SubmitFailed: string := "Failed to submit survey."

  // ----- Getters -----

  function NotificationCount(s: NotificationState): (n: nat)
    ensures n == |s.activeNotifications|
  {
    |s.activeNotifications|
  }

  predicate HasNotifications(s: NotificationState) { NotificationCount(s) > 0 }

  /** The modal opens by itself while something is pending and the user has
      not opened it by hand. */
  predicate ShouldShowModal(s: NotificationState) { HasNotifications(s) && !s.hasManuallyOpened }

  // ----- Removing an answered notification -----

  function WithId(id: nat): ActiveNotification -> bool { (n: ActiveNotification) => n.id == id }

  /** `removeNotificationById`: the first notification with that id leaves
      the list; the others keep their order. An unknown id changes nothing. */
  function RemoveNotificationById(active: seq<ActiveNotification>, id: nat): (r: seq<ActiveNotification>)
    ensures match FindFirst(active, WithId(id))
            case None => r == active
            case Some(i) => r == active[..i] + active[i + 1..]
    ensures FindFirst(active, WithId(id)).Some? ==>
              |r| == |active| - 1 && multiset(r) + multiset{active[FindFirst(active, WithId(id)).value]} == multiset(active)
  {
    match FindFirst(active, WithId(id))
    case None => active
    case Some(i) =>
      assert active == active[..i] + [active[i]] + active[i + 1..];
      active[..i] + active[i + 1..]
  }

  predicate UniqueIds(active: seq<ActiveNotification>) {
    forall i, j :: 0 <= i < j < |active| ==> active[i].id != active[j].id
  }

  /** With distinct ids, removal takes out exactly the notifications with
      that id: afterwards none is left, every other one is still there, and
      a second removal changes nothing. */
  lemma RemoveTakesOutExactlyThatId(active: seq<ActiveNotification>, id: nat)
    requires UniqueIds(active)
    ensures var r := RemoveNotificationById(active, id);
      && (forall n :: n in r <==> n in active && n.id != id)
      && UniqueIds(r)
      && RemoveNotificationById(r, id) == r
  {
    var r := RemoveNotificationById(active, id);
    match FindFirst(active, WithId(id))
    case None =>
      assert forall n :: n in active ==> n.id != id by {
        forall n | n in active ensures n.id != id {
          var k :| 0 <= k < |active| && active[k] == n;
          assert !WithId(id)(active[k]);
        }
      }
    case Some(i) =>
      DropAtKeepsUnique(active, i);
      DropAtMembers(active, i);
    NoneLeftAfterRemoval(r, id);
  }

  /** Dropping one position keeps distinct ids distinct. */
  lemma DropAtKeepsUnique(active: seq<ActiveNotification>, i: nat)
    requires UniqueIds(active) && i < |active|
    ensures UniqueIds(active[..i] + active[i + 1..])
  {
    var r := active[..i] + active[i + 1..];
    forall a, b | 0 <= a < b < |r| ensures r[a].id != r[b].id {
      var a' := if a < i then a else a + 1;
      var b' := if b < i then b else b + 1;
      assert r[a] == active[a'] && r[b] == active[b'];
    }
  }

  /** With distinct ids, dropping the position of an id leaves exactly the
      elements with other ids. */
  lemma DropAtMembers(active: seq<ActiveNotification>, i: nat)
    requires UniqueIds(active) && i < |active|
    ensures forall n :: n in active[..i] + active[i + 1..] <==> n in active && n.id != active[i].id
  {
    var r := active[..i] + active[i + 1..];
    forall n ensures n in r <==> n in active && n.id != active[i].id {
      if n in r {
        var k :| 0 <= k < |r| && r[k] == n;
        if k < i { assert r[k] == active[k]; } else { assert r[k] == active[k + 1]; }
      }
      if n in active && n.id != active[i].id {
        var k :| 0 <= k < |active| && active[k] == n;
        if k < i { assert r[k] == n; } else { assert r[k - 1] == n; }
      }
    }
  }

  lemma NoneLeftAfterRemoval(r: seq<ActiveNotification>, id: nat)
    requires forall n :: n in r ==> n.id != id
    ensures RemoveNotificationById(r, id) == r
  {
    if FindFirst(r, WithId(id)).Some? {
      assert r[FindFirst(r, WithId(id)).value] in r;
    }
  }

  // ----- Requests -----

  /** `fetchActiveNotifications`: the reply replaces the list; a failure keeps it. */
  function FetchActiveNotifications(s: NotificationState, reply: Outcome<seq<ActiveNotification>>): (r: NotificationState)
    ensures !r.isLoading && r.notificationHistory == s.notificationHistory
    ensures r.hasManuallyOpened == s.hasManuallyOpened && r.showHistoryModal == s.showHistoryModal
    ensures reply.Returned? ==> r.activeNotifications == reply.value && r.error.None?
    ensures reply.Raised? ==> r.activeNotifications == s.activeNotifications && r.error == Some(LoadActiveFailed)
  {
    match reply
    case Returned(list) => s.(activeNotifications := list, isLoading := false, error := None)
    case Raised => s.(isLoading := false, error := Some(LoadActiveFailed))
  }

  /** `fetchNotificationHistory`: the same for the history list. */
  function FetchNotificationHistory(s: NotificationState, reply: Outcome<seq<HistoryItem>>): (r: NotificationState)
    ensures !r.isLoadingHistory && r.activeNotifications == s.activeNotifications && r.isLoading == s.isLoading
    ensures r.hasManuallyOpened == s.hasManuallyOpened && r.showHistoryModal == s.showHistoryModal
    ensures reply.Returned? ==> r.notificationHistory == reply.value && r.error.None?
    ensures reply.Raised? ==> r.notificationHistory == s.notificationHistory && r.error == Some(LoadHistoryFailed)
  {
    match reply
    case Returned(list) => s.(notificationHistory := list, isLoadingHistory := false, error := None)
    case Raised => s.(isLoadingHistory := false, error := Some(LoadHistoryFailed))
  }

  /** `markAsSeen`: the notification leaves the list only once the server
      accepted; a failure is swallowed and changes nothing. */
  function MarkAsSeen(s: NotificationState, id: nat, reply: Outcome<()>): (r: NotificationState)
    ensures reply.Raised? ==> r == s
    ensures reply.Returned? ==> r == s.(activeNotifications := RemoveNotificationById(s.activeNotifications, id))
  {
    match reply
    case Returned(_) => s.(activeNotifications := RemoveNotificationById(s.activeNotifications, id))
    case Raised => s
  }

  /** With distinct ids, a notification marked as seen is gone from the
      pending list and every other one stays; the modal then opens by itself
      only if another notification is pending. A failed request leaves the
      modal's decision as it was. */
  lemma MarkAsSeenRemoves(s: NotificationState, id: nat, reply: Outcome<()>)
    requires UniqueIds(s.activeNotifications)
    ensures var r := MarkAsSeen(s, id, reply);
      && (reply.Returned? ==>
            && (forall n :: n in r.activeNotifications <==> n in s.activeNotifications && n.id != id)
            && (HasNotifications(r) <==> exists n :: n in s.activeNotifications && n.id != id)
            && (ShouldShowModal(r) <==> !s.hasManuallyOpened && exists n :: n in s.activeNotifications && n.id != id))
      && (reply.Raised? ==> ShouldShowModal(r) == ShouldShowModal(s))
  {
    var r := MarkAsSeen(s, id, reply);
    if reply.Returned? {
      RemoveTakesOutExactlyThatId(s.activeNotifications, id);
      if |r.activeNotifications| > 0 {
        assert r.activeNotifications[0] in r.activeNotifications;
      }
    }
  }

  /** `submitSurvey`: the survey leaves the list only once the server
      accepted; a failure is recorded and rethrown to the caller. */
  function SubmitSurvey(s: NotificationState, notificationId: nat, reply: Outcome<()>): (r: (NotificationState, Outcome<()>))
    ensures !r.0.isLoading
    ensures r.1 == reply
    ensures reply.Raised? ==> r.0.activeNotifications == s.activeNotifications && r.0.error == Some(SubmitFailed)
    ensures reply.Returned? ==>
              r.0.activeNotifications == RemoveNotificationById(s.activeNotifications, notificationId) && r.0.error.None?
  {
    match reply
    case Returned(_) =>
      (s.(activeNotifications := RemoveNotificationById(s.activeNotifications, notificationId), isLoading := false, error := None), reply)
    case Raised => (s.(isLoading := false, error := Some(SubmitFailed)), Raised)
  }

  // ----- Modal flags -----

  /** `userOpenedNotifications`: both flags are set and the history is
      fetched; the history request is not awaited, so the flags are set
      whatever its outcome. */
  function UserOpenedNotifications(s: NotificationState, historyReply: Outcome<seq<HistoryItem>>): (r: NotificationState)
    ensures r.hasManuallyOpened && r.showHistoryModal
    ensures r.activeNotifications == s.activeNotifications
    ensures !ShouldShowModal(r)
  {
    FetchNotificationHistory(s.(hasManuallyOpened := true, showHistoryModal := true, isLoadingHistory := true), historyReply)
  }

  /** `closeHistoryModal`: only the modal flag is cleared. */
  function CloseHistoryModal(s: NotificationState): (r: NotificationState)
    ensures !r.showHistoryModal && r.hasManuallyOpened == s.hasManuallyOpened
    ensures r.(showHistoryModal := s.showHistoryModal) == s
  {
    s.(showHistoryModal := false)
  }

  /** `resetManualOpenState`: both flags are cleared. */
  function ResetManualOpenState(s: NotificationState): (r: NotificationState)
    ensures !r.showHistoryModal && !r.hasManuallyOpened
    ensures r.(showHistoryModal := s.showHistoryModal, hasManuallyOpened := s.hasManuallyOpened) == s
  {
    s.(hasManuallyOpened := false, showHistoryModal := false)
  }

  /** Closing the modal by hand keeps it from reopening by itself; only a
      reset lets pending notifications open it again. */
  lemma ModalStaysClosedUntilReset(s: NotificationState, historyReply: Outcome<seq<HistoryItem>>)
    ensures !ShouldShowModal(CloseHistoryModal(UserOpenedNotifications(s, historyReply)))
    ensures ShouldShowModal(ResetManualOpenState(CloseHistoryModal(UserOpenedNotifications(s, historyReply))))
            <==> |s.activeNotifications| > 0
  {
  }
}

=== FILE: notifications.dfy ===
/** The notification endpoints of backend/app/routers/notifications.py:
    administrators create and publish announcements and surveys; users see
    the published ones they have not dealt with, mark announcements as seen,
    submit survey answers, and list their history. */
module NotificationsRouter {
  import opened Wrappers
  import opened Seqs
  import opened Sorting
  import opened Models

  // ----- Request bodies -----

  datatype QuestionIn = QuestionIn(questionText: string, questionType: string, options: Option<seq<string>>)

  datatype NotificationIn = NotificationIn(
    title: string,
    content: string,
    notificationType: NotificationType,
    questions: seq<QuestionIn>)

  datatype ResponseIn = ResponseIn(questionId: Id, textResponse: Option<string>, selectedOptionIds: Option<seq<Id>>)

  const AlreadyPublished := "Notification is already published"
  const AnnouncementsOnly := "This endpoint is only for announcements."
  const NotASurvey := "This notification is not a survey."
  const AlreadySubmitted := "Survey has already been submitted."

  /** The first notification with the id, if any. */
  function NotificationById(db: Db, id: Id): (r: Option<Notification>)
    ensures r.Some? <==> exists k :: 0 <= k < |db.notifications| && db.notifications[k].id == id
    ensures r.Some? ==> r.value.id == id && r.value in db.notifications
  {
    match FindNotification(db.notifications, id)
    case None => None
    case Some(i) => Some(db.notifications[i])
  }

  // ----- Create -----

  /** The option texts of a question; a missing list brings none. */
  function OptionsOf(q: QuestionIn): seq<string> {
    q.options.GetOr([])
  }

  /** Add the options of one question, each under a fresh id. */
  function AddOptions(db: Db, questionId: Id, texts: seq<string>): (r: Db)
    ensures r == db.(options := r.options, nextId := r.nextId)
    ensures |r.options| == |db.options| + |texts| && r.options[..|db.options|] == db.options
    ensures forall k :: 0 <= k < |texts| ==>
              r.options[|db.options| + k] == SurveyOption(db.nextId + k, questionId, texts[k])
    ensures r.nextId == db.nextId + |texts|
    decreases |texts|
  {
    if |texts| == 0 then db
    else
      var db1 := db.(options := db.options + [SurveyOption(db.nextId, questionId, texts[0])], nextId := db.nextId + 1);
      var r := AddOptions(db1, questionId, texts[1..]);
      assert r.options[..|db.options|] == r.options[..|db1.options|][..|db.options|];
      assert r.options[|db.options|] == r.options[..|db1.options|][|db.options|];
      forall k | 1 <= k < |texts|
        ensures r.options[|db.options| + k] == r.options[|db1.options| + (k - 1)]
        ensures texts[k] == texts[1..][k - 1]
      {
      }
      r
  }

  /** The number of options a list of questions brings. */
  function OptionCount(qs: seq<QuestionIn>): nat {
    if |qs| == 0 then 0 else |OptionsOf(qs[0])| + OptionCount(qs[1..])
  }

  /** The id the `k`-th question receives when ids are handed out from
      `next`: each earlier question took one id and each of its options one more. */
  function QuestionKey(next: Id, qs: seq<QuestionIn>, k: nat): Id
    requires k <= |qs|
  {
    next + k + OptionCount(qs[..k])
  }

  lemma OptionCountFirst(qs: seq<QuestionIn>, k: nat)
    requires 1 <= k <= |qs|
    ensures OptionCount(qs[..k]) == |OptionsOf(qs[0])| + OptionCount(qs[1..][..k - 1])
  {
    assert qs[..k][1..] == qs[1..][..k - 1];
  }

  /** `options` holds the option rows of question `qid`, one per text and
      in order, from position `base` on, under ids following `qid`. */
  predicate OptionsStoredAt(options: seq<SurveyOption>, base: nat, qid: Id, texts: seq<string>) {
    && base + |texts| <= |options|
    && forall m :: 0 <= m < |texts| ==> options[base + m] == SurveyOption(qid + 1 + m, qid, texts[m])
  }

  /** `after` holds the question rows of `before` followed by the questions
      `qs` of notification `nid`, in order, under the ids `QuestionKey` hands out. */
  predicate QuestionsStored(before: Db, after: Db, nid: Id, next: Id, qs: seq<QuestionIn>) {
    && |after.questions| == |before.questions| + |qs| && after.questions[..|before.questions|] == before.questions
    && forall k :: 0 <= k < |qs| ==>
         after.questions[|before.questions| + k] ==
           SurveyQuestion(QuestionKey(next, qs, k), nid, qs[k].questionText, qs[k].questionType)
  }

  /** `after` holds the option rows of `before` followed by the options of
      the questions `qs`, question by question, each under its question's id. */
  predicate OptionsStored(before: Db, after: Db, next: Id, qs: seq<QuestionIn>) {
    OptionRowsStored(before.options, after.options, next, qs)
  }

  predicate OptionRowsStored(before: seq<SurveyOption>, after: seq<SurveyOption>, next: Id, qs: seq<QuestionIn>) {
    && |after| == |before| + OptionCount(qs) && after[..|before|] == before
    && forall k :: 0 <= k < |qs| ==>
         OptionsStoredAt(after, |before| + OptionCount(qs[..k]), QuestionKey(next, qs, k), OptionsOf(qs[k]))
  }

  /** `after` holds the survey `qs` of notification `nid` added to `before`,
      ids handed out from `next` in insertion order. */
  predicate SurveyStored(before: Db, after: Db, nid: Id, next: Id, qs: seq<QuestionIn>) {
    QuestionsStored(before, after, nid, next, qs) && OptionsStored(before, after, next, qs)
  }

  /** Add the questions of a survey and their options; what is stored is
      stated by `AddQuestionsStores`. */
  function AddQuestions(db: Db, notificationId: Id, qs: seq<QuestionIn>): (r: Db)
    ensures r == db.(questions := r.questions, options := r.options, nextId := r.nextId)
    ensures r.nextId == db.nextId + |qs| + OptionCount(qs)
    decreases |qs|
  {
    if |qs| == 0 then db
    else
      var q := qs[0];
      var db1 := db.(questions := db.questions + [SurveyQuestion(db.nextId, notificationId, q.questionText, q.questionType)],
                     nextId := db.nextId + 1);
      AddQuestions(AddOptions(db1, db.nextId, OptionsOf(q)), notificationId, qs[1..])
  }

  lemma {:induction false} AddQuestionsStoresQuestions(db: Db, notificationId: Id, qs: seq<QuestionIn>)
    ensures QuestionsStored(db, AddQuestions(db, notificationId, qs), notificationId, db.nextId, qs)
    decreases |qs|
  {
    var r := AddQuestions(db, notificationId, qs);
    if |qs| == 0 {
      assert db.questions[..|db.questions|] == db.questions;
    } else {
      var q := qs[0];
      var db1 := db.(questions := db.questions + [SurveyQuestion(db.nextId, notificationId, q.questionText, q.questionType)],
                     nextId := db.nextId + 1);
      var db2 := AddOptions(db1, db.nextId, OptionsOf(q));
      AddQuestionsStoresQuestions(db2, notificationId, qs[1..]);
      assert r.questions[..|db.questions|] == r.questions[..|db1.questions|][..|db.questions|];
      assert qs[..0] == [];
      assert r.questions[|db.questions|] == r.questions[..|db1.questions|][|db.questions|];
      forall k | 1 <= k < |qs|
        ensures r.questions[|db.questions| + k] ==
                  SurveyQuestion(QuestionKey(db.nextId, qs, k), notificationId, qs[k].questionText, qs[k].questionType)
      {
        OptionCountFirst(qs, k);
        assert qs[k] == qs[1..][k - 1];
        assert r.questions[|db.questions| + k] == r.questions[|db2.questions| + (k - 1)];
      }
    }
  }

  lemma {:induction false} AddQuestionsStoresOptions(db: Db, notificationId: Id, qs: seq<QuestionIn>)
    ensures OptionsStored(db, AddQuestions(db, notificationId, qs), db.nextId, qs)
    decreases |qs|
  {
    if |qs| == 0 {
      assert db.options[..|db.options|] == db.options;
    } else {
      var q := qs[0];
      var db1 := db.(questions := db.questions + [SurveyQuestion(db.nextId, notificationId, q.questionText, q.questionType)],
                     nextId := db.nextId + 1);
      var db2 := AddOptions(db1, db.nextId, OptionsOf(q));
      AddQuestionsStoresOptions(db2, notificationId, qs[1..]);
      OptionsStoredCons(db.options, db2.options, AddQuestions(db, notificationId, qs).options, db.nextId, qs);
    }
  }

  /** The options of the first question followed by those of the others. */
  lemma OptionsStoredCons(before: seq<SurveyOption>, mid: seq<SurveyOption>, after: seq<SurveyOption>,
                          next: Id, qs: seq<QuestionIn>)
    requires |qs| > 0
    requires |mid| == |before| + |OptionsOf(qs[0])| && mid[..|before|] == before
    requires OptionsStoredAt(mid, |before|, next, OptionsOf(qs[0]))
    requires OptionRowsStored(mid, after, next + 1 + |OptionsOf(qs[0])|, qs[1..])
    ensures OptionRowsStored(before, after, next, qs)
  {
    assert after[..|before|] == after[..|mid|][..|before|];
    forall k | 0 <= k < |qs|
      ensures OptionsStoredAt(after, |before| + OptionCount(qs[..k]), QuestionKey(next, qs, k), OptionsOf(qs[k]))
    {
      if k == 0 {
        assert qs[..k] == [];
        FirstOptionsKept(mid, after, |before|, next, OptionsOf(qs[0]));
      } else {
        OptionCountFirst(qs, k);
        assert qs[k] == qs[1..][k - 1];
        assert k - 1 < |qs[1..]|;
        assert OptionsStoredAt(after, |mid| + OptionCount(qs[1..][..k - 1]),
                               QuestionKey(next + 1 + |OptionsOf(qs[0])|, qs[1..], k - 1), OptionsOf(qs[1..][k - 1]));
      }
    }
  }

  /** Option rows stored at `base` survive appending further rows. */
  lemma FirstOptionsKept(mid: seq<SurveyOption>, after: seq<SurveyOption>, base: nat, qid: Id, texts: seq<string>)
    requires |mid| <= |after| && after[..|mid|] == mid
    requires OptionsStoredAt(mid, base, qid, texts)
    ensures OptionsStoredAt(after, base, qid, texts)
  {
    forall m | 0 <= m < |texts|
      ensures after[base + m] == SurveyOption(qid + 1 + m, qid, texts[m])
    {
      assert after[base + m] == after[..|mid|][base + m];
    }
  }

  /** Every question and option of the survey is stored, in order and
      under the ids handed out from `db.nextId`. */
  lemma AddQuestionsStores(db: Db, notificationId: Id, qs: seq<QuestionIn>)
    ensures SurveyStored(db, AddQuestions(db, notificationId, qs), notificationId, db.nextId, qs)
  {
    AddQuestionsStoresQuestions(db, notificationId, qs);
    AddQuestionsStoresOptions(db, notificationId, qs);
  }

  /** `POST /api/notifications/`: a new, unpublished notification; the
      questions and their options are stored only for a survey. */
  function CreateNotification(db: Db, body: NotificationIn, now: Timestamp): (r: Step<Notification>)
    ensures r.response.Ok?
    ensures var n := r.response.value;
      && n.title == body.title && n.content == body.content && n.notificationType == body.notificationType
      && !n.isPublished && n.createdAt == now && n.id == db.nextId
    ensures r.db.notifications == db.notifications + [r.response.value]
    ensures body.notificationType == Announcement ==>
              r.db.questions == db.questions && r.db.options == db.options && r.db.nextId == db.nextId + 1
    ensures body.notificationType == Survey ==>
              && SurveyStored(db, r.db, db.nextId, db.nextId + 1, body.questions)
              && r.db.nextId == db.nextId + 1 + |body.questions| + OptionCount(body.questions)
    ensures r.db == db.(notifications := r.db.notifications, questions := r.db.questions,
                        options := r.db.options, nextId := r.db.nextId)
  {
    var n := Notification(db.nextId, body.title, body.content, body.notificationType, false, now);
    var db1 := db.(notifications := db.notifications + [n], nextId := db.nextId + 1);
    if body.notificationType == Survey then
      AddQuestionsStores(db1, n.id, body.questions);
      Step(AddQuestions(db1, n.id, body.questions), Ok(n))
    else Step(db1, Ok(n))
  }

  /** A new survey reads back through its results endpoint: one result per
      question, in order, with the question's text and no responses yet;
      an announcement has no results. Ids below `db.nextId` are the only ones
      in use. */
  lemma CreateThenResults(db: Db, body: NotificationIn, now: Timestamp)
    requires forall k :: 0 <= k < |db.notifications| ==> db.notifications[k].id < db.nextId
    requires forall k :: 0 <= k < |db.questions| ==> db.questions[k].notificationId < db.nextId
    requires forall k :: 0 <= k < |db.responses| ==> db.responses[k].questionId < db.nextId
    ensures var c := CreateNotification(db, body, now);
      var res := SurveyResults(c.db, c.response.value.id);
      && (body.notificationType == Announcement ==> res == Err(NotFound))
      && (body.notificationType == Survey ==>
            && res.Ok? && |res.value| == |body.questions|
            && forall k :: 0 <= k < |body.questions| ==>
                 res.value[k].questionText == body.questions[k].questionText && res.value[k].responses == [])
  {
    var c := CreateNotification(db, body, now);
    assert c.response.value.id == db.nextId;
    if body.notificationType == Announcement {
      FilterNone(c.db.notifications, (n: Notification) => n.id == db.nextId && n.notificationType == Survey);
    } else {
      assert c.db.notifications[|db.notifications|] == c.response.value;
      assert c.db.responses == db.responses;
      SurveyResultsOfNew(db, c.db, db.nextId, body.questions);
    }
  }

  /** The results of a freshly stored survey: its questions, in order, none
      answered yet. */
  lemma SurveyResultsOfNew(before: Db, after: Db, nid: Id, qs: seq<QuestionIn>)
    requires QuestionsStored(before, after, nid, nid + 1, qs)
    requires exists k :: 0 <= k < |after.notifications| && after.notifications[k].id == nid
                         && after.notifications[k].notificationType == Survey
    requires forall k :: 0 <= k < |before.questions| ==> before.questions[k].notificationId < nid
    requires forall k :: 0 <= k < |after.responses| ==> after.responses[k].questionId <= nid
    ensures var res := SurveyResults(after, nid);
      && res.Ok? && |res.value| == |qs|
      && forall k :: 0 <= k < |qs| ==> res.value[k].questionText == qs[k].questionText && res.value[k].responses == []
  {
    var added := after.questions[|before.questions|..];
    assert after.questions == before.questions + added;
    NewSurveyQuestions(before, after, nid, qs);
    OnlyNewQuestions(before.questions, added, nid);
    var isSurvey := (n: Notification) => n.id == nid && n.notificationType == Survey;
    assert FindFirst(after.notifications, isSurvey).Some?;
    assert SurveyResults(after, nid) == Ok(ResultsFor(after, added));
    forall k | 0 <= k < |added|
      ensures ResponsesTo(after, added[k].id) == []
    {
      FilterNone(after.responses, (s: SurveyResponse) => s.questionId == added[k].id);
    }
  }

  /** The questions a survey adds are its own, with its texts, under ids above
      `nid`. */
  lemma NewSurveyQuestions(before: Db, after: Db, nid: Id, qs: seq<QuestionIn>)
    requires QuestionsStored(before, after, nid, nid + 1, qs)
    ensures var added := after.questions[|before.questions|..];
      && |added| == |qs|
      && forall k :: 0 <= k < |qs| ==>
           added[k].notificationId == nid && added[k].id > nid && added[k].questionText == qs[k].questionText
  {
    var added := after.questions[|before.questions|..];
    forall k | 0 <= k < |qs|
      ensures added[k].notificationId == nid && added[k].id > nid && added[k].questionText == qs[k].questionText
    {
      assert added[k] == after.questions[|before.questions| + k];
      assert after.questions[|before.questions| + k] ==
               SurveyQuestion(QuestionKey(nid + 1, qs, k), nid, qs[k].questionText, qs[k].questionType);
    }
  }

  /** The questions of notification `nid` are exactly the ones added for it
      when every older question belongs to an older notification. */
  lemma OnlyNewQuestions(older: seq<SurveyQuestion>, added: seq<SurveyQuestion>, nid: Id)
    requires forall k :: 0 <= k < |older| ==> older[k].notificationId < nid
    requires forall k :: 0 <= k < |added| ==> added[k].notificationId == nid
    ensures Filter(older + added, (q: SurveyQuestion) => q.notificationId == nid) == added
  {
    var ofNid := (q: SurveyQuestion) => q.notificationId == nid;
    FilterAppend(older, added, ofNid);
    FilterNone(older, ofNid);
    FilterAll(added, ofNid);
  }

  // ----- Listing -----

  function CreatedAt(n: Notification): int { n.createdAt }

  /** `GET /api/notifications/`: every notification, newest first. */
  function GetAllNotifications(db: Db): (r: seq<Notification>)
    ensures multiset(r) == multiset(db.notifications)
    ensures forall i, k :: 0 <= i < k < |r| ==> r[i].createdAt >= r[k].createdAt
  {
    SortDescending(db.notifications, CreatedAt)
  }

  function FindNotification(notifications: seq<Notification>, id: Id): Option<nat> {
    FindFirst(notifications, (n: Notification) => n.id == id)
  }

  /** The user has a status row for the notification (seen or submitted). */
  predicate HasStatus(statuses: seq<NotificationStatus>, userId: Id, notificationId: Id) {
    exists k :: 0 <= k < |statuses| && statuses[k].userId == userId && statuses[k].notificationId == notificationId
  }

  function FindStatus(statuses: seq<NotificationStatus>, userId: Id, notificationId: Id): (r: Option<nat>)
    ensures r.None? <==> !HasStatus(statuses, userId, notificationId)
    ensures r.Some? ==> r.value < |statuses| && statuses[r.value].userId == userId
                        && statuses[r.value].notificationId == notificationId
  {
    FindFirst(statuses, (s: NotificationStatus) => s.userId == userId && s.notificationId == notificationId)
  }

  /** Published and not yet dealt with by the user. */
  predicate IsActiveFor(db: Db, userId: Id, n: Notification) {
    n.isPublished && !HasStatus(db.statuses, userId, n.id)
  }

  /** `GET /api/notifications/active`: the published notifications the user has
      no status row for, newest first. */
  function GetActive(db: Db, userId: Id): (r: seq<Notification>)
    ensures forall n :: n in r <==> n in db.notifications && IsActiveFor(db, userId, n)
    ensures forall i, k :: 0 <= i < k < |r| ==> r[i].createdAt >= r[k].createdAt
  {
    var active := Filter(db.notifications, (n: Notification) => IsActiveFor(db, userId, n));
    var r := SortDescending(active, CreatedAt);
    SortedMembers(active, r);
    r
  }

  // ----- Publish -----

  /** `POST /api/notifications/{id}/publish`: 404 for an unknown id, 400 when
      already published; otherwise it becomes published. */
  function Publish(db: Db, notificationId: Id): (r: Step<Notification>)
    ensures NotificationById(db, notificationId).None? ==> r == Step(db, Err(NotFound))
    ensures NotificationById(db, notificationId).Some? && NotificationById(db, notificationId).value.isPublished ==>
              r == Step(db, Err(BadRequest(AlreadyPublished)))
    ensures r.response.Ok? <==>
              NotificationById(db, notificationId).Some? && !NotificationById(db, notificationId).value.isPublished
    ensures r.response.Ok? ==>
              var i := FindNotification(db.notifications, notificationId).value;
              && r.response.value == db.notifications[i].(isPublished := true)
              && r.db == db.(notifications := db.notifications[i := r.response.value])
  {
    match FindNotification(db.notifications, notificationId)
    case None => Step(db, Err(NotFound))
    case Some(i) =>
      if db.notifications[i].isPublished then Step(db, Err(BadRequest(AlreadyPublished)))
      else
        var n := db.notifications[i].(isPublished := true);
        Step(db.(notifications := db.notifications[i := n]), Ok(n))
  }

  // ----- Survey results -----

  datatype QuestionResult = QuestionResult(questionId: Id, questionText: string, responses: seq<SurveyResponse>)

  function QuestionsOf(db: Db, notificationId: Id): seq<SurveyQuestion> {
    Filter(db.questions, (q: SurveyQuestion) => q.notificationId == notificationId)
  }

  function ResponsesTo(db: Db, questionId: Id): seq<SurveyResponse> {
    Filter(db.responses, (s: SurveyResponse) => s.questionId == questionId)
  }

  function ResultsFor(db: Db, qs: seq<SurveyQuestion>): (r: seq<QuestionResult>)
    ensures |r| == |qs|
    ensures forall k :: 0 <= k < |qs| ==>
              r[k] == QuestionResult(qs[k].id, qs[k].questionText, ResponsesTo(db, qs[k].id))
  {
    if |qs| == 0 then [] else [QuestionResult(qs[0].id, qs[0].questionText, ResponsesTo(db, qs[0].id))] + ResultsFor(db, qs[1..])
  }

  /** `GET /api/notifications/{id}/results`: for each question of the survey,
      in order, every response given to it; 404 unless the id names a survey
      (published or not). */
  function SurveyResults(db: Db, notificationId: Id): (r: Result<seq<QuestionResult>, HttpError>)
    ensures r.Err? <==> !exists k :: 0 <= k < |db.notifications| && db.notifications[k].id == notificationId
                                     && db.notifications[k].notificationType == Survey
    ensures r.Err? ==> r.error == NotFound
    ensures r.Ok? ==> |r.value| == |QuestionsOf(db, notificationId)|
    ensures r.Ok? ==> forall k :: 0 <= k < |r.value| ==>
              r.value[k].questionId == QuestionsOf(db, notificationId)[k].id
              && (forall s :: s in r.value[k].responses <==> s in db.responses && s.questionId == r.value[k].questionId)
  {
    var found := FindFirst(db.notifications, (n: Notification) => n.id == notificationId && n.notificationType == Survey);
    if found.None? then Err(NotFound)
    else Ok(ResultsFor(db, QuestionsOf(db, notificationId)))
  }

  // ----- Seen and submit -----

  function DoneStatus(userId: Id, notificationId: Id): NotificationStatus {
    NotificationStatus(userId, notificationId, true, true)
  }

  /** `POST /api/notifications/seen/{id}`: 404 unless the notification exists
      and is published, 400 unless it is an announcement; a seen-and-completed
      status row is added if the user has none. */
  function MarkSeen(db: Db, userId: Id, notificationId: Id): (r: Step<()>)
    ensures var n := NotificationById(db, notificationId);
      n.None? || !n.value.isPublished ==> r == Step(db, Err(NotFound))
    ensures var n := NotificationById(db, notificationId);
      n.Some? && n.value.isPublished && n.value.notificationType != Announcement ==>
        r == Step(db, Err(BadRequest(AnnouncementsOnly)))
    ensures r.response.Ok? <==>
              var n := NotificationById(db, notificationId);
              n.Some? && n.value.isPublished && n.value.notificationType == Announcement
    ensures r.response.Ok? && HasStatus(db.statuses, userId, notificationId) ==> r.db == db
    ensures r.response.Ok? && !HasStatus(db.statuses, userId, notificationId) ==>
              r.db == db.(statuses := db.statuses + [DoneStatus(userId, notificationId)])
  {
    match FindNotification(db.notifications, notificationId)
    case None => Step(db, Err(NotFound))
    case Some(i) =>
      var n := db.notifications[i];
      if !n.isPublished then Step(db, Err(NotFound))
      else if n.notificationType != Announcement then Step(db, Err(BadRequest(AnnouncementsOnly)))
      else if FindStatus(db.statuses, userId, notificationId).Some? then Step(db, Ok(()))
      else Step(db.(statuses := db.statuses + [DoneStatus(userId, notificationId)]), Ok(()))
  }

  /** The rows one answer produces: a text answer if non-empty, else one row per
      selected option if any, else nothing. */
  function ResponseRowCount(a: ResponseIn): nat {
    if a.textResponse.Some? && a.textResponse.value != "" then 1
    else if a.selectedOptionIds.Some? then |a.selectedOptionIds.value|
    else 0
  }

  function TotalRows(answers: seq<ResponseIn>): nat {
    if |answers| == 0 then 0 else ResponseRowCount(answers[0]) + TotalRows(answers[1..])
  }

  lemma TotalRowsFirst(answers: seq<ResponseIn>, j: nat)
    requires 1 <= j <= |answers|
    ensures TotalRows(answers[..j]) == ResponseRowCount(answers[0]) + TotalRows(answers[1..][..j - 1])
  {
    assert answers[..j][1..] == answers[1..][..j - 1];
  }

  /** The `m`-th row answer `a` produces when its ids are handed out from
      `first`: the text when it is non-empty, otherwise the `m`-th selected option. */
  function AnswerRow(first: Id, userId: Id, a: ResponseIn, m: nat): SurveyResponse
    requires m < ResponseRowCount(a)
  {
    if a.textResponse.Some? && a.textResponse.value != "" then SurveyResponse(first + m, userId, a.questionId, a.textResponse, None)
    else SurveyResponse(first + m, userId, a.questionId, None, Some(a.selectedOptionIds.value[m]))
  }

  /** `rows` holds the rows of answer `a`, in order, from position `base` on,
      under the ids following `id`. */
  predicate AnswerStoredAt(rows: seq<SurveyResponse>, base: nat, id: Id, userId: Id, a: ResponseIn) {
    && base + ResponseRowCount(a) <= |rows|
    && forall m :: 0 <= m < ResponseRowCount(a) ==> rows[base + m] == AnswerRow(id, userId, a, m)
  }

  /** `after` holds the rows of `before` followed by the rows of the answers,
      answer by answer, under ids handed out from `next`. */
  predicate AnswersStored(before: seq<SurveyResponse>, after: seq<SurveyResponse>, next: Id, userId: Id, answers: seq<ResponseIn>) {
    && |after| == |before| + TotalRows(answers) && after[..|before|] == before
    && forall j :: 0 <= j < |answers| ==>
         AnswerStoredAt(after, |before| + TotalRows(answers[..j]), next + TotalRows(answers[..j]), userId, answers[j])
  }

  /** One choice row per selected option, in order. */
  function AddChoiceRows(db: Db, userId: Id, questionId: Id, optionIds: seq<Id>): (r: Db)
    ensures r == db.(responses := r.responses, nextId := r.nextId)
    ensures |r.responses| == |db.responses| + |optionIds| && r.responses[..|db.responses|] == db.responses
    ensures forall k :: 0 <= k < |optionIds| ==>
              r.responses[|db.responses| + k] == SurveyResponse(db.nextId + k, userId, questionId, None, Some(optionIds[k]))
    ensures r.nextId == db.nextId + |optionIds|
    decreases |optionIds|
  {
    if |optionIds| == 0 then db
    else
      var row := SurveyResponse(db.nextId, userId, questionId, None, Some(optionIds[0]));
      var db1 := db.(responses := db.responses + [row], nextId := db.nextId + 1);
      var r := AddChoiceRows(db1, userId, questionId, optionIds[1..]);
      assert r.responses[..|db.responses|] == r.responses[..|db1.responses|][..|db.responses|];
      assert r.responses[|db.responses|] == r.responses[..|db1.responses|][|db.responses|];
      forall k | 1 <= k < |optionIds|
        ensures r.responses[|db.responses| + k] == r.responses[|db1.responses| + (k - 1)]
        ensures optionIds[k] == optionIds[1..][k - 1]
      {
      }
      r
  }

  /** The rows of one answer: its text if non-empty, else its selected
      options, else nothing. */
  function AddAnswerRow(db: Db, userId: Id, a: ResponseIn): (r: Db)
    ensures r == db.(responses := r.responses, nextId := r.nextId)
    ensures |r.responses| == |db.responses| + ResponseRowCount(a) && r.responses[..|db.responses|] == db.responses
    ensures AnswerStoredAt(r.responses, |db.responses|, db.nextId, userId, a)
    ensures r.nextId == db.nextId + ResponseRowCount(a)
  {
    if a.textResponse.Some? && a.textResponse.value != "" then
      var r := db.(responses := db.responses + [SurveyResponse(db.nextId, userId, a.questionId, a.textResponse, None)],
                   nextId := db.nextId + 1);
      assert r.responses[|db.responses| + 0] == AnswerRow(db.nextId, userId, a, 0);
      r
    else if a.selectedOptionIds.Some? then
      var r := AddChoiceRows(db, userId, a.questionId, a.selectedOptionIds.value);
      assert forall m :: 0 <= m < ResponseRowCount(a) ==>
               r.responses[|db.responses| + m] == AnswerRow(db.nextId, userId, a, m);
      r
    else db
  }

  /** The rows of every answer, in order; what is stored is stated by
      `AddAnswerRowsStores`. */
  function AddAnswerRows(db: Db, userId: Id, answers: seq<ResponseIn>): (r: Db)
    ensures r == db.(responses := r.responses, nextId := r.nextId)
    ensures r.nextId == db.nextId + TotalRows(answers)
    decreases |answers|
  {
    if |answers| == 0 then db
    else AddAnswerRows(AddAnswerRow(db, userId, answers[0]), userId, answers[1..])
  }

  /** Every answer's rows are stored, in order, owned by the user and under
      the ids handed out from `db.nextId`. */
  lemma {:induction false} AddAnswerRowsStores(db: Db, userId: Id, answers: seq<ResponseIn>)
    ensures AnswersStored(db.responses, AddAnswerRows(db, userId, answers).responses, db.nextId, userId, answers)
    decreases |answers|
  {
    if |answers| == 0 {
      assert db.responses[..|db.responses|] == db.responses;
    } else {
      var db1 := AddAnswerRow(db, userId, answers[0]);
      AddAnswerRowsStores(db1, userId, answers[1..]);
      AnswersStoredCons(db.responses, db1.responses, AddAnswerRows(db, userId, answers).responses, db.nextId, userId, answers);
    }
  }

  /** The rows of the first answer followed by the rows of the others. */
  lemma AnswersStoredCons(before: seq<SurveyResponse>, mid: seq<SurveyResponse>, after: seq<SurveyResponse>,
                          next: Id, userId: Id, answers: seq<ResponseIn>)
    requires |answers| > 0
    requires |mid| == |before| + ResponseRowCount(answers[0]) && mid[..|before|] == before
    requires AnswerStoredAt(mid, |before|, next, userId, answers[0])
    requires AnswersStored(mid, after, next + ResponseRowCount(answers[0]), userId, answers[1..])
    ensures AnswersStored(before, after, next, userId, answers)
  {
    assert after[..|before|] == after[..|mid|][..|before|];
    forall j | 0 <= j < |answers|
      ensures AnswerStoredAt(after, |before| + TotalRows(answers[..j]), next + TotalRows(answers[..j]), userId, answers[j])
    {
      if j == 0 {
        assert answers[..j] == [];
        AnswerKept(mid, after, |before|, next, userId, answers[0]);
      } else {
        TotalRowsFirst(answers, j);
        assert answers[j] == answers[1..][j - 1];
        assert AnswerStoredAt(after, |mid| + TotalRows(answers[1..][..j - 1]),
                              next + ResponseRowCount(answers[0]) + TotalRows(answers[1..][..j - 1]), userId, answers[1..][j - 1]);
      }
    }
  }

  /** The rows of an answer survive appending further rows. */
  lemma AnswerKept(mid: seq<SurveyResponse>, after: seq<SurveyResponse>, base: nat, id: Id, userId: Id, a: ResponseIn)
    requires |mid| <= |after| && after[..|mid|] == mid
    requires AnswerStoredAt(mid, base, id, userId, a)
    ensures AnswerStoredAt(after, base, id, userId, a)
  {
    forall m | 0 <= m < ResponseRowCount(a)
      ensures after[base + m] == AnswerRow(id, userId, a, m)
    {
      assert mid[base + m] == AnswerRow(id, userId, a, m);
      assert after[base + m] == after[..|mid|][base + m];
    }
  }

  /** `POST /api/notifications/responses`: 404 unless the notification exists
      and is published, 400 unless it is a survey, 400 when the user already
      has a status row; otherwise the answer rows and a completed status row
      are stored. The question ids are not checked against the survey. */
  function SubmitSurvey(db: Db, userId: Id, notificationId: Id, answers: seq<ResponseIn>): (r: Step<()>)
    ensures var n := NotificationById(db, notificationId);
      n.None? || !n.value.isPublished ==> r == Step(db, Err(NotFound))
    ensures var n := NotificationById(db, notificationId);
      n.Some? && n.value.isPublished && n.value.notificationType != Survey ==> r == Step(db, Err(BadRequest(NotASurvey)))
    ensures var n := NotificationById(db, notificationId);
      n.Some? && n.value.isPublished && n.value.notificationType == Survey && HasStatus(db.statuses, userId, notificationId) ==>
        r == Step(db, Err(BadRequest(AlreadySubmitted)))
    ensures r.response.Ok? <==>
              var n := NotificationById(db, notificationId);
              n.Some? && n.value.isPublished && n.value.notificationType == Survey
              && !HasStatus(db.statuses, userId, notificationId)
    ensures r.response.Ok? ==>
              && r.db.statuses == db.statuses + [DoneStatus(userId, notificationId)]
              && AnswersStored(db.responses, r.db.responses, db.nextId, userId, answers)
              && r.db.nextId == db.nextId + TotalRows(answers)
              && r.db == db.(statuses := r.db.statuses, responses := r.db.responses, nextId := r.db.nextId)
  {
    match FindNotification(db.notifications, notificationId)
    case None => Step(db, Err(NotFound))
    case Some(i) =>
      var n := db.notifications[i];
      if !n.isPublished then Step(db, Err(NotFound))
      else if n.notificationType != Survey then Step(db, Err(BadRequest(NotASurvey)))
      else if FindStatus(db.statuses, userId, notificationId).Some? then
        Step(db, Err(BadRequest(AlreadySubmitted)))
      else
        AddAnswerRowsStores(db, userId, answers);
        var db1 := AddAnswerRows(db, userId, answers);
        Step(db1.(statuses := db1.statuses + [DoneStatus(userId, notificationId)]), Ok(()))
  }

  // ----- History -----

  datatype HistoryEntry = HistoryEntry(notification: Notification, isSeen: bool, isCompleted: bool)

  function StatusesFor(statuses: seq<NotificationStatus>, userId: Id, notificationId: Id): seq<NotificationStatus> {
    Filter(statuses, (s: NotificationStatus) => s.userId == userId && s.notificationId == notificationId)
  }

  /** The outer join for one notification: one entry per matching status row,
      or a single entry with both flags false when there is none. */
  function JoinOne(n: Notification, matching: seq<NotificationStatus>): (r: seq<HistoryEntry>)
    ensures |r| == (if |matching| == 0 then 1 else |matching|)
    ensures forall e :: e in r ==> e.notification == n
  {
    if |matching| == 0 then [HistoryEntry(n, false, false)]
    else Entries(n, matching)
  }

  function Entries(n: Notification, matching: seq<NotificationStatus>): (r: seq<HistoryEntry>)
    ensures |r| == |matching|
    ensures forall k :: 0 <= k < |r| ==> r[k] == HistoryEntry(n, matching[k].isSeen, matching[k].isCompleted)
  {
    if |matching| == 0 then [] else [HistoryEntry(n, matching[0].isSeen, matching[0].isCompleted)] + Entries(n, matching[1..])
  }

  function JoinAll(ns: seq<Notification>, statuses: seq<NotificationStatus>, userId: Id): seq<HistoryEntry> {
    if |ns| == 0 then [] else JoinOne(ns[0], StatusesFor(statuses, userId, ns[0].id)) + JoinAll(ns[1..], statuses, userId)
  }

  function Published(db: Db): seq<Notification> {
    Filter(db.notifications, (n: Notification) => n.isPublished)
  }

  function EntryNotification(e: HistoryEntry): Notification { e.notification }

  /** `GET /api/notifications/history`: the published notifications, newest
      first, outer-joined with the user's status rows. Every entry is of a
      published notification and every published notification has one;
      `HistoryOneEntryEach` states the entries under the status invariant. */
  function History(db: Db, userId: Id): (r: seq<HistoryEntry>)
    ensures forall e :: e in r ==> e.notification in db.notifications && e.notification.isPublished
    ensures forall n :: n in db.notifications && n.isPublished ==> exists e :: e in r && e.notification == n
  {
    var sorted := SortDescending(Published(db), CreatedAt);
    SortedMembers(Published(db), sorted);
    JoinAllMembers(sorted, db.statuses, userId);
    JoinAll(sorted, db.statuses, userId)
  }

  /** With one status row per user and notification, the history holds
      exactly one entry per published notification, newest first, flagged
      from the user's status row or false when there is none. */
  lemma HistoryOneEntryEach(db: Db, userId: Id)
    requires OneStatusPerUser(db.statuses)
    ensures var r := History(db, userId);
      && multiset(Map(r, EntryNotification)) == multiset(Published(db))
      && (forall i, k :: 0 <= i < k < |r| ==> r[i].notification.createdAt >= r[k].notification.createdAt)
      && (forall k :: 0 <= k < |r| ==>
            var f := FindStatus(db.statuses, userId, r[k].notification.id);
            && r[k].isSeen == (f.Some? && db.statuses[f.value].isSeen)
            && r[k].isCompleted == (f.Some? && db.statuses[f.value].isCompleted))
  {
    var sorted := SortDescending(Published(db), CreatedAt);
    var r := History(db, userId);
    assert r == JoinAll(sorted, db.statuses, userId);
    JoinAllOnePerNotification(sorted, db.statuses, userId);
    assert Map(r, EntryNotification) == sorted;
  }

  /** The joined entries are of the given notifications, and each of them has one. */
  lemma {:induction false} JoinAllMembers(ns: seq<Notification>, statuses: seq<NotificationStatus>, userId: Id)
    ensures forall e :: e in JoinAll(ns, statuses, userId) ==> e.notification in ns
    ensures forall n :: n in ns ==> exists e :: e in JoinAll(ns, statuses, userId) && e.notification == n
  {
    if |ns| > 0 {
      JoinAllMembers(ns[1..], statuses, userId);
      var head := JoinOne(ns[0], StatusesFor(statuses, userId, ns[0].id));
      assert JoinAll(ns, statuses, userId) == head + JoinAll(ns[1..], statuses, userId);
      assert head[0] in head;
      forall n | n in ns ensures exists e :: e in JoinAll(ns, statuses, userId) && e.notification == n {
        if n != ns[0] {
          assert n in ns[1..];
        }
      }
    }
  }

  // ----- Properties -----

  /** Marking as seen twice has the effect of marking once. */
  lemma MarkSeenIdempotent(db: Db, userId: Id, notificationId: Id)
    ensures var once := MarkSeen(db, userId, notificationId);
      MarkSeen(once.db, userId, notificationId) == once
  {
    var once := MarkSeen(db, userId, notificationId);
    if once.response.Ok? && !HasStatus(db.statuses, userId, notificationId) {
      var s := DoneStatus(userId, notificationId);
      assert s in once.db.statuses;
      assert HasStatus(once.db.statuses, userId, notificationId);
    }
  }

  /** After a successful seen or submit the notification is no longer active
      for the user. */
  lemma DoneLeavesActive(db: Db, userId: Id, notificationId: Id, answers: seq<ResponseIn>)
    ensures var s := MarkSeen(db, userId, notificationId);
      s.response.Ok? ==> forall n :: n in GetActive(s.db, userId) ==> n.id != notificationId
    ensures var s := SubmitSurvey(db, userId, notificationId, answers);
      s.response.Ok? ==> forall n :: n in GetActive(s.db, userId) ==> n.id != notificationId
  {
    var s1 := MarkSeen(db, userId, notificationId);
    if s1.response.Ok? {
      assert HasStatus(s1.db.statuses, userId, notificationId) by {
        if !HasStatus(db.statuses, userId, notificationId) {
          assert DoneStatus(userId, notificationId) in s1.db.statuses;
        }
      }
    }
    var s2 := SubmitSurvey(db, userId, notificationId, answers);
    if s2.response.Ok? {
      assert DoneStatus(userId, notificationId) in s2.db.statuses;
    }
  }

  /** Seen and submit keep at most one status row per user and notification. */
  lemma StatusEndpointsKeepOneStatus(db: Db, userId: Id, notificationId: Id, answers: seq<ResponseIn>)
    requires OneStatusPerUser(db.statuses)
    ensures OneStatusPerUser(MarkSeen(db, userId, notificationId).db.statuses)
    ensures OneStatusPerUser(SubmitSurvey(db, userId, notificationId, answers).db.statuses)
  {
    if !HasStatus(db.statuses, userId, notificationId) {
      AppendKeepsOneStatus(db.statuses, DoneStatus(userId, notificationId));
    }
  }

  lemma AppendKeepsOneStatus(statuses: seq<NotificationStatus>, s: NotificationStatus)
    requires OneStatusPerUser(statuses) && !HasStatus(statuses, s.userId, s.notificationId)
    ensures OneStatusPerUser(statuses + [s])
  {
    var t := statuses + [s];
    forall i, j | 0 <= i < j < |t| ensures (t[i].userId, t[i].notificationId) != (t[j].userId, t[j].notificationId) {
      if j == |statuses| {
        assert t[i] in statuses;
      }
    }
  }

  /** Publishing is one-way: no endpoint makes a published notification
      unpublished, and publishing again is refused. */
  lemma PublishIsOneWay(db: Db, notificationId: Id, other: Id)
    requires forall k :: 0 <= k < |db.notifications| ==> db.notifications[k].id != other || db.notifications[k].isPublished
    ensures var r := Publish(db, notificationId).db;
      forall k :: 0 <= k < |r.notifications| ==> r.notifications[k].id != other || r.notifications[k].isPublished
    ensures var once := Publish(db, notificationId);
      once.response.Ok? ==> Publish(once.db, notificationId).response == Err(BadRequest(AlreadyPublished))
  {
    var once := Publish(db, notificationId);
    if once.response.Ok? {
      var i := FindNotification(db.notifications, notificationId).value;
      var p := (n: Notification) => n.id == notificationId;
      assert forall k :: 0 <= k < |db.notifications| ==> p(once.db.notifications[k]) == p(db.notifications[k]);
      assert FindNotification(once.db.notifications, notificationId) == Some(i);
    }
  }

  /** With one status row per user and notification, the history holds
      exactly one entry per published notification, flagged from the user's
      status row or false when there is none. */
  lemma {:induction false} JoinAllOnePerNotification(ns: seq<Notification>, statuses: seq<NotificationStatus>, userId: Id)
    requires OneStatusPerUser(statuses)
    ensures |JoinAll(ns, statuses, userId)| == |ns|
    ensures forall k :: 0 <= k < |ns| ==>
              JoinAll(ns, statuses, userId)[k].notification == ns[k]
              && JoinAll(ns, statuses, userId)[k].isSeen ==
                   (FindStatus(statuses, userId, ns[k].id).Some? && statuses[FindStatus(statuses, userId, ns[k].id).value].isSeen)
              && JoinAll(ns, statuses, userId)[k].isCompleted ==
                   (FindStatus(statuses, userId, ns[k].id).Some? && statuses[FindStatus(statuses, userId, ns[k].id).value].isCompleted)
  {
    if |ns| > 0 {
      JoinAllOnePerNotification(ns[1..], statuses, userId);
      var n := ns[0];
      var m := StatusesFor(statuses, userId, n.id);
      AtMostOneMatch(statuses, userId, n.id);
      var head := JoinOne(n, m);
      assert |head| == 1;
      var r := JoinAll(ns, statuses, userId);
      assert r == head + JoinAll(ns[1..], statuses, userId);
      forall k | 1 <= k < |ns| ensures r[k] == JoinAll(ns[1..], statuses, userId)[k - 1] && ns[k] == ns[1..][k - 1] { }
    }
  }

  /** Under the invariant, the status rows matching a (user, notification)
      pair are none, or exactly the first match. */
  lemma AtMostOneMatch(statuses: seq<NotificationStatus>, userId: Id, notificationId: Id)
    requires OneStatusPerUser(statuses)
    ensures var m := StatusesFor(statuses, userId, notificationId);
      var f := FindStatus(statuses, userId, notificationId);
      && (f.None? ==> m == [])
      && (f.Some? ==> m == [statuses[f.value]])
  {
    var m := StatusesFor(statuses, userId, notificationId);
    var f := FindStatus(statuses, userId, notificationId);
    var p := (s: NotificationStatus) => s.userId == userId && s.notificationId == notificationId;
    if f.Some? {
      var s := statuses[f.value];
      assert s in m;
      forall x | x in m ensures x == s {
        var a :| 0 <= a < |statuses| && statuses[a] == x;
        assert (statuses[a].userId, statuses[a].notificationId) == (statuses[f.value].userId, statuses[f.value].notificationId);
        assert a == f.value;
      }
      FilterSingleton(statuses, p, f.value);
    }
  }

  /** Filtering a sequence with distinct keys, where exactly one element matches. */
  lemma {:induction false} FilterSingleton(statuses: seq<NotificationStatus>, p: NotificationStatus -> bool, i: nat)
    requires OneStatusPerUser(statuses) && i < |statuses| && p(statuses[i])
    requires forall a :: 0 <= a < |statuses| && p(statuses[a]) ==> a == i
    ensures Filter(statuses, p) == [statuses[i]]
  {
    if i == 0 {
      FilterNone(statuses[1..], p);
    } else {
      assert !p(statuses[0]);
      forall a | 0 <= a < |statuses[1..]| && p(statuses[1..][a]) ensures a == i - 1 {
        assert statuses[1..][a] == statuses[a + 1];
      }
      FilterSingleton(statuses[1..], p, i - 1);
    }
  }

}

=== FILE: progress.dfy ===
/** The progress endpoints of backend/app/routers/progress.py: aggregate
    queries over the caller's error ledger, written as pure functions. Joins
    are inner joins; `GROUP BY` keeps one group per distinct key, counted. */
module Progress {
  import opened Wrappers
  import opened Seqs
  import opened Sorting
  import opened Models

  // ----- Joins and grouping -----

  function ErrorOf(userId: Id): UserError -> bool { (e: UserError) => e.userId == userId }
  function TopicWithId(id: Id): LearningTopic -> bool { (t: LearningTopic) => t.id == id }

  /** The caller's error rows, in table order. */
  function Mine(db: Db, userId: Id): seq<UserError> {
    Filter(db.errors, ErrorOf(userId))
  }

  /** `errors JOIN learning_topics ON topic_id = id`, keeping the topic side. */
  function JoinTopics(errors: seq<UserError>, topics: seq<LearningTopic>): (r: seq<LearningTopic>)
    ensures forall t :: t in r ==> t in topics
    ensures forall k :: 0 <= k < |errors| ==> forall t :: t in topics && t.id == errors[k].topicId ==> t in r
  {
    if |errors| == 0 then []
    else
      var r := Filter(topics, TopicWithId(errors[0].topicId)) + JoinTopics(errors[1..], topics);
      assert forall k :: 1 <= k < |errors| ==> errors[k] == errors[1..][k - 1];
      r
  }

  /** One group: a key and the number of joined rows carrying it. */
  datatype Group<K> = Group(key: K, count: nat)

  function GroupCount<K>(g: Group<K>): int { g.count }
  function GroupKey<K>(g: Group<K>): K { g.key }

  /** The keys of the groups, in order. */
  function Keys<K>(groups: seq<Group<K>>): seq<K> { Map(groups, GroupKey) }

  function CountKeys<K(==)>(keys: seq<K>, rows: seq<K>): (r: seq<Group<K>>)
    ensures |r| == |keys|
    ensures forall i :: 0 <= i < |keys| ==> r[i] == Group(keys[i], multiset(rows)[keys[i]])
  {
    if |keys| == 0 then [] else [Group(keys[0], multiset(rows)[keys[0]])] + CountKeys(keys[1..], rows)
  }

  /** `GROUP BY key` with `count(*)`: one group per distinct key, with its
      multiplicity among the rows. */
  function GroupCounts<K(==,!new)>(rows: seq<K>): (r: seq<Group<K>>)
    ensures forall i :: 0 <= i < |r| ==> r[i].key in rows && r[i].count == multiset(rows)[r[i].key] && r[i].count >= 1
    ensures forall k :: k in rows <==> k in Keys(r)
    ensures forall i, j :: 0 <= i < j < |r| ==> r[i].key != r[j].key
  {
    var keys := Distinct(rows);
    var r := CountKeys(keys, rows);
    assert Keys(r) == keys;
    assert forall i :: 0 <= i < |r| ==> r[i].key == keys[i] && keys[i] in rows;
    assert forall i :: 0 <= i < |r| ==> r[i].count == multiset(rows)[r[i].key] && r[i].count >= 1;
    r
  }

  /** The groups of the rows, largest count first (`ORDER BY count DESC`). */
  function Rank<K(==,!new)>(rows: seq<K>): (r: seq<Group<K>>)
    ensures forall i, j :: 0 <= i < j < |r| ==> r[i].count >= r[j].count
    ensures forall i :: 0 <= i < |r| ==> r[i].key in rows && r[i].count == multiset(rows)[r[i].key] && r[i].count >= 1
    ensures forall i, j :: 0 <= i < j < |r| ==> r[i].key != r[j].key
    ensures forall k :: k in rows <==> k in Keys(r)
  {
    var groups := GroupCounts(rows);
    var r := SortDescending(groups, GroupCount);
    PermutationKeepsGroups(groups, r);
    PermutationKeepsKeys(groups, r);
    r
  }

  /** A permutation of groups holds the same groups, and keeps the keys distinct. */
  lemma PermutationKeepsGroups<K>(groups: seq<Group<K>>, r: seq<Group<K>>)
    requires multiset(r) == multiset(groups)
    requires forall a, b :: 0 <= a < b < |groups| ==> groups[a].key != groups[b].key
    ensures forall i :: 0 <= i < |r| ==> r[i] in groups
    ensures forall i, j :: 0 <= i < j < |r| ==> r[i].key != r[j].key
  {
    forall i | 0 <= i < |r| ensures r[i] in groups {
      assert r[i] in multiset(r);
    }
    forall i, j | 0 <= i < j < |r| ensures r[i].key != r[j].key {
      DistinctInPermutation(groups, r, i, j);
    }
  }

  lemma PermutationKeepsKeys<K>(groups: seq<Group<K>>, r: seq<Group<K>>)
    requires multiset(r) == multiset(groups)
    ensures forall k :: k in Keys(groups) <==> k in Keys(r)
  {
    forall k | k in Keys(groups) ensures k in Keys(r) {
      var g :| 0 <= g < |groups| && Keys(groups)[g] == k;
      assert groups[g] in multiset(r);
      var i :| 0 <= i < |r| && r[i] == groups[g];
      assert Keys(r)[i] == k;
    }
    forall k | k in Keys(r) ensures k in Keys(groups) {
      var i :| 0 <= i < |r| && Keys(r)[i] == k;
      assert r[i] in multiset(groups);
      var g :| 0 <= g < |groups| && groups[g] == r[i];
      assert Keys(groups)[g] == k;
    }
  }

  /** Two positions of a permutation of groups with distinct keys hold
      different keys. */
  lemma DistinctInPermutation<K>(groups: seq<Group<K>>, r: seq<Group<K>>, i: nat, j: nat)
    requires forall a, b :: 0 <= a < b < |groups| ==> groups[a].key != groups[b].key
    requires multiset(r) == multiset(groups) && i < j < |r|
    ensures r[i].key != r[j].key
  {
    if r[i].key == r[j].key {
      assert r[i] in multiset(groups) && r[j] in multiset(groups);
      var a :| 0 <= a < |groups| && groups[a] == r[i];
      var b :| 0 <= b < |groups| && groups[b] == r[j];
      assert a == b;
      assert r == r[..j] + [r[j]] + r[j + 1..];
      assert r[i] in r[..j];
      assert multiset(r)[r[i]] >= 2;
      UniqueOnce(groups, a);
    }
  }

  /** With distinct keys, each group occurs once. */
  lemma {:induction false} UniqueOnce<K>(groups: seq<Group<K>>, a: nat)
    requires forall x, y :: 0 <= x < y < |groups| ==> groups[x].key != groups[y].key
    requires a < |groups|
    ensures multiset(groups)[groups[a]] == 1
  {
    assert groups == [groups[0]] + groups[1..];
    if a == 0 {
      assert groups[0] !in groups[1..];
    } else {
      assert groups[1..][a - 1] == groups[a];
      UniqueOnce(groups[1..], a - 1);
    }
  }

  // ----- Summary -----

  datatype TopTopic = TopTopic(topicName: string, errorCount: nat)

  datatype ProgressSummary = ProgressSummary(totalErrors: nat, topicsEncountered: nat, topTopics: seq<TopTopic>)

  function TopicName(t: LearningTopic): string { t.topicName }
  function ErrorTopic(e: UserError): Id { e.topicId }
  function ToTopTopic(g: Group<string>): TopTopic { TopTopic(g.key, g.count) }
  function TopTopicName(t: TopTopic): string { t.topicName }
  function NamesOf(top: seq<TopTopic>): seq<string> { Map(top, TopTopicName) }

  const TopTopicLimit: nat := 3

  /** The topic name of each of the caller's errors, through the join. */
  function ErrorTopicNames(db: Db, userId: Id): seq<string> {
    Map(JoinTopics(Mine(db, userId), db.topics), TopicName)
  }

  /** The distinct topic ids among a user's error rows. */
  function TopicIdsOf(errors: seq<UserError>, userId: Id): set<Id> {
    set e | e in errors && e.userId == userId :: e.topicId
  }

  /** The number of distinct topic ids among the caller's errors
      (`count(distinct topic_id)`). */
  function TopicsEncountered(db: Db, userId: Id): (n: nat)
    ensures n == |TopicIdsOf(db.errors, userId)|
  {
    var ids := Distinct(Map(Mine(db, userId), ErrorTopic));
    DistinctCardinality(ids);
    DistinctTopicIds(db, userId, ids);
    |ids|
  }

  lemma DistinctTopicIds(db: Db, userId: Id, ids: seq<Id>)
    requires forall x :: x in ids <==> x in Map(Mine(db, userId), ErrorTopic)
    ensures Elements(ids) == TopicIdsOf(db.errors, userId)
  {
    var mine := Mine(db, userId);
    var m := Map(mine, ErrorTopic);
    forall x | x in ids ensures x in TopicIdsOf(db.errors, userId) {
      var k :| 0 <= k < |m| && m[k] == x;
      assert mine[k] in mine;
    }
    forall e | e in db.errors && e.userId == userId ensures e.topicId in ids {
      assert e in mine;
      var k :| 0 <= k < |mine| && mine[k] == e;
      assert m[k] == e.topicId;
    }
  }

  /** The (at most `limit`) groups with the largest counts, largest first;
      fewer than `limit` only when there are no more keys. */
  function Top<K(==,!new)>(rows: seq<K>, limit: nat): (r: seq<Group<K>>)
    ensures |r| <= limit
    ensures forall i, j :: 0 <= i < j < |r| ==> r[i].count >= r[j].count
    ensures forall i, j :: 0 <= i < j < |r| ==> r[i].key != r[j].key
    ensures forall i :: 0 <= i < |r| ==> r[i].key in rows && r[i].count == multiset(rows)[r[i].key]
    ensures |r| < limit ==> forall k :: k in rows ==> k in Keys(r)
    ensures forall k, i :: k in rows && k !in Keys(r) && 0 <= i < |r| ==> multiset(rows)[k] <= r[i].count
  {
    var ranked := Rank(rows);
    var n := if |ranked| < limit then |ranked| else limit;
    PrefixFacts(rows, ranked, n);
    ranked[..n]
  }

  /** A prefix of the ranking keeps its order and counts; a key it leaves out
      counts no more than any key it keeps. */
  lemma PrefixFacts<K>(rows: seq<K>, ranked: seq<Group<K>>, n: nat)
    requires n <= |ranked|
    requires forall i, j :: 0 <= i < j < |ranked| ==> ranked[i].count >= ranked[j].count
    requires forall i :: 0 <= i < |ranked| ==> ranked[i].count == multiset(rows)[ranked[i].key]
    requires forall k :: k in rows <==> k in Keys(ranked)
    ensures forall i :: 0 <= i < n ==> ranked[..n][i] == ranked[i]
    ensures n == |ranked| ==> forall k :: k in rows ==> k in Keys(ranked[..n])
    ensures forall k, i :: k in rows && k !in Keys(ranked[..n]) && 0 <= i < n ==> multiset(rows)[k] <= ranked[i].count
  {
    var r := ranked[..n];
    forall k, i | k in rows && k !in Keys(r) && 0 <= i < n ensures multiset(rows)[k] <= ranked[i].count {
      var x :| 0 <= x < |ranked| && Keys(ranked)[x] == k;
      assert x >= n by {
        if x < n {
          assert false;
        }
      }
    }
    if n == |ranked| {
      assert r == ranked;
    }
  }

  /** The top topic names, with their error-row counts. */
  function TopTopics(names: seq<string>): (r: seq<TopTopic>)
    ensures |r| <= TopTopicLimit
    ensures forall i, j :: 0 <= i < j < |r| ==> r[i].errorCount >= r[j].errorCount
    ensures forall i, j :: 0 <= i < j < |r| ==> r[i].topicName != r[j].topicName
    ensures forall i :: 0 <= i < |r| ==> r[i].topicName in names && r[i].errorCount == multiset(names)[r[i].topicName]
    ensures |r| < TopTopicLimit ==> forall n :: n in names ==> n in NamesOf(r)
    ensures forall n, i :: n in names && n !in NamesOf(r) && 0 <= i < |r| ==> multiset(names)[n] <= r[i].errorCount
  {
    var top := Top(names, TopTopicLimit);
    var r := Map(top, ToTopTopic);
    assert NamesOf(r) == Keys(top);
    r
  }

  /** `GET /api/progress/summary`: the number of the caller's error rows (not
      the sum of their repetition counts), the number of distinct topics among
      them, and the top topic names. */
  function Summary(db: Db, userId: Id): (r: ProgressSummary)
    ensures r.totalErrors == Count(db.errors, ErrorOf(userId))
    ensures r.topicsEncountered == |TopicIdsOf(db.errors, userId)|
    ensures r.topTopics == TopTopics(ErrorTopicNames(db, userId))
  {
    CountIsFilterLength(db.errors, ErrorOf(userId));
    ProgressSummary(|Mine(db, userId)|, TopicsEncountered(db, userId), TopTopics(ErrorTopicNames(db, userId)))
  }

  /** With the ledger well formed (topic names and ids unique), the count of a
      listed topic name is the number of the caller's error rows in that topic. */
  lemma TopicNameCount(db: Db, userId: Id, t: LearningTopic)
    requires LedgerWf(db) && t in db.topics
    ensures multiset(ErrorTopicNames(db, userId))[t.topicName] == Count(db.errors, ErrorInTopic(userId, t.id))
  {
    var joined := JoinTopics(Mine(db, userId), db.topics);
    forall a, b | a in db.topics && b in db.topics && TopicName(a) == TopicName(b) ensures a == b {
      var i :| 0 <= i < |db.topics| && db.topics[i] == a;
      var j :| 0 <= j < |db.topics| && db.topics[j] == b;
      assert i == j;
    }
    MapKeepsMultiplicity(joined, TopicName, (set x | x in db.topics), t);
    JoinCount(Mine(db, userId), db.topics, t);
    MineCount(db.errors, userId, t.id);
  }

  function ErrorInTopic(userId: Id, topicId: Id): UserError -> bool {
    (e: UserError) => e.userId == userId && e.topicId == topicId
  }

  function InTopic(topicId: Id): UserError -> bool { (e: UserError) => e.topicId == topicId }

  /** Each error joins exactly one topic row when topic ids are unique. */
  lemma {:induction false} JoinCount(errors: seq<UserError>, topics: seq<LearningTopic>, t: LearningTopic)
    requires t in topics && forall i, j :: 0 <= i < j < |topics| ==> topics[i].id != topics[j].id
    ensures multiset(JoinTopics(errors, topics))[t] == Count(errors, InTopic(t.id))
  {
    if |errors| > 0 {
      JoinCount(errors[1..], topics, t);
      var a :| 0 <= a < |topics| && topics[a] == t;
      TopicOnce(topics, a);
    }
  }

  lemma {:induction false} TopicOnce(topics: seq<LearningTopic>, a: nat)
    requires a < |topics| && forall i, j :: 0 <= i < j < |topics| ==> topics[i].id != topics[j].id
    ensures multiset(topics)[topics[a]] == 1
  {
    assert topics == [topics[0]] + topics[1..];
    if a == 0 {
      assert topics[0] !in topics[1..];
    } else {
      assert topics[1..][a - 1] == topics[a];
      TopicOnce(topics[1..], a - 1);
    }
  }

  /** Counting the caller's rows in a topic within `Mine` or within the table agrees. */
  lemma {:induction false} MineCount(errors: seq<UserError>, userId: Id, topicId: Id)
    ensures Count(Filter(errors, ErrorOf(userId)), InTopic(topicId)) == Count(errors, ErrorInTopic(userId, topicId))
  {
    if |errors| > 0 {
      MineCount(errors[1..], userId, topicId);
    }
  }

  // ----- Topics -----

  datatype UserTopic = UserTopic(topicId: Id, topicName: string, errorCount: nat)

  function TopicKey(t: LearningTopic): (Id, string) { (t.id, t.topicName) }
  function ToUserTopic(g: Group<(Id, string)>): UserTopic { UserTopic(g.key.0, g.key.1, g.count) }
  function UserTopicKey(u: UserTopic): (Id, string) { (u.topicId, u.topicName) }
  function TopicKeysOf(topics: seq<UserTopic>): seq<(Id, string)> { Map(topics, UserTopicKey) }

  /** The (topic id, topic name) of each of the caller's errors, through the join. */
  function ErrorTopicKeys(db: Db, userId: Id): seq<(Id, string)> {
    Map(JoinTopics(Mine(db, userId), db.topics), TopicKey)
  }

  /** One entry per (topic id, name) key, largest count first. */
  function RankTopics(keys: seq<(Id, string)>): (r: seq<UserTopic>)
    ensures forall i, j :: 0 <= i < j < |r| ==> r[i].errorCount >= r[j].errorCount
    ensures forall i, j :: 0 <= i < j < |r| ==> (r[i].topicId, r[i].topicName) != (r[j].topicId, r[j].topicName)
    ensures forall i :: 0 <= i < |r| ==>
              (r[i].topicId, r[i].topicName) in keys && r[i].errorCount == multiset(keys)[(r[i].topicId, r[i].topicName)]
    ensures forall k :: k in keys <==> k in TopicKeysOf(r)
  {
    var ranked := Rank(keys);
    var r := Map(ranked, ToUserTopic);
    assert TopicKeysOf(r) == Keys(ranked);
    r
  }

  /** `GET /api/progress/topics`: one entry per topic the caller has errors in,
      with the number of those errors, largest count first. */
  function UserTopics(db: Db, userId: Id): (r: seq<UserTopic>)
    ensures forall i, j :: 0 <= i < j < |r| ==> r[i].errorCount >= r[j].errorCount
    ensures forall i :: 0 <= i < |r| ==>
              (r[i].topicId, r[i].topicName) in ErrorTopicKeys(db, userId)
              && r[i].errorCount == multiset(ErrorTopicKeys(db, userId))[(r[i].topicId, r[i].topicName)]
    ensures forall k :: k in ErrorTopicKeys(db, userId) <==> k in TopicKeysOf(r)
  {
    RankTopics(ErrorTopicKeys(db, userId))
  }

  /** With the ledger well formed, a topic's count in the list is the number of
      the caller's error rows in it. */
  lemma TopicKeyCount(db: Db, userId: Id, t: LearningTopic)
    requires LedgerWf(db) && t in db.topics
    ensures multiset(ErrorTopicKeys(db, userId))[(t.id, t.topicName)] == Count(db.errors, ErrorInTopic(userId, t.id))
  {
    var joined := JoinTopics(Mine(db, userId), db.topics);
    MapKeepsMultiplicity(joined, TopicKey, (set x | x in db.topics), t);
    JoinCount(Mine(db, userId), db.topics, t);
    MineCount(db.errors, userId, t.id);
  }

  // ----- Topic details -----

  datatype ErrorDetail = ErrorDetail(
    incorrectPhrase: string,
    suggestionText: string,
    explanationText: string,
    repetitionCount: nat,
    lastOccurredAt: Timestamp)

  datatype TopicDetails = TopicDetails(topicId: Id, topicName: string, errorCount: nat, errors: seq<ErrorDetail>)

  function Detail(e: UserError, p: LearningPoint): ErrorDetail {
    ErrorDetail(e.incorrectPhrase, p.suggestionText, p.explanationText, e.repetitionCount, e.lastOccurredAt)
  }

  /** An error of the caller in the topic, explained by a learning point it has
      a history row for. */
  predicate Explains(db: Db, userId: Id, topicId: Id, e: UserError, h: LearningHistory, p: LearningPoint) {
    && e in db.errors && e.userId == userId && e.topicId == topicId
    && h in db.history && h.errorId == e.id
    && p in db.points && p.id == h.learningPointId
  }

  function HistoryOfError(errorId: Id): LearningHistory -> bool { (h: LearningHistory) => h.errorId == errorId }

  /** A row of `errors JOIN history JOIN learning_points`. */
  datatype Joined = Joined(error: UserError, history: LearningHistory, point: LearningPoint)

  predicate Links(j: Joined) {
    j.history.errorId == j.error.id && j.point.id == j.history.learningPointId
  }

  /** The learning points a history row links an error to. */
  function JoinPoint(e: UserError, h: LearningHistory, points: seq<LearningPoint>): (r: seq<Joined>)
    ensures forall j :: j in r <==> j.error == e && j.history == h && j.point in points && j.point.id == h.learningPointId
  {
    if |points| == 0 then []
    else
      assert points == [points[0]] + points[1..];
      (if points[0].id == h.learningPointId then [Joined(e, h, points[0])] else []) + JoinPoint(e, h, points[1..])
  }

  /** The joined rows of one error, over the given history rows. */
  function JoinHistory(e: UserError, hs: seq<LearningHistory>, points: seq<LearningPoint>): (r: seq<Joined>)
    ensures forall j :: j in r <==> j.error == e && j.history in hs && j.point in points && j.point.id == j.history.learningPointId
  {
    if |hs| == 0 then []
    else
      assert hs == [hs[0]] + hs[1..];
      JoinPoint(e, hs[0], points) + JoinHistory(e, hs[1..], points)
  }

  /** The inner join of errors, history rows and learning points. */
  function JoinLedger(errors: seq<UserError>, history: seq<LearningHistory>, points: seq<LearningPoint>): (r: seq<Joined>)
    ensures forall j :: j in r <==> j.error in errors && j.history in history && j.point in points && Links(j)
  {
    if |errors| == 0 then []
    else
      assert errors == [errors[0]] + errors[1..];
      JoinHistory(errors[0], Filter(history, HistoryOfError(errors[0].id)), points) + JoinLedger(errors[1..], history, points)
  }

  function DetailOf(j: Joined): ErrorDetail { Detail(j.error, j.point) }

  /** The distinct detail rows of the caller's errors in a topic. */
  function TopicErrors(db: Db, userId: Id, topicId: Id): (r: seq<ErrorDetail>)
    ensures NoDuplicates(r)
    ensures forall d :: d in r <==> exists e, h, p :: Explains(db, userId, topicId, e, h, p) && d == Detail(e, p)
  {
    var joined := JoinLedger(Filter(db.errors, ErrorInTopic(userId, topicId)), db.history, db.points);
    var rows := Map(joined, DetailOf);
    forall d | d in rows ensures exists e, h, p :: Explains(db, userId, topicId, e, h, p) && d == Detail(e, p) {
      var k :| 0 <= k < |rows| && rows[k] == d;
      var j := joined[k];
      assert j in joined;
      assert Explains(db, userId, topicId, j.error, j.history, j.point);
    }
    forall e, h, p | Explains(db, userId, topicId, e, h, p) ensures Detail(e, p) in rows {
      var j := Joined(e, h, p);
      assert j in joined;
      var k :| 0 <= k < |joined| && joined[k] == j;
      assert rows[k] == Detail(e, p);
    }
    Distinct(rows)
  }

  /** `GET /api/progress/topics/{topic_id}`: 404 unless the caller has an
      error joined to that topic; otherwise the topic's name and error count,
      and the distinct detail rows of its errors. Errors without a history row
      (or whose learning point is missing) have no detail row. */
  function TopicDetailsOf(db: Db, userId: Id, topicId: Id): (r: Result<TopicDetails, HttpError>)
    ensures r.Err? <==> forall k :: k in ErrorTopicKeys(db, userId) ==> k.0 != topicId
    ensures r.Err? ==> r.error == NotFound
    ensures r.Ok? ==>
              && r.value.topicId == topicId
              && (topicId, r.value.topicName) in ErrorTopicKeys(db, userId)
              && r.value.errorCount == multiset(ErrorTopicKeys(db, userId))[(topicId, r.value.topicName)]
              && r.value.errors == TopicErrors(db, userId, topicId)
  {
    var keys := ErrorTopicKeys(db, userId);
    match FindFirst(keys, (k: (Id, string)) => k.0 == topicId)
    case None => Err(NotFound)
    case Some(i) =>
      assert keys[i] in keys;
      Ok(TopicDetails(topicId, keys[i].1, multiset(keys)[keys[i]], TopicErrors(db, userId, topicId)))
  }
}

=== FILE: route_guard.dfy ===
/** The route table and the navigation guard of frontend/src/router/index.js.
    The guard decides, for the route being entered, whether navigation
    proceeds or is redirected. */
module RouteGuard {
  import opened Wrappers

  /** A route record with its `meta` flags (an absent flag is false). */
  datatype RouteRecord = RouteRecord(path: string, name: string, requiresAuth: bool, requiresAdmin: bool)

  const Routes: seq<RouteRecord> := [
    RouteRecord("/", "Dashboard", true, false),
    RouteRecord("/writer/:date?", "Writer", true, false),
    RouteRecord("/login", "Login", false, false),
    RouteRecord("/signup", "Signup", false, false),
    RouteRecord("/learning-hub", "LearningHub", true, false),
    RouteRecord("/learning-hub/topic/:topic_id", "TopicDetail", true, false),
    RouteRecord("/admin", "AdminDashboard", true, true),
    RouteRecord("/admin/student/:id", "AdminStudentDetail", true, true),
    RouteRecord("/admin/student/:studentId/journal/:journalDate", "AdminJournalDetail", true, true)
  ]

  /** The route being entered: its path and the records it matched. */
  datatype Target = Target(path: string, matched: seq<RouteRecord>)

  datatype Decision = Proceed | Redirect(to: string)

  predicate RequiresAuth(matched: seq<RouteRecord>) { exists k :: 0 <= k < |matched| && matched[k].requiresAuth }
  predicate RequiresAdmin(matched: seq<RouteRecord>) { exists k :: 0 <= k < |matched| && matched[k].requiresAdmin }

  /** `isAuthenticated` once the guard's own refresh is done: a stored token
      and a loaded user, the user being fetched first when only the token is
      there. `fetched` is whether that fetch produced a user. */
  function AuthenticatedAfterRefresh(hasToken: bool, hasUser: bool, fetched: bool): (r: bool)
    ensures r <==> hasToken && (hasUser || fetched)
    ensures !hasToken ==> !r
  {
    if hasToken && !hasUser then fetched else hasToken && hasUser
  }

  /** The guard: an anonymous visitor of a protected route goes to the login
      page (checked first); a non-administrator on an administrator route
      goes to the dashboard; a signed-in visitor of the login page goes to the
      dashboard; everything else proceeds. */
  function Guard(to: Target, isAuthenticated: bool, isAdmin: bool): (r: Decision)
    ensures r == Redirect("/login") <==> RequiresAuth(to.matched) && !isAuthenticated
    ensures r == Redirect("/") <==>
              !(RequiresAuth(to.matched) && !isAuthenticated)
              && ((RequiresAdmin(to.matched) && !isAdmin) || (to.path == "/login" && isAuthenticated))
    ensures r == Proceed <==>
              (!RequiresAuth(to.matched) || isAuthenticated) && (!RequiresAdmin(to.matched) || isAdmin)
              && !(to.path == "/login" && isAuthenticated)
  {
    if RequiresAuth(to.matched) && !isAuthenticated then Redirect("/login")
    else if RequiresAdmin(to.matched) && !isAdmin then Redirect("/")
    else if to.path == "/login" && isAuthenticated then Redirect("/")
    else Proceed
  }

  /** Every administrator route is also a protected route. */
  lemma AdminRoutesRequireAuth()
    ensures forall k :: 0 <= k < |Routes| && Routes[k].requiresAdmin ==> Routes[k].requiresAuth
  {
  }

  /** On the route table, navigation into an administrator route proceeds
      only for a signed-in administrator, and an anonymous visitor of one is
      sent to the login page, not to the dashboard. */
  lemma AdminRoutesGuarded(to: Target, isAuthenticated: bool, isAdmin: bool)
    requires forall k :: 0 <= k < |to.matched| ==> to.matched[k] in Routes
    requires RequiresAdmin(to.matched)
    ensures Guard(to, isAuthenticated, isAdmin) == Proceed ==> isAuthenticated && isAdmin
    ensures !isAuthenticated ==> Guard(to, isAuthenticated, isAdmin) == Redirect("/login")
  {
    AdminRoutesRequireAuth();
    var k :| 0 <= k < |to.matched| && to.matched[k].requiresAdmin;
    var j :| 0 <= j < |Routes| && Routes[j] == to.matched[k];
    assert to.matched[k].requiresAuth;
  }

  /** A visitor who proceeds satisfies every flag of every matched record. */
  lemma ProceedSatisfiesEveryRecord(to: Target, isAuthenticated: bool, isAdmin: bool, k: nat)
    requires Guard(to, isAuthenticated, isAdmin) == Proceed
    requires k < |to.matched|
    ensures to.matched[k].requiresAuth ==> isAuthenticated
    ensures to.matched[k].requiresAdmin ==> isAdmin
  {
  }

  /** The shipped auth store defines no `isAdmin` getter, so the guard reads
      `undefined`, which is falsy. */
  function GuardAsShipped(to: Target, isAuthenticated: bool): (r: Decision)
    ensures RequiresAdmin(to.matched) ==> r != Proceed
  {
    Guard(to, isAuthenticated, false)
  }

  /** As shipped, no visitor can enter the administrator dashboard, while with
      a getter reporting the user's administrator flag a signed-in
      administrator can. */
  lemma AdminDashboardUnreachableAsShipped(isAuthenticated: bool)
    ensures GuardAsShipped(Target("/admin", [Routes[6]]), isAuthenticated) != Proceed
    ensures Guard(Target("/admin", [Routes[6]]), true, true) == Proceed
  {
    assert RequiresAdmin([Routes[6]]) by { assert [Routes[6]][0].requiresAdmin; }
    assert RequiresAuth([Routes[6]]) by { assert [Routes[6]][0].requiresAuth; }
  }
}

=== FILE: schemas.dfy ===
/** Request and response schemas of backend/app/schemas.py: the field
    validators applied to request bodies and the projections used to build
    responses. */
module Schemas {
  import opened Wrappers
  import opened JsonValues
  import opened Models

  /** `AIFeedbackRequest.text`: at least ten characters. */
  const FeedbackTextMinLength: nat := 10
  /** `AIChatRequest.message`: at least one character. */
  const ChatMessageMinLength: nat := 1

  predicate ValidFeedbackRequest(text: string) {
    |text| >= FeedbackTextMinLength
  }

  predicate ValidChatRequest(message: string) {
    |message| >= ChatMessageMinLength
  }

  /** One item of AI feedback (`AIFeedbackItem`). */
  datatype FeedbackItem = FeedbackItem(errorType: string, incorrectPhrase: string, suggestion: string, explanation: string)

  /** The string stored under `key`, if the object has one. */
  function StringField(fields: map<string, Json>, key: string): (r: Option<string>)
    ensures r.Some? <==> key in fields && fields[key].JStr?
    ensures r.Some? ==> fields[key] == JStr(r.value)
  {
    if key in fields && fields[key].JStr? then Some(fields[key].s) else None
  }

  /** `AIFeedbackItem(**item)`: an object with the four required string
      fields; any other key is ignored. */
  function ParseFeedbackItem(j: Json): (r: Option<FeedbackItem>)
    ensures r.Some? <==> j.JObj? && (forall k :: k in ["error_type", "incorrect_phrase", "suggestion", "explanation"] ==>
                                        k in j.fields && j.fields[k].JStr?)
    ensures r.Some? ==>
              && j.fields["error_type"] == JStr(r.value.errorType)
              && j.fields["incorrect_phrase"] == JStr(r.value.incorrectPhrase)
              && j.fields["suggestion"] == JStr(r.value.suggestion)
              && j.fields["explanation"] == JStr(r.value.explanation)
  {
    if !j.JObj? then None
    else
      var t := StringField(j.fields, "error_type");
      var p := StringField(j.fields, "incorrect_phrase");
      var s := StringField(j.fields, "suggestion");
      var e := StringField(j.fields, "explanation");
      if t.Some? && p.Some? && s.Some? && e.Some? then Some(FeedbackItem(t.value, p.value, s.value, e.value))
      else None
  }

  /** Feedback rendered back to the JSON shape it was parsed from; parsing it gives the item back. */
  function FeedbackItemJson(item: FeedbackItem): Json {
    JObj(map["error_type" := JStr(item.errorType), "incorrect_phrase" := JStr(item.incorrectPhrase),
             "suggestion" := JStr(item.suggestion), "explanation" := JStr(item.explanation)])
  }

  lemma FeedbackItemRoundTrip(item: FeedbackItem)
    ensures ParseFeedbackItem(FeedbackItemJson(item)) == Some(item)
  {
  }

  /** `JournalCreate` / `JournalUpdate`: a body with a string `content`. */
  function ParseJournalBody(body: Json): (r: Option<string>)
    ensures r.Some? <==> body.JObj? && "content" in body.fields && body.fields["content"].JStr?
  {
    if body.JObj? then StringField(body.fields, "content") else None
  }

  /** `UserOut`: what the API returns for a user. It has no password field. */
  datatype UserOut = UserOut(id: Id, email: string, username: string, createdAt: Timestamp)

  function ToUserOut(u: User): (r: UserOut)
    ensures r.id == u.id && r.email == u.email && r.username == u.username && r.createdAt == u.createdAt
  {
    UserOut(u.id, u.email, u.username, u.createdAt)
  }

  /** The returned user does not depend on the stored password hash. */
  lemma UserOutHidesPassword(u: User, hash: string)
    ensures ToUserOut(u) == ToUserOut(u.(hashedPassword := hash))
  {
  }

  /** `JournalOut`: a journal as returned; `title` may be absent (None). */
  datatype JournalOut = JournalOut(
    id: Id,
    userId: Id,
    journalDate: Day,
    content: string,
    title: Option<string>,
    createdAt: Timestamp,
    updatedAt: Timestamp)

  function ToJournalOut(j: Journal): (r: JournalOut)
    ensures r.id == j.id && r.userId == j.userId && r.journalDate == j.journalDate
    ensures r.content == j.content && r.title == j.title
  {
    JournalOut(j.id, j.userId, j.journalDate, j.content, j.title, j.createdAt, j.updatedAt)
  }
}

=== FILE: seqs.dfy ===
/** Sequence helpers used by the query models: first match, filter, count,
    distinct elements. These stand for SQL `.first()`, `WHERE`, `count()`
    and `DISTINCT` over tables kept in insertion order. */
module Seqs {
  import opened Wrappers

  /** Index of the first element satisfying `p`, if any. */
  function FindFirst<T>(xs: seq<T>, p: T -> bool): (r: Option<nat>)
    ensures r.Some? ==> r.value < |xs| && p(xs[r.value])
    ensures r.Some? ==> forall j :: 0 <= j < r.value ==> !p(xs[j])
    ensures r.None? ==> forall j :: 0 <= j < |xs| ==> !p(xs[j])
  {
    if |xs| == 0 then None
    else if p(xs[0]) then Some(0)
    else match FindFirst(xs[1..], p)
      case None => None
      case Some(i) => Some(i + 1)
  }

  /** The elements satisfying `p`, in their original order. */
  function Filter<T(!new)>(xs: seq<T>, p: T -> bool): (r: seq<T>)
    ensures |r| <= |xs|
    ensures forall x :: x in r <==> x in xs && p(x)
    ensures forall x :: multiset(r)[x] == (if p(x) then multiset(xs)[x] else 0)
  {
    if |xs| == 0 then []
    else
      assert xs == [xs[0]] + xs[1..];
      if p(xs[0]) then [xs[0]] + Filter(xs[1..], p) else Filter(xs[1..], p)
  }

  /** Filtering distributes over concatenation, so it keeps relative order. */
  lemma {:induction false} FilterAppend<T(!new)>(xs: seq<T>, ys: seq<T>, p: T -> bool)
    ensures Filter(xs + ys, p) == Filter(xs, p) + Filter(ys, p)
  {
    if |xs| == 0 {
      assert xs + ys == ys;
    } else {
      assert (xs + ys)[1..] == xs[1..] + ys;
      FilterAppend(xs[1..], ys, p);
    }
  }

  /** Filtering keeps everything when every element satisfies `p`. */
  lemma {:induction false} FilterAll<T(!new)>(xs: seq<T>, p: T -> bool)
    requires forall k :: 0 <= k < |xs| ==> p(xs[k])
    ensures Filter(xs, p) == xs
  {
    if |xs| > 0 {
      FilterAll(xs[1..], p);
    }
  }

  /** Filtering keeps nothing when no element satisfies `p`. */
  lemma {:induction false} FilterNone<T(!new)>(xs: seq<T>, p: T -> bool)
    requires forall k :: 0 <= k < |xs| ==> !p(xs[k])
    ensures Filter(xs, p) == []
  {
    if |xs| > 0 {
      FilterNone(xs[1..], p);
    }
  }

  /** Number of elements satisfying `p`. */
  function Count<T>(xs: seq<T>, p: T -> bool): (n: nat)
    ensures n <= |xs|
    ensures n == 0 <==> forall j :: 0 <= j < |xs| ==> !p(xs[j])
  {
    if |xs| == 0 then 0
    else (if p(xs[0]) then 1 else 0) + Count(xs[1..], p)
  }

  /** Counting agrees with the length of the filtered sequence. */
  lemma {:induction false} CountIsFilterLength<T(!new)>(xs: seq<T>, p: T -> bool)
    ensures Count(xs, p) == |Filter(xs, p)|
  {
    if |xs| > 0 {
      CountIsFilterLength(xs[1..], p);
    }
  }

  /** True iff no element occurs twice. */
  predicate NoDuplicates<T(==)>(xs: seq<T>) {
    forall i, j :: 0 <= i < j < |xs| ==> xs[i] != xs[j]
  }

  /** The distinct elements of `xs`, each at its first occurrence. */
  function Distinct<T(==,!new)>(xs: seq<T>): (r: seq<T>)
    ensures NoDuplicates(r)
    ensures forall x :: x in r <==> x in xs
    ensures |r| <= |xs|
  {
    DistinctFrom(xs, [])
  }

  /** `seen` followed by the elements of `xs` not yet seen, first occurrences kept. */
  function DistinctFrom<T(==,!new)>(xs: seq<T>, seen: seq<T>): (r: seq<T>)
    requires NoDuplicates(seen)
    ensures NoDuplicates(r)
    ensures forall x :: x in r <==> x in xs || x in seen
    ensures |r| <= |xs| + |seen|
  {
    if |xs| == 0 then seen
    else if xs[0] in seen then DistinctFrom(xs[1..], seen)
    else DistinctFrom(xs[1..], seen + [xs[0]])
  }

  /** The elements of a sequence, as a set. */
  function Elements<T>(xs: seq<T>): set<T> {
    set x | x in xs
  }

  /** A duplicate-free sequence has as many elements as its set. */
  lemma {:induction false} DistinctCardinality<T>(xs: seq<T>)
    requires NoDuplicates(xs)
    ensures |Elements(xs)| == |xs|
  {
    if |xs| > 0 {
      var tail := xs[1..];
      DistinctCardinality(tail);
      assert xs[0] !in tail by {
        forall j | 0 <= j < |tail| ensures tail[j] != xs[0] {
          assert tail[j] == xs[j + 1];
        }
      }
      assert Elements(xs) == Elements(tail) + {xs[0]};
    }
  }

  /** `f` applied to every element, in order. */
  function Map<A, B>(xs: seq<A>, f: A -> B): (r: seq<B>)
    ensures |r| == |xs|
    ensures forall k :: 0 <= k < |xs| ==> r[k] == f(xs[k])
  {
    if |xs| == 0 then [] else [f(xs[0])] + Map(xs[1..], f)
  }

  /** Mapping with a function that is injective on `domain` keeps the
      multiplicity of every element of `domain`. */
  lemma {:induction false} MapKeepsMultiplicity<A, B>(xs: seq<A>, f: A -> B, domain: set<A>, x: A)
    requires x in domain && forall y :: y in xs ==> y in domain
    requires forall a, b :: a in domain && b in domain && f(a) == f(b) ==> a == b
    ensures multiset(Map(xs, f))[f(x)] == multiset(xs)[x]
  {
    if |xs| > 0 {
      assert xs == [xs[0]] + xs[1..];
      assert Map(xs, f) == [f(xs[0])] + Map(xs[1..], f);
      assert xs[0] in domain;
      MapKeepsMultiplicity(xs[1..], f, domain, x);
    }
  }
}

=== FILE: sorting.dfy ===
/** Sorting for the `ORDER BY` clauses of the queries and for Python's
    `sorted()`. Ties are left in an unspecified order, as SQL leaves them. */
module Sorting {

  /** `le` is total and transitive, so it orders any sequence. */
  ghost predicate TotalPreorder<T(!new)>(le: (T, T) -> bool) {
    && (forall a, b :: le(a, b) || le(b, a))
    && (forall a, b, c :: le(a, b) && le(b, c) ==> le(a, c))
  }

  predicate SortedBy<T>(xs: seq<T>, le: (T, T) -> bool) {
    forall i, j :: 0 <= i < j < |xs| ==> le(xs[i], xs[j])
  }

  /** Insert `x` into a sorted sequence, before the first element it precedes. */
  function Insert<T(!new)>(x: T, xs: seq<T>, le: (T, T) -> bool): (r: seq<T>)
    requires TotalPreorder(le)
    requires SortedBy(xs, le)
    ensures SortedBy(r, le)
    ensures multiset(r) == multiset(xs) + multiset{x}
    ensures |r| == |xs| + 1
  {
    if |xs| == 0 then [x]
    else if le(x, xs[0]) then [x] + xs
    else
      var rest := Insert(x, xs[1..], le);
      assert xs == [xs[0]] + xs[1..];
      assert forall k :: 0 <= k < |rest| ==> le(xs[0], rest[k]) by {
        forall k | 0 <= k < |rest|
          ensures le(xs[0], rest[k])
        {
          assert rest[k] in multiset(rest);
          if rest[k] != x {
            assert rest[k] in multiset(xs[1..]);
            var m :| 0 <= m < |xs[1..]| && xs[1..][m] == rest[k];
            assert xs[m + 1] == rest[k];
          }
        }
      }
      [xs[0]] + rest
  }

  /** Insertion sort: a sorted permutation of `xs`. */
  function Sort<T(!new)>(xs: seq<T>, le: (T, T) -> bool): (r: seq<T>)
    requires TotalPreorder(le)
    ensures SortedBy(r, le)
    ensures multiset(r) == multiset(xs)
    ensures |r| == |xs|
  {
    if |xs| == 0 then []
    else
      assert xs == [xs[0]] + xs[1..];
      Insert(xs[0], Sort(xs[1..], le), le)
  }

  /** Larger keys first (`ORDER BY key DESC`). */
  function Descending<T>(key: T -> int): (T, T) -> bool {
    (a: T, b: T) => key(a) >= key(b)
  }

  /** Smaller keys first (`ORDER BY key`). */
  function Ascending<T>(key: T -> int): (T, T) -> bool {
    (a: T, b: T) => key(a) <= key(b)
  }

  lemma DescendingIsTotal<T(!new)>(key: T -> int)
    ensures TotalPreorder(Descending(key))
  {
  }

  lemma AscendingIsTotal<T(!new)>(key: T -> int)
    ensures TotalPreorder(Ascending(key))
  {
  }

  /** Sort by `key`, largest first. */
  function SortDescending<T(!new)>(xs: seq<T>, key: T -> int): (r: seq<T>)
    ensures forall i, j :: 0 <= i < j < |r| ==> key(r[i]) >= key(r[j])
    ensures multiset(r) == multiset(xs)
    ensures |r| == |xs|
  {
    DescendingIsTotal(key);
    Sort(xs, Descending(key))
  }

  /** Sort by `key`, smallest first. */
  function SortAscending<T(!new)>(xs: seq<T>, key: T -> int): (r: seq<T>)
    ensures forall i, j :: 0 <= i < j < |r| ==> key(r[i]) <= key(r[j])
    ensures multiset(r) == multiset(xs)
    ensures |r| == |xs|
  {
    AscendingIsTotal(key);
    Sort(xs, Ascending(key))
  }

  /** Sorting keeps exactly the elements it was given. */
  lemma SortedMembers<T>(xs: seq<T>, r: seq<T>)
    requires multiset(r) == multiset(xs)
    ensures forall x :: x in r <==> x in xs
  {
    forall x ensures x in r <==> x in xs {
      assert x in r <==> x in multiset(r);
      assert x in xs <==> x in multiset(xs);
    }
  }
}

=== FILE: text.dfy ===
/** String operations the source relies on: Python's `str.strip`,
    `str.replace(pat, "")`, `str.endswith`, `str.join`, and decimal
    formatting of a natural number. */
module Text {
  import opened Wrappers

  /** Whitespace as stripped by `str.strip()` and matched by the regex `\s`,
      restricted to ASCII: space, tab, line feed, vertical tab, form feed,
      carriage return and the separators 0x1C-0x1F. */
  predicate IsSpace(c: char) {
    c == ' ' || c == '\t' || c == '\n' || c == '\r' || c == '\U{000B}' || c == '\U{000C}'
    || c == '\U{001C}' || c == '\U{001D}' || c == '\U{001E}' || c == '\U{001F}'
  }

  predicate StartsWith(s: string, p: string) {
    |p| <= |s| && s[..|p|] == p
  }

  predicate EndsWith(s: string, p: string) {
    |p| <= |s| && s[|s| - |p|..] == p
  }

  /** `p` occurs in `s` starting at index `i`. */
  predicate OccursAt(s: string, p: string, i: int) {
    0 <= i && i + |p| <= |s| && s[i..i + |p|] == p
  }

  /** Python's `p in s` for strings. */
  predicate Contains(s: string, p: string) {
    exists i | 0 <= i <= |s| :: OccursAt(s, p, i)
  }

  /** `s.find(p, from)`: the first index at or after `from` where `p` occurs. */
  function IndexOf(s: string, p: string, from: nat): (r: Option<nat>)
    ensures r.Some? ==> from <= r.value && OccursAt(s, p, r.value)
    ensures r.Some? ==> forall j :: from <= j < r.value ==> !OccursAt(s, p, j)
    ensures r.None? ==> forall j :: from <= j ==> !OccursAt(s, p, j)
    decreases |s| - from
  {
    if from + |p| > |s| then None
    else if OccursAt(s, p, from) then Some(from)
    else IndexOf(s, p, from + 1)
  }

  /** A slice of a string that does not contain `p` does not contain `p`. */
  lemma SliceAvoids(s: string, p: string, lo: nat, hi: nat)
    requires lo <= hi <= |s|
    requires !Contains(s, p)
    ensures !Contains(s[lo..hi], p)
  {
    var t := s[lo..hi];
    if Contains(t, p) {
      var i :| 0 <= i <= |t| && OccursAt(t, p, i);
      assert forall j :: 0 <= j < |t| ==> t[j] == s[lo + j];
      assert t[i..i + |p|] == s[lo + i..lo + i + |p|];
      assert OccursAt(s, p, lo + i);
    }
  }

  /** A window of `s` in which `p` never starts does not contain `p`. */
  lemma WindowAvoids(s: string, p: string, lo: nat, hi: nat)
    requires |p| > 0 && lo <= hi <= |s|
    requires forall j :: lo <= j < hi ==> !OccursAt(s, p, j)
    ensures !Contains(s[lo..hi], p)
  {
    var t := s[lo..hi];
    if Contains(t, p) {
      var i :| 0 <= i <= |t| && OccursAt(t, p, i);
      assert forall j :: 0 <= j < |t| ==> t[j] == s[lo + j];
      assert t[i..i + |p|] == s[lo + i..lo + i + |p|];
      assert OccursAt(s, p, lo + i);
    }
  }

  /** The first index at or after `lo` that is not whitespace, or `|s|`. */
  function SpanStart(s: string, lo: nat): (k: nat)
    requires lo <= |s|
    ensures lo <= k <= |s| && (k == |s| || !IsSpace(s[k]))
    ensures forall i :: lo <= i < k ==> IsSpace(s[i])
    decreases |s| - lo
  {
    if lo < |s| && IsSpace(s[lo]) then SpanStart(s, lo + 1) else lo
  }

  /** The end of `s[lo..hi]` once its trailing whitespace is cut. */
  function SpanEnd(s: string, lo: nat, hi: nat): (k: nat)
    requires lo <= hi <= |s|
    ensures lo <= k <= hi && (k == lo || !IsSpace(s[k - 1]))
    ensures forall i :: k <= i < hi ==> IsSpace(s[i])
  {
    if lo < hi && IsSpace(s[hi - 1]) then SpanEnd(s, lo, hi - 1) else hi
  }

  /** `str.rstrip()`: drop trailing whitespace. */
  function RStrip(s: string): (r: string)
    ensures |r| <= |s| && r == s[..|r|]
    ensures r == [] || !IsSpace(r[|r| - 1])
    ensures forall i :: |r| <= i < |s| ==> IsSpace(s[i])
  {
    s[..SpanEnd(s, 0, |s|)]
  }

  /** `s[lo..hi]` is `s` with whitespace cut from both ends. */
  predicate TrimmedAt(s: string, lo: int, hi: int) {
    0 <= lo <= hi <= |s|
    && (forall i :: 0 <= i < lo ==> IsSpace(s[i]))
    && (forall i :: hi <= i < |s| ==> IsSpace(s[i]))
  }

  /** `str.strip()`: the longest slice without whitespace at either end. */
  function Strip(s: string): (r: string)
    ensures exists lo, hi :: TrimmedAt(s, lo, hi) && r == s[lo..hi]
    ensures r == [] || (!IsSpace(r[0]) && !IsSpace(r[|r| - 1]))
  {
    var lo := SpanStart(s, 0);
    var hi := SpanEnd(s, lo, |s|);
    assert TrimmedAt(s, lo, hi);
    s[lo..hi]
  }

  /** Any cut of `s` that removes only whitespace and keeps no whitespace at
      its ends is the one `str.strip()` makes. */
  lemma StripUnique(s: string, lo: nat, hi: nat)
    requires TrimmedAt(s, lo, hi)
    requires lo == hi || (!IsSpace(s[lo]) && !IsSpace(s[hi - 1]))
    ensures Strip(s) == s[lo..hi]
  {
    var a := SpanStart(s, 0);
    if lo == hi {
      assert forall i :: 0 <= i < |s| ==> IsSpace(s[i]);
      assert a == |s|;
    } else {
      assert a == lo;
      var b := SpanEnd(s, a, |s|);
      assert b == hi;
    }
  }

  /** `k` is where `p` first occurs at or after `from`. */
  predicate FirstAt(s: string, p: string, from: int, k: int) {
    from <= k && OccursAt(s, p, k) && forall j :: from <= j < k ==> !OccursAt(s, p, j)
  }

  /** `s.replace(pat, "")`: delete the non-overlapping occurrences of `pat`
      found by a left-to-right scan. */
  function RemoveAll(s: string, pat: string): (r: string)
    requires |pat| > 0
    ensures |r| <= |s|
    decreases |s|
  {
    if |s| == 0 then ""
    else if StartsWith(s, pat) then RemoveAll(s[|pat|..], pat)
    else [s[0]] + RemoveAll(s[1..], pat)
  }

  /** Removing a pattern that does not occur changes nothing. */
  lemma {:induction false} RemoveAbsent(s: string, pat: string)
    requires |pat| > 0
    requires !Contains(s, pat)
    ensures RemoveAll(s, pat) == s
  {
    if |s| > 0 {
      assert !OccursAt(s, pat, 0);
      SliceAvoids(s, pat, 1, |s|);
      assert s[1..|s|] == s[1..];
      RemoveAbsent(s[1..], pat);
    }
  }

  const Fence: string := "```"
  const JsonFence: string := "```json"

  /** An occurrence of `p` in `[c] + t` away from the front is an occurrence in `t`. */
  lemma ConsOccurrence(c: char, t: string, p: string, i: int)
    requires OccursAt([c] + t, p, i) && i >= 1
    ensures OccursAt(t, p, i - 1)
  {
    assert ([c] + t)[i..i + |p|] == t[i - 1..i - 1 + |p|];
  }

  /** Deleting a fence from a string that does not start with one keeps its first character. */
  lemma KeepsFirst(t: string)
    requires |t| > 0 && !StartsWith(t, Fence)
    ensures RemoveAll(t, Fence) == [t[0]] + RemoveAll(t[1..], Fence)
  {
  }

  /** After deleting every fence left to right, no fence remains: each run of
      backticks shrinks to fewer than three, and runs stay separated. */
  lemma {:induction false} NoFenceAfterRemoval(s: string)
    ensures !Contains(RemoveAll(s, Fence), Fence)
    decreases |s|
  {
    if |s| == 0 {
      assert RemoveAll(s, Fence) == "";
    } else if StartsWith(s, Fence) {
      NoFenceAfterRemoval(s[3..]);
    } else {
      var t := s[1..];
      var tr := RemoveAll(t, Fence);
      NoFenceAfterRemoval(t);
      var r := RemoveAll(s, Fence);
      assert r == [s[0]] + tr;
      // Nothing in `tr` can join with `s[0]` into a fence.
      if s[0] == '`' && |t| >= 1 {
        KeepsFirst(t);
        if t[0] == '`' && |t| >= 2 {
          assert t[1] != '`';
          KeepsFirst(t[1..]);
        }
      }
      assert !OccursAt(r, Fence, 0) by {
        if |r| >= 3 {
          assert r[1] == tr[0] && r[2] == tr[1];
        }
      }
      if Contains(r, Fence) {
        var i :| 0 <= i <= |r| && OccursAt(r, Fence, i);
        ConsOccurrence(s[0], tr, Fence, i);
      }
    }
  }

  /** The clean-up applied to model replies before `json.loads`:
      `text.strip().replace("```json", "").replace("```", "").strip()`. */
  function CleanFences(s: string): (r: string)
    ensures !Contains(r, Fence)
    ensures r == [] || (!IsSpace(r[0]) && !IsSpace(r[|r| - 1]))
    ensures !Contains(s, Fence) ==> r == Strip(s)
  {
    var removed := RemoveAll(RemoveAll(Strip(s), JsonFence), Fence);
    NoFenceAfterRemoval(RemoveAll(Strip(s), JsonFence));
    var r := Strip(removed);
    var lo, hi :| 0 <= lo <= hi <= |removed| && r == removed[lo..hi];
    SliceAvoids(removed, Fence, lo, hi);
    assert !Contains(s, Fence) ==> r == Strip(s) by {
      if !Contains(s, Fence) {
        FenceFreeUntouched(s);
      }
    }
    r
  }

  /** A reply without fences only loses its surrounding whitespace. */
  lemma FenceFreeUntouched(s: string)
    requires !Contains(s, Fence)
    ensures Strip(RemoveAll(RemoveAll(Strip(s), JsonFence), Fence)) == Strip(s)
  {
    var t := Strip(s);
    var lo, hi :| 0 <= lo <= hi <= |s| && t == s[lo..hi];
    SliceAvoids(s, Fence, lo, hi);
    NoJsonFenceWithoutFence(t);
    RemoveAbsent(t, JsonFence);
    RemoveAbsent(t, Fence);
    StripTrimmed(t);
  }

  /** Every opening JSON fence starts with a fence. */
  lemma NoJsonFenceWithoutFence(s: string)
    requires !Contains(s, Fence)
    ensures !Contains(s, JsonFence)
  {
    if Contains(s, JsonFence) {
      var i :| 0 <= i <= |s| && OccursAt(s, JsonFence, i);
      assert s[i..i + 3] == s[i..i + 7][..3];
      assert OccursAt(s, Fence, i);
    }
  }

  /** Stripping a string with no whitespace at either end changes nothing. */
  lemma StripTrimmed(t: string)
    requires t == [] || (!IsSpace(t[0]) && !IsSpace(t[|t| - 1]))
    ensures Strip(t) == t
  {
    assert SpanStart(t, 0) == 0;
    assert SpanEnd(t, 0, |t|) == |t|;
    assert t[0..|t|] == t;
  }

  /** Deleting `pat` from `x + y` keeps `x` when no occurrence starts inside `x`. */
  lemma {:induction false} RemoveKeepsPrefix(x: string, y: string, pat: string)
    requires |pat| > 0
    requires forall i :: 0 <= i < |x| ==> !OccursAt(x + y, pat, i)
    ensures RemoveAll(x + y, pat) == x + RemoveAll(y, pat)
  {
    if |x| == 0 {
      assert x + y == y;
    } else {
      var s := x + y;
      assert !OccursAt(s, pat, 0);
      assert s[1..] == x[1..] + y;
      forall i | 0 <= i < |x[1..]| ensures !OccursAt(x[1..] + y, pat, i) {
        if OccursAt(x[1..] + y, pat, i) {
          assert s[i + 1..i + 1 + |pat|] == (x[1..] + y)[i..i + |pat|];
          assert OccursAt(s, pat, i + 1);
        }
      }
      RemoveKeepsPrefix(x[1..], y, pat);
      assert [s[0]] + (x[1..] + RemoveAll(y, pat)) == x + RemoveAll(y, pat);
    }
  }

  /** A body wrapped in a JSON fence comes back, whitespace-stripped, from
      the clean-up, provided it holds no fence and does not end in a backtick. */
  lemma CleanFencesUnwraps(body: string)
    requires !Contains(body, Fence)
    requires body == [] || body[|body| - 1] != '`'
    ensures CleanFences(JsonFence + body + Fence) == Strip(body)
  {
    var s := JsonFence + body + Fence;
    StripTrimmed(s);
    OpeningFenceRemoved(body);
    ClosingFenceRemoved(body);
  }

  lemma OpeningFenceRemoved(body: string)
    requires !Contains(body, Fence)
    requires body == [] || body[|body| - 1] != '`'
    ensures RemoveAll(JsonFence + body + Fence, JsonFence) == body + Fence
  {
    var rest := body + Fence;
    assert JsonFence + body + Fence == JsonFence + rest;
    JsonFenceOpensWithFence();
    NoStraddle(body, JsonFence);
    assert NoOccurrence(rest, JsonFence);
    LeadingPatternOnly(JsonFence, rest);
  }

  /** `pat` occurs nowhere in `s`. */
  predicate NoOccurrence(s: string, pat: string) {
    forall i :: 0 <= i < |s| ==> !OccursAt(s, pat, i)
  }

  /** Removing a pattern that matches at no index changes nothing. */
  lemma {:induction false} RemoveUnmatched(s: string, pat: string)
    requires |pat| > 0 && NoOccurrence(s, pat)
    ensures RemoveAll(s, pat) == s
    decreases |s|
  {
    if |s| > 0 {
      assert !OccursAt(s, pat, 0);
      forall i | 0 <= i < |s| - 1 ensures !OccursAt(s[1..], pat, i) {
        assert !OccursAt(s, pat, i + 1);
        assert i + |pat| <= |s| - 1 ==> s[1..][i..i + |pat|] == s[i + 1..i + 1 + |pat|];
      }
      RemoveUnmatched(s[1..], pat);
      assert [s[0]] + s[1..] == s;
    }
  }

  /** A single leading copy of the pattern is all that is removed. */
  lemma LeadingPatternOnly(pat: string, rest: string)
    requires |pat| > 0 && NoOccurrence(rest, pat)
    ensures RemoveAll(pat + rest, pat) == rest
  {
    DropLeadingPattern(pat, rest);
    RemoveUnmatched(rest, pat);
  }

  lemma JsonFenceOpensWithFence()
    ensures |JsonFence| >= 3 && JsonFence[..3] == Fence
  {
  }

  /** An occurrence of the pattern at the front is deleted. */
  lemma DropLeadingPattern(pat: string, rest: string)
    requires |pat| > 0
    ensures RemoveAll(pat + rest, pat) == RemoveAll(rest, pat)
  {
    var s := pat + rest;
    assert s[..|pat|] == pat && s[|pat|..] == rest;
  }

  /** A string shorter than the pattern is left as it is. */
  lemma {:induction false} ShortUntouched(s: string, pat: string)
    requires 0 < |s| < |pat|
    ensures RemoveAll(s, pat) == s
    decreases |s|
  {
    if |s| > 1 {
      ShortUntouched(s[1..], pat);
    }
  }

  lemma ClosingFenceRemoved(body: string)
    requires !Contains(body, Fence)
    requires body == [] || body[|body| - 1] != '`'
    ensures RemoveAll(body + Fence, Fence) == body
  {
    NoStraddle(body, Fence);
    RemoveKeepsPrefix(body, Fence, Fence);
    assert RemoveAll(Fence[3..], Fence) == "";
    assert body + "" == body;
  }

  /** A window of three characters holding a non-backtick is not a fence. */
  lemma TickFreeWindow(s: string, i: nat, j: nat)
    requires i <= j < i + 3 <= |s| && s[j] != '`'
    ensures s[i..i + 3] != Fence
  {
    assert s[i..i + 3][j - i] == s[j];
  }

  /** A backtick pattern cannot start inside `body` and run into a closing
      fence when `body` holds no fence and does not end in a backtick. */
  lemma NoStraddle(body: string, pat: string)
    requires |pat| >= 3 && pat[..3] == Fence
    requires !Contains(body, Fence)
    requires body == [] || body[|body| - 1] != '`'
    ensures forall i :: 0 <= i < |body| ==> !OccursAt(body + Fence, pat, i)
  {
    var s := body + Fence;
    forall i | 0 <= i < |body| ensures !OccursAt(s, pat, i) {
      if i + 3 <= |body| {
        assert s[i..i + 3] == body[i..i + 3];
        assert !OccursAt(body, Fence, i);
      } else {
        TickFreeWindow(s, i, |body| - 1);
      }
      assert i + |pat| <= |s| ==> s[i..i + |pat|][..3] == s[i..i + 3];
    }
  }

  /** Python's `sep.join(parts)`. */
  function Join(parts: seq<string>, sep: string): (r: string)
    ensures |parts| == 0 ==> r == ""
    ensures |parts| == 1 ==> r == parts[0]
  {
    if |parts| == 0 then ""
    else if |parts| == 1 then parts[0]
    else parts[0] + sep + Join(parts[1..], sep)
  }

  /** Joining one more part appends the separator and the part. */
  lemma {:induction false} JoinSnoc(parts: seq<string>, x: string, sep: string)
    requires |parts| >= 1
    ensures Join(parts + [x], sep) == Join(parts, sep) + sep + x
  {
    if |parts| == 1 {
      assert (parts + [x])[1..] == [x];
    } else {
      assert (parts + [x])[1..] == parts[1..] + [x];
      JoinSnoc(parts[1..], x, sep);
    }
  }

  predicate IsDigit(c: char) {
    '0' <= c <= '9'
  }

  /** Decimal digits of `n` with no leading zero, as `str(n)` prints it. */
  function NatToString(n: nat): (r: string)
    ensures |r| >= 1
    ensures forall i :: 0 <= i < |r| ==> IsDigit(r[i])
    ensures |r| > 1 ==> r[0] != '0'
  {
    var d := ['0', '1', '2', '3', '4', '5', '6', '7', '8', '9'][n % 10];
    if n < 10 then [d] else NatToString(n / 10) + [d]
  }

  /** The value of a string of decimal digits. */
  function DigitsValue(s: string): nat
    requires forall i :: 0 <= i < |s| ==> IsDigit(s[i])
  {
    if |s| == 0 then 0
    else
      assert IsDigit(s[|s| - 1]);
      10 * DigitsValue(s[..|s| - 1]) + (s[|s| - 1] as int - '0' as int)
  }

  /** Reading the printed digits back gives the number: the formatting loses nothing. */
  lemma {:induction false} NatToStringRoundTrip(n: nat)
    ensures DigitsValue(NatToString(n)) == n
  {
    var r := NatToString(n);
    var d := ['0', '1', '2', '3', '4', '5', '6', '7', '8', '9'][n % 10];
    assert d as int - '0' as int == n % 10;
    if n >= 10 {
      NatToStringRoundTrip(n / 10);
      assert r == NatToString(n / 10) + [d];
      assert r[..|r| - 1] == NatToString(n / 10);
      assert DigitsValue(r) == 10 * (n / 10) + n % 10;
    }
  }
}

=== FILE: wrappers.dfy ===
/** Failure-compatible datatypes shared by the whole model: optional values,
    results, and the HTTP errors the routers raise. */
module Wrappers {

  /** A value that may be absent (Python's `None`, JavaScript's `null`/`undefined`). */
  datatype Option<+T> = None | Some(value: T) {

    /** The wrapped value, or `default` when absent. */
    function GetOr(default: T): T {
      match this
      case Some(v) => v
      case None => default
    }
  }

  /** Either a successful value or an error. */
  datatype Result<+T, +E> = Ok(value: T) | Err(error: E) {

    predicate IsFailure() {
      Err?
    }

    function PropagateFailure<U>(): Result<U, E>
      requires Err?
    {
      Err(error)
    }

    function Extract(): T
      requires Ok?
    {
      value
    }
  }

  /** A call into a collaborator that either returns a value or raises. */
  datatype Outcome<+T> = Returned(value: T) | Raised

  /** The `HTTPException`s raised by the backend routers, by status code.
      `BadRequest` keeps its detail text because several handlers raise
      400 for different reasons and the first failing check decides which. */
  datatype HttpError =
    | BadRequest(detail: string)   // 400
    | Unauthorized                 // 401
    | NotFound                     // 404
    | Unprocessable                // 422, request body rejected by a validator
    | InternalError                // 500, an uncaught exception in a handler
    | ServiceUnavailable           // 503, the AI collaborator gave nothing usable
}
